=== FILE: README.md ===
# Mutual-fund portfolio backend: a Dafny model

This project models the core of an Express and MongoDB backend that tracks mutual-fund
portfolios priced by NAV (net asset value). It covers:

- **NAV reconciliation** (`lib/navService.js`). A retried fetch of a scheme's latest NAV
  reads five payload shapes, with up to five attempts and a 500 · 2^(k−1) ms backoff. The
  latest-NAV record is upserted, and a history row is inserted only for a date not yet
  recorded; the history schema's required `date` refuses an empty one after the upsert. The daily job runs this over every distinct scheme held in any portfolio, then
  backfills missing fund metadata on a best-effort basis.
- **The second NAV job** (`server.js`). It makes one request per code with no retry,
  accepts only a non-empty `data` array, and lets the store refuse a NaN NAV.
- **Portfolio handlers** (`controllers/portfolioController.js`):
  - adding a holding, with its purchase-time NAV snapshot and fund-metadata upsert;
  - listing, removing and valuing holdings;
  - the per-date value series.
- **Fund endpoints** (`controllers/fundController.js`):
  - search and pagination over the upstream master list;
  - NAV history, read upstream with a fallback to the store.
- **Admin reports** (`controllers/adminController.js`): the user listing without hashes,
  the popular-funds aggregation and the collection counts.
- **Authentication** (`controllers/authController.js`, `middleware/auth.js`):
  - the email and password rules;
  - the ordered signup and login checks;
  - Bearer-header parsing and the role guard.

The store is an immutable value (`Store.Db`): latest records and history rows in
collection order, the fund catalogue as a map keyed by scheme code, holdings, and users.
Every handler is a function from the store and its inputs to a `Step`, the store
afterwards plus the reply. The invariant `Store.Wf` collects what the schemas and the write paths
keep: one latest record per code, one history row per (code, date), every history
row dated, valid holdings and distinct users.

Everything outside the process is a parameter:

- upstream HTTP answers (`HttpOutcome`: a rejection message or a parsed JSON body), with
  the retried fetch taking `attempt -> answer`;
- password hashing and comparison;
- token signing and verification;
- date parsing and the current time.

JSON values are modelled with JavaScript's truthiness, property access, `||`, indexing,
`Number(...)`, `parseFloat(...)` and `slice` (module `Js`). NaN is `None`.

Modules, one per source file plus shared helpers:

| module | file | models |
|---|---|---|
| `Wrappers`, `Text`, `Js`, `Seqs` | wrappers.dfy, text.dfy, js.dfy, seqs.dfy | `Option`/`Result`, string helpers, JavaScript value semantics, sequence helpers |
| `Store` | store.dfy | the collections (`models/*.js`) and the two reconciliation writes |
| `NavFetch` | navfetch.dfy | `fetchLatestNavFromApi`: payload shapes and retry |
| `NavService` | navservice.dfy | `updateLatestNAV` and the daily job |
| `ServerJob` | serverjob.dfy | `fetchLatestNAV`, `updateNavInDb`, `runNavUpdateJob` in `server.js` |
| `Portfolio` | portfolio.dfy | the portfolio controller |
| `Funds` | funds.dfy | the fund controller |
| `Admin` | admin.dfy | the admin controller |
| `Auth` | auth.dfy | the auth controller |
| `AuthMiddleware` | middleware.dfy | `authenticate`, `authorizeRole` |

## Model

| member | source | states |
|---|---|---|
| Store.FindLatest | models/FundLatestNav.js:3-8 | The lookup finds a record of the code exactly when one exists, and that record is in the collection. |
| Store.UpsertLatest | lib/navService.js:66-70 | After the upsert the code's record is the new (nav, date); a record is added only when the code had none; other records keep their codes. |
| Store.UpsertAppendsFresh | lib/navService.js:66-70 | Upserting a code that has no latest record appends exactly that record and changes nothing else. |
| Store.UpsertKeepsOthers | lib/navService.js:66-70 | Upserting one code leaves every other code's record unchanged. |
| Store.UpsertKeepsUnique | models/FundLatestNav.js:4 | The upsert preserves the one-record-per-code uniqueness. |
| Store.UpsertCurrentIsNoOp | lib/navService.js:66-70 | Upserting the record a code already has leaves the collection as it was (the `updatedAt` stamp is not modelled). |
| Store.RecordHistory | lib/navService.js:72-75 | The insert is refused exactly when no (code, date) row exists and the date is empty, with the schema's required-date error and the history unchanged. Otherwise the (code, date) row exists afterwards, the history only grows by appending, a row is added iff none existed for that date, the new row carries the quote, and one row per (code, date) and dated rows are preserved. |
| Store.RecordQuote | lib/navService.js:66-75 | A reconciliation's writes, in order: the latest record always becomes the quote and other codes are untouched; then a new date extends the history, an existing (code, date) row leaves it, and an empty new date fails with the required-date error after the upsert. The other collections and well-formedness are kept. |
| Store.RecordQuoteIdempotent | lib/navService.js:66-75 | Recording the same quote a second time gives the same store and reply as recording it once. |
| Store.SameDateKeepsHistory | lib/navService.js:72-75 | A second quote for the same date adds no row. The latest record takes the second NAV, and the history keeps the first. |
| Store.DistinctSchemeCodes | lib/navService.js:93 | `distinct("schemeCode")` holds each held scheme code once, and only those. |
| NavFetch.ReadAttempt | lib/navService.js:19-50 | A rejected request gives its own error. A falsy body gives "Invalid API response". Success means the chosen entry is truthy, its `nav` parses to the quote's NAV, and its date is the quote's date. |
| NavFetch.PagedWrapperNeverYields | lib/navService.js:31-36 | The paged-wrapper branch can only be reached when `data.data` is falsy, so it always ends in "NAV entry not found". |
| NavFetch.NestedDataWins | lib/navService.js:24-26 | A record under `data.data` is read before any other shape. |
| NavFetch.DirectRecordText | lib/navService.js:29-30 | A single record under `data` is read. A text NAV is parsed, and unparseable text is "NAV not numeric". |
| NavFetch.FetchFrom | lib/navService.js:51-57 | Every attempt before the last one failed. Each failed attempt before the fifth is followed by a wait of 500 · 2^(k−1) ms. The result is the last attempt's, and an error only after attempt 5. |
| NavFetch.FetchLatestNav | lib/navService.js:13-59 | The fetch succeeds iff one of attempts 1–5 succeeds. The result is always the reading of the attempt where the fetch stopped, so on success it is the first successful attempt's quote. An error is returned only after attempt 5, and the waits before attempts 2, 3, … are the backoff delays 500 · 2^(k − 1) ms. |
| NavFetch.FourFailuresWaitFourTimes | lib/navService.js:52-55 | Four failures mean five attempts, with waits of 500, 1000, 2000 and 4000 ms. |
| NavFetch.AlwaysFailingRethrowsFifth | lib/navService.js:52-57 | When every attempt fails, the fifth attempt's error is rethrown after the four waits. |
| NavFetch.SucceedsOnFifthAttempt | lib/navService.js:51-57 | Four failures followed by a success yield the fifth attempt's quote. |
| NavService.UpdateLatestNav | lib/navService.js:61-84 | Success iff the retried fetch succeeds and its date is recorded or non-empty; then the latest record is the quote and the date's history row exists. A failed fetch writes nothing and reports the last error. A fetched empty date for a new row upserts the latest record and then fails with the required-date error. History only grows, and well-formedness is kept. |
| NavService.ReconcileIdempotent | lib/navService.js:61-84 | Reconciling twice for the same date adds no second history row. With the same quote, the second run gives the same store and report as the first. |
| NavService.BackfillFund | lib/navService.js:99-121 | A fund record is created iff none exists for the code and the answered metadata names the scheme in text; it carries that name. Existing records and the other collections are unchanged. |
| NavService.ReconcileOne | lib/navService.js:94-127 | One job iteration reports the code's own outcome whenever that outcome is a success or the store holds no undated row for the code. On success the code's latest record is its quote. Other codes' records are untouched, and dated history stays dated. |
| NavService.JobOutcome | lib/navService.js:61-84 | A code's outcome in a store of dated rows names the code, and is a success iff the code's own retried fetch succeeds with a non-empty date, carrying that quote; a failure carries the fetch's last error, or the required-date error. |
| NavService.RunCodes | lib/navService.js:94-127 | Every code gets one report, in order. A report that is a success is that code's own outcome, and in a store of dated rows every report is, whatever happened to earlier codes. |
| NavService.RunCodesLatestFrame | lib/navService.js:94-127 | The job never changes the latest record of a code it was not given. |
| NavService.RunCodesAppendsOnly | lib/navService.js:94-127 | The job only appends history rows and leaves holdings and users alone. |
| NavService.RunCodesFundsFrame | lib/navService.js:99-121 | Existing fund records survive the job. New ones are only for the job's codes. |
| NavService.RunCodesKeepsWf | lib/navService.js:94-127 | The job keeps the store well formed, including one history row per (code, date). |
| NavService.RunCodesLastWriteWins | lib/navService.js:94-127 | With distinct codes, a successful code's latest record after the whole job is its own fetched quote. |
| NavService.DailyNavUpdate | lib/navService.js:93-127 | Every distinct held scheme code is reconciled exactly once, each success report being that code's own outcome, and every report when the stored rows are dated. Holdings and users are unchanged, history only grows, and well-formedness is kept. |
| ServerJob.FailureMessage | server.js:74-76 | Every error of the one-shot fetch starts with the fixed prefix and names the code. |
| ServerJob.FetchLatestNavOnce | server.js:60-78 | Errors name the code. A rejection wraps the request's message, and a payload whose `data` is missing or falsy, or whose `data.length` is missing or falsy, is "No data". It succeeds iff `data[0]` is neither null nor undefined; then the NAV is `Number(d.nav)` and the date is `d.date`. |
| ServerJob.UpdateNavInDb | server.js:80-96 | The write fails with the cast error iff the NAV is NaN, writing nothing; otherwise the latest record is the quote. Then an existing or non-empty date succeeds with the date's history row present, and an empty new date fails with the required-date error after the upsert. History only grows. |
| ServerJob.ServerOutcome | server.js:107-115 | A code's outcome in a store of dated rows is refreshed iff its one fetch yields a numeric NAV and a non-empty date, and the log then carries that quote; otherwise it is skipped with the fetch error, the cast error or the required-date error. |
| ServerJob.ServerReconcile | server.js:107-115 | The log is the code's own outcome whenever that is a refresh or the store holds no undated row for the code. A failed fetch or NaN NAV writes nothing; a numeric quote is upserted as the latest record; other codes are untouched. |
| ServerJob.ServerRunCodes | server.js:107-115 | One log entry per code in order, each refresh being that code's own outcome, and every entry when the stored rows are dated. Funds, holdings and users are unchanged, and history only grows. |
| ServerJob.ServerRunCodesLatestFrame | server.js:107-115 | The job never changes the latest record of a code it was not given. |
| ServerJob.ServerLastWriteWins | server.js:107-115 | With distinct codes, a refreshed code's latest record after the job is its own quote. |
| ServerJob.RunNavUpdateJob | server.js:98-121 | With no holdings it returns before any write. Otherwise every distinct held code is tried exactly once, each refresh being that code's own outcome (every entry when the stored rows are dated), and well-formedness is kept. |
| ServerJob.DataArrayAgrees | server.js:64-70 | A `{ data: [record, …] }` payload whose first record's NAV is a whole number written in digits yields the same quote in both jobs, whatever records follow. |
| ServerJob.OnceReadsFirstRecord | server.js:64-70 | For any object first in a `data` array, this job's quote is `Number` of its `nav` and its `date`, whatever follows it. |
| ServerJob.ServiceReadsFirstRecord | lib/navService.js:27-48 | For any object first in a `data` array, the NAV service reads that object: `parseFloat` of its `nav`, or "NAV not numeric". |
| ServerJob.DirectRecordOnlyInService | server.js:64-72 | Any single record object under `data` that has no `data` field and no `length` field, and whose NAV is a whole number written in digits, is a quote to the NAV service but "No data" to this job. |
| ServerJob.TransientFailureOnlyRecoveredByService | server.js:60-78 | One failure followed by a success is recovered by the service's second attempt, but this job gives up on the code. |
| Portfolio.Mine | controllers/portfolioController.js:90 | The user's holdings are exactly the stored holdings with that user id. |
| Portfolio.MineSplit | controllers/portfolioController.js:90 | The lookup keeps collection order: two stretches of the collection give their users' holdings one after the other. |
| Portfolio.QuotedFor | controllers/portfolioController.js:170-171 | The queried latest records are exactly those of the held codes. The first one is the first such record in collection order. |
| Portfolio.NavRecord | controllers/portfolioController.js:172-173 | The map lookup finds a record of the code exactly when one exists. |
| Portfolio.NavRecordOfQuoted | controllers/portfolioController.js:170-173 | For a held code, the lookup among the queried records equals the lookup in the whole collection. |
| Portfolio.HeldPricesAgree | controllers/portfolioController.js:170-181 | Every holding is priced the same from the queried records as from the whole collection. |
| Portfolio.NavRecordIsFindLatest | models/FundLatestNav.js:4 | Under the unique index, the map lookup is the record `findOne` returns. |
| Portfolio.CurrentNav | controllers/portfolioController.js:180-181 | There is no current NAV exactly when no latest record has the code. |
| Portfolio.TotalsStep | controllers/portfolioController.js:179-186 | Each holding adds its invested amount and its current value to the running totals. |
| Portfolio.AsOn | controllers/portfolioController.js:202 | `asOn` is the date of the first latest record of a held code in collection order, and null iff there is none. |
| Portfolio.ValueHoldings | controllers/portfolioController.js:175-196 | The loop's totals are the sums over all holdings. It produces one entry per holding that reports the holding's own figures and value. |
| Portfolio.PortfolioValue | controllers/portfolioController.js:152-219 | The totals are the user's invested sum and current value. `profitLoss` is their difference, and the percentage is 0 when nothing was invested. There is one entry per holding. No holdings gives the all-zero answer. |
| Portfolio.ValuationExample | controllers/portfolioController.js:179-201 | 10 units bought at 100 and 5 at 100, priced at 120 and 90, are worth 1650, a 150 (10 %) profit. |
| Portfolio.UnpricedHoldingsAreWorthZero | controllers/portfolioController.js:181-182 | Unpriced holdings are worth 0, so the loss is the whole investment. |
| Portfolio.ListedWith | controllers/portfolioController.js:97-111 | A listed holding keeps its code, units and date. It has a value iff it has a non-zero NAV, and the value is units × NAV. |
| Portfolio.ListPortfolio | controllers/portfolioController.js:87-124 | One entry per holding of the user, in order, each priced at the code's current NAV. |
| Portfolio.ListingAgreesWithValuation | controllers/portfolioController.js:97-111 | The listing and the valuation agree on every holding's worth, with null counted as 0. |
| Portfolio.HeldRows | controllers/portfolioController.js:231-234 | The queried history rows are exactly those of the held codes. With no codes there are none. |
| Portfolio.HeldRowsSplit | controllers/portfolioController.js:231-234 | Two stretches of the history give their held rows one after the other, so creation order is kept. |
| Portfolio.DateTotalOfAbsentDate | controllers/portfolioController.js:239 | A date that no row carries totals 0. |
| Portfolio.SeriesDatesDistinct | controllers/portfolioController.js:237-250 | No date appears twice in the series, and each point's value is the summed worth of that date's rows. |
| Portfolio.SeriesCoversDates | controllers/portfolioController.js:237-250 | The series has a point for every date a row carries and for no other date. |
| Portfolio.SeriesFirstSeenOrder | controllers/portfolioController.js:237-250 | The series lists its dates in the order the rows first show them. |
| Portfolio.AccumulateDates | controllers/portfolioController.js:237-246 | The loop's keys are the distinct dates in first-seen order, and each total is that date's summed worth. |
| Portfolio.PortfolioHistory | controllers/portfolioController.js:224-258 | As written: the last 30 dates of the series built from the user's oldest 1000 history rows. No holdings gives no points. |
| Portfolio.TwoFundsOnOneDate | controllers/portfolioController.js:238-244 | Two funds' rows on one date add up: units held in each fund × that fund's NAV. |
| Portfolio.DuplicateRowCountsTwice | controllers/portfolioController.js:238-244 | A duplicated (code, date) row would be counted twice, which is why history must stay unique. |
| Portfolio.OldestRowsHideNewestDate | controllers/portfolioController.js:231-235 | With more than 1000 held rows, a date first seen in the newest row never appears in the series. |
| Portfolio.NewDateEndsSeries | controllers/portfolioController.js:237-251 | A date first recorded by the last row is the last point of the series. |
| Portfolio.NewestDateShown | controllers/portfolioController.js:231-251 | When the newest 1000 rows are read, a date first recorded by the newest row is the last point shown. |
| Portfolio.RecentPortfolioHistory | controllers/portfolioController.js:224-258 | Corrected: the last 30 dates of the series built from the newest 1000 rows. |
| Portfolio.Without | controllers/portfolioController.js:138 | The kept holdings are exactly those that are not this user's holdings of this code. |
| Portfolio.RemoveFromPortfolio | controllers/portfolioController.js:129-147 | An empty code is a 400. Text that is not a number is a 500 and changes nothing. Otherwise exactly this user's holdings of the code are removed. The other collections and well-formedness are kept. |
| Portfolio.WithoutKeepsOtherUsers | controllers/portfolioController.js:138 | Another user's portfolio is unchanged, order included. |
| Portfolio.WithoutKeepsOtherSchemes | controllers/portfolioController.js:138 | The user's holdings of other schemes are unchanged, order included. |
| Portfolio.WithoutIdempotent | controllers/portfolioController.js:138 | Removing twice removes nothing more. |
| Portfolio.SchemeCodeNumber | controllers/portfolioController.js:35-48 | A scheme code accepted by the store is `Number(schemeCode)`: every whole number is accepted as itself, and NaN is never accepted. |
| Portfolio.UpsertFundMeta | controllers/portfolioController.js:56-71 | Afterwards the fund exists and each of its four fields is the write the answer makes for it: the answer's text when it carries one, erased for a null, and the stored value when absent. A value that cannot be cast leaves the store as it was. Other funds and collections are unchanged. |
| Portfolio.NewHolding | models/Portfolio.js:3-11 | A created holding has positive units and invested amount = purchase NAV × units. |
| Portfolio.AddHoldingKeepsWf | models/Portfolio.js:3-11 | Appending a valid holding keeps the store well formed. |
| Portfolio.AddToPortfolio | controllers/portfolioController.js:10-82 | The request is a 400 iff the input check fails, and a NAV-unavailable 400 iff the answer has no first record. It succeeds iff moreover the scheme code, the NAV, the units and the purchase date all convert. An added holding belongs to the user, is valid, carries those converted values and the NAV snapshot, which is also the code's latest record, and the fund metadata is upserted from the answer. An invalid or rejected request writes nothing, and no other reply adds a holding or a fund. History and users are unchanged, and well-formedness is kept. |
| Portfolio.BuyAtQuote | controllers/portfolioController.js:34-75 | After a first record is found, the add succeeds iff the scheme code, NAV, units and purchase date all convert, and any other outcome is a 500 that adds no holding or fund. |
| Portfolio.UnreadableUnitsKeepSnapshot | controllers/portfolioController.js:34-53 | A non-numeric `units` value fails after the NAV snapshot is written: a 500 with the snapshot kept. |
| Funds.FieldMatches | controllers/fundController.js:20-21 | The field test throws exactly when `(v \|\| "")` is not text. |
| Funds.FundMatchesMeansQuery | controllers/fundController.js:18-22 | When the callback does not throw, it keeps a fund iff the lower-cased name or fund house (missing read as "") contains the query. |
| Funds.FilterFunds | controllers/fundController.js:16-23 | The filter fails iff some element's test throws. Otherwise it keeps exactly the funds matching the query. |
| Funds.FilterFundsSplit | controllers/fundController.js:16-23 | Filtering keeps the list's order: two stretches filter to their results joined, and a throw in either fails the whole. |
| Funds.TotalPages | controllers/fundController.js:39 | A positive limit gives at least one page, and `ceil(total / limit)` pages: enough for the funds, one fewer is not. No funds or a NaN limit gives 1 page. |
| Funds.PagesCoverFunds | controllers/fundController.js:25-39 | Every fund lies on one of the counted pages, at index range [(p−1)·limit, p·limit). |
| Funds.ProjectAll | controllers/fundController.js:26-32 | The projection fails iff some element is null or undefined. Otherwise each item is its fund's five fields, with the code converted by `Number`. |
| Funds.PageOf | controllers/fundController.js:24-41 | The page reports the filtered count, the page number and the page count, and holds no more funds than the filtered list. |
| Funds.ListFunds | controllers/fundController.js:10-50 | Any failure is the generic 500 message, and a rejected request fails. A success needs an array (or falsy) body and a search that does not throw, and whenever both hold the reply is the filtered list's page for the requested page number and limit (which fails only if projecting the page fails). An empty search counts every fund. |
| Funds.PageIsWindow | controllers/fundController.js:25-26 | For whole page numbers and limits, the page is the clipped window [(p−1)·l, p·l) of the list, in order. |
| Funds.PageOfWindow | controllers/fundController.js:25-32 | For whole, positive page and limit, the page holds exactly the projected funds of that window. |
| Funds.ListedPageIsWindow | controllers/fundController.js:12-26 | An unsearched request whose page and limit are decimal texts answers that page of the whole master list. |
| Funds.UpstreamPoints | controllers/fundController.js:72 | The mapping fails iff an entry is null or undefined. Otherwise each point is the entry's date and `Number(nav)`. |
| Funds.FromUpstream | controllers/fundController.js:64-84 | The upstream answer holds at most 30 points. `currentNav` and `asOn` come from the first point, or are null when there are none. A rejected request falls through. |
| Funds.RowsOfFundMembers | controllers/fundController.js:87-89 | The fallback's rows are exactly the stored rows of that numeric code. |
| Funds.NewestFirst | controllers/fundController.js:90-91 | At most n rows, the newest first. |
| Funds.LatestFor | controllers/fundController.js:92-94 | The latest record of a numeric code, found iff one exists. |
| Funds.FromStore | controllers/fundController.js:85-104 | The fallback holds at most 30 points. NAV and date come from the latest record, or are null. The name is null without a latest record and left out with one. |
| Funds.FallbackNewestFirst | controllers/fundController.js:87-91 | The fallback lists the fund's stored rows newest first: the first min(rows, 30) of them, point i being the i-th newest row's date and NAV. |
| Funds.GetFundNavHistory | controllers/fundController.js:55-110 | An empty code is a 400. At most 30 points. Whenever the upstream read succeeds, the reply is that upstream history: its first 30 points, with NAV and date from the first one. Whenever it throws (a rejection, a null body, a non-array `data`, a null entry), the reply is the store fallback, or a 500 when the code is not a number. A 500 happens only then. |
| Funds.UpstreamKeepsFirstThirty | controllers/fundController.js:68-73 | An upstream `data` array of records gives its first 30 entries, in order, with each NAV read by `Number`. |
| Funds.ReconciledDayLeadsFallback | controllers/fundController.js:87-101 | After a reconciliation fetches a quote, the store fallback reports that NAV and date as current; when the date was new and non-empty, the fallback's first point is that day. |
| Admin.ListingIgnoresHashes | controllers/adminController.js:10 | Changing any password hashes does not change the listing. |
| Admin.CountOf | controllers/adminController.js:41 | A scheme's holding count is positive iff the scheme is held. |
| Admin.Groups | controllers/adminController.js:37-43 | One row per distinct held scheme, carrying that scheme's summed units and holding count. |
| Admin.SortByUnits | controllers/adminController.js:44 | The sorted rows are a permutation of the groups, in descending order of units. |
| Admin.PopularFunds | controllers/adminController.js:34-52 | At most 10 rows (all of them when there are fewer groups), in descending order of units, each a group row. |
| Admin.PopularRowsAreGroups | controllers/adminController.js:36-43 | Each row is a held scheme with its units summed and its holdings counted. |
| Admin.PopularCodesDistinct | controllers/adminController.js:39 | No scheme appears in two rows. |
| Admin.LeftOutRanksLower | controllers/adminController.js:44-45 | The cut keeps the top ten: a group left out has no more units than any row shown. |
| Admin.GroupsCountEveryHolding | controllers/adminController.js:39-41 | The groups' counts add up to the number of holdings: each holding is counted once. |
| Admin.StatsAfterAdd | controllers/adminController.js:58-61 | An accepted add increases the holdings count by one. Anything else leaves it. Users are unchanged. |
| Auth.EmailRuleIsPattern | controllers/authController.js:29-34 | The email rule accepts a text iff the email pattern matches it. The rule: exactly one '@', no whitespace, a non-empty local part, and a '.' after the '@' with text on both sides. |
| Auth.CheckPassword | controllers/authController.js:17 | The one-pass check accepts exactly the strong passwords: at least 8 characters and no line terminator, with a lower-case letter, an upper-case letter, a digit, and a character that is neither a word character nor whitespace. |
| Auth.UnderscoreIsNotSpecial | controllers/authController.js:17 | '_' does not count as the special character, but '!' does. |
| Auth.FindByEmail | controllers/authController.js:87 | The lookup finds a user with exactly this email iff one exists. |
| Auth.FreshId | controllers/authController.js:53-58 | A created user's id is greater than, hence different from, every stored user's id. |
| Auth.Signup | controllers/authController.js:19-76 | Missing fields give 400 before any format check. Then an invalid email, then a weak password, each 400. A taken email is a 409, and nothing is written. A new user has role "user" and the hashed password, and gets a token for its id, email and role. Distinct users stay distinct. |
| Auth.SignupRejectsTakenEmail | controllers/authController.js:45-50 | A registered email is refused with 409 and the store unchanged. |
| Auth.Login | controllers/authController.js:78-117 | Missing fields give 400. Success iff the email is known and the password matches its hash, with a token for that user. |
| Auth.LoginDoesNotRevealAccounts | controllers/authController.js:87-99 | An unknown email and a wrong password get the identical 401. |
| Auth.SignupThenLogin | controllers/authController.js:52-101 | A user who has just signed up logs in with the same password and gets the same token and profile. |
| AuthMiddleware.Authenticate | middleware/auth.js:7-29 | A missing header is 401. The request proceeds or fails verification iff the header is "Bearer", one space, and a space-free token. Only that token is verified. It proceeds iff verification succeeds, with the payload as the user. |
| AuthMiddleware.HeaderFormatIsExact | middleware/auth.js:13-18 | "bearer x" and "Bearer  x" are format errors. |
| AuthMiddleware.AuthorizeRole | middleware/auth.js:31-40 | No user gives 401. Another role gives 403. The required role proceeds. |
| AuthMiddleware.DefaultSecretsRejectIssuedTokens | middleware/auth.js:5 | As written, with no secret configured, a token signed at signup or login is refused by `authenticate`. |
| AuthMiddleware.SharedSecret | controllers/authController.js:7 | Corrected: one secret for signing and verifying, equal to the configured one when set. |
| AuthMiddleware.SignupTokenAuthenticates | middleware/auth.js:7-40 | With a shared secret, a signup's token authenticates as the new user, who passes a "user" guard and is refused an "admin" one. |
| Text.SplitTwo | middleware/auth.js:13-14 | `split(" ")` gives exactly [a, b] iff the text is a, one space, b, with no space in either. |
| Seqs.Dedup | controllers/portfolioController.js:92 | `[...new Set(...)]` keeps each element once, and only the elements present. |
| Seqs.DedupFirstSeenOrder | controllers/portfolioController.js:92 | The distinct elements are listed in the order of their first occurrences. |

## Left out

- Network, timers and scheduling. HTTP requests are inputs (`HttpOutcome`), and the retry
  waits are a returned list of milliseconds. The cron schedules, the startup trigger and
  Express routing are not modelled.
- Cryptography. Password hashing and comparison, and token signing and verification, are
  function parameters. Token expiry is not modelled. A token's extra claims (`iat`,
  `exp`) are not modelled.
- models/User.js is not part of this model. Users carry id, name, email, hash and role,
  and emails and ids are kept distinct as the invariant `DistinctUsers`.
- Mongo internals:
  - indexes, `populate` and document `_id`s;
  - error texts other than the handlers' own;
  - `listAllPortfolios` (a `populate` listing with no logic of its own).
- Concurrency: the check-then-insert race on history rows under overlapping jobs.
- Floating point. NAVs, units and money are real numbers. `toFixed(2)` rounding is not
  modelled. Number parsing covers decimal literals only: exponents, `Infinity`, hex and
  array-to-text conversion are left out.
- Dates. A payload's date is stored as its text (a non-text date reads as ""), not as the
  driver's cast. `new Date(purchaseDate)` is the parameter `toDate`, and `new Date()` is
  the parameter `now`.
- `toLowerCase` is ASCII-only in the search.
- Query parameters are single texts or absent. Repeated parameters (arrays) are not
  modelled.
- A number or boolean value in fund metadata is treated as unwritable (`Unwritable`),
  not cast to text.
- A non-integral `Number(schemeCode)` in `addToPortfolio` is treated as a failed cast.
- `Object.keys` lists the dates in insertion order, which assumes date texts are not
  integer-like keys. Prototype-named dates (e.g. "constructor") are not modelled.
- `listFunds` logs the fetch error and answers one fixed 500 message. Only that message is
  modelled.
- Admin.SortByUnits: Mongo does not fix the order of groups with equal `totalUnits`. The
  model sorts stably from first-seen order, so ties are one admissible order.
- Admin.Groups: `$group` order is unspecified. The model uses first-seen order, and only
  `PopularFunds`' sortedness and top-ten property depend on the order.
- Auth.Signup: request fields that are present but not text (numbers, objects) are not
  modelled. A field is absent, empty or text.
- Auth.FreshId: Mongo's ObjectId generation is replaced by one more than the largest id.
- Store.UpsertCurrentIsNoOp, Store.RecordQuoteIdempotent, NavService.ReconcileIdempotent:
  the `updatedAt: new Date()` stamp written by every upsert (lib/navService.js:68,
  server.js:83, models/FundLatestNav.js:7) is not modelled, so "changes nothing" ignores
  that timestamp.
- NavService.RunCodes, NavService.DailyNavUpdate, ServerJob.ServerRunCodes,
  ServerJob.RunNavUpdateJob: that every report is the code's own outcome is stated for
  stores whose history rows all carry a date, which the schema's required `date`
  (models/FundNavHistory.js:6) guarantees; a success report is the code's own outcome
  unconditionally.
- The latest-NAV upsert does not run the schema's validators, so an empty date is stored
  in the latest record; only the history insert refuses it.
- Auth.CheckPassword: lengths count Unicode code points, while JavaScript's `.{8,}` counts
  UTF-16 code units, so a password with characters outside the Basic Multilingual Plane
  (e.g. "Aa1!😀😀") passes the source's length rule but not the model's.
- Portfolio.PortfolioHistory: the source's series keeps dates in first-seen order, not
  sorted by calendar date. The model follows the code.
- Middleware rate limiting and the request-validator chains are not modelled. The
  validators' password pattern repeats the controller's.

## Findings

| source | as written | input that shows it | evidently intended | confidence | as-written member | corrected member |
|---|---|---|---|---|---|---|
| controllers/portfolioController.js:231-235 | History rows are sorted oldest first and cut to 1000 before the last 30 dates are taken | one held fund with 1001 history rows on distinct dates: the newest date is never in the series | read the newest 1000 rows, so the series ends at the most recent dates | not executed; follows from the query as written | Portfolio.OldestRowsHideNewestDate | Portfolio.NewestDateShown |
| middleware/auth.js:5 | Tokens are verified with `JWT_SECRET \|\| "secret"`, but controllers/authController.js:7 signs them with `JWT_SECRET \|\| "changeme-secret"` | no `JWT_SECRET` configured: the token returned by signup is refused with 401 "Invalid or expired token" | one shared default secret for signing and verifying | not executed; applies only when `JWT_SECRET` is unset | AuthMiddleware.DefaultSecretsRejectIssuedTokens | AuthMiddleware.SignupTokenAuthenticates |

=== FILE: admin.dfy ===
/**
 * The admin endpoints: the user listing without password hashes, the popular-funds
 * aggregation (group holdings by scheme, sum units, count holdings, sort by units
 * descending, keep ten) and the collection counts.
 */
module Admin {
  import opened Wrappers
  import opened Js
  import opened Seqs
  import opened Store
  import opened NavFetch
  import opened Portfolio

  // ---------------------------------------------------------------- users

  /** A user as the admin listing shows it: every stored field except the password hash. */
  datatype PublicUser = PublicUser(id: UserId, name: string, email: string, role: string)

  function Public(u: User): (p: PublicUser)
    ensures p.id == u.id && p.name == u.name && p.email == u.email && p.role == u.role
  {
    PublicUser(u.id, u.name, u.email, u.role)
  }

  /** `User.find().select("-passwordHash")`: every user, in store order, hash removed. */
  function ListUsers(db: Db): (r: seq<PublicUser>)
    ensures |r| == |db.users|
    ensures forall k :: 0 <= k < |r| ==> r[k] == Public(db.users[k])
  {
    seq(|db.users|, k requires 0 <= k < |db.users| => Public(db.users[k]))
  }

  /** Two user collections that differ at most in their password hashes. */
  predicate SameButHashes(a: seq<User>, b: seq<User>)
  {
    && |a| == |b|
    && forall k :: 0 <= k < |a| ==> a[k].(passwordHash := "") == b[k].(passwordHash := "")
  }

  /** The listing cannot reveal anything about a hash: changing hashes leaves it unchanged. */
  lemma ListingIgnoresHashes(db: Db, db': Db)
    requires SameButHashes(db.users, db'.users)
    ensures ListUsers(db) == ListUsers(db')
  {
    forall k | 0 <= k < |db.users|
      ensures Public(db.users[k]) == Public(db'.users[k])
    {
      assert db.users[k].(passwordHash := "") == db'.users[k].(passwordHash := "");
    }
  }

  // ---------------------------------------------------------------- popular funds

  /** One `$group` row: a scheme, the sum of its holdings' units and their number. */
  datatype Popularity = Popularity(schemeCode: int, totalUnits: real, count: nat)

  /** `$sum: "$units"` over the holdings of one scheme. */
  function UnitsOf(hs: seq<Holding>, code: int): real
    decreases |hs|
  {
    if |hs| == 0 then 0.0
    else UnitsOf(hs[..|hs| - 1], code) + (if hs[|hs| - 1].schemeCode == code then hs[|hs| - 1].units else 0.0)
  }

  /** `$sum: 1` over the holdings of one scheme. */
  function CountOf(hs: seq<Holding>, code: int): (n: nat)
    ensures n <= |hs|
    ensures n > 0 <==> code in CodesOf(hs)
    decreases |hs|
  {
    if |hs| == 0 then 0
    else
      var front := hs[..|hs| - 1];
      assert CodesOf(hs) == CodesOf(front) + [hs[|hs| - 1].schemeCode];
      CountOf(front, code) + (if hs[|hs| - 1].schemeCode == code then 1 else 0)
  }

  /** The `$group` stage: one row per distinct scheme code, in first-seen order. */
  function Groups(hs: seq<Holding>): (r: seq<Popularity>)
    ensures |r| == |DistinctSchemeCodes(hs)|
    ensures forall k :: 0 <= k < |r| ==> r[k].schemeCode == DistinctSchemeCodes(hs)[k]
    ensures forall k :: 0 <= k < |r| ==>
              r[k].totalUnits == UnitsOf(hs, r[k].schemeCode) && r[k].count == CountOf(hs, r[k].schemeCode)
  {
    var codes := DistinctSchemeCodes(hs);
    seq(|codes|, k requires 0 <= k < |codes| => Popularity(codes[k], UnitsOf(hs, codes[k]), CountOf(hs, codes[k])))
  }

  /** Rows ordered by total units, largest first. */
  predicate Descending(s: seq<Popularity>)
  {
    forall i, j :: 0 <= i < j < |s| ==> s[i].totalUnits >= s[j].totalUnits
  }

  /** Inserts a row after every row with at least as many units, so ties keep their order. */
  function Insert(x: Popularity, s: seq<Popularity>): (r: seq<Popularity>)
    requires Descending(s)
    ensures Descending(r)
    ensures multiset(r) == multiset(s) + multiset{x}
    ensures forall y :: y in r <==> y in s || y == x
    ensures |r| == |s| + 1
  {
    if |s| == 0 then [x]
    else if s[0].totalUnits >= x.totalUnits then
      var rest := Insert(x, s[1..]);
      InsertBehind(x, s, rest);
      [s[0]] + rest
    else
      [x] + s
  }

  /** The step of `Insert` that keeps the head and inserts into the tail. */
  lemma InsertBehind(x: Popularity, s: seq<Popularity>, rest: seq<Popularity>)
    requires |s| > 0 && Descending(s) && s[0].totalUnits >= x.totalUnits
    requires Descending(rest) && multiset(rest) == multiset(s[1..]) + multiset{x}
    requires forall y :: y in rest <==> y in s[1..] || y == x
    requires |rest| == |s|
    ensures var r := [s[0]] + rest;
            && Descending(r)
            && multiset(r) == multiset(s) + multiset{x}
            && (forall y :: y in r <==> y in s || y == x)
  {
    assert s == [s[0]] + s[1..];
    assert forall k :: 0 <= k < |rest| ==> rest[k] in s[1..] || rest[k] == x;
    assert forall k :: 0 <= k < |rest| ==> s[0].totalUnits >= rest[k].totalUnits;
  }

  /** The `$sort: { totalUnits: -1 }` stage, as a stable insertion sort. */
  function SortByUnits(s: seq<Popularity>): (r: seq<Popularity>)
    ensures Descending(r)
    ensures multiset(r) == multiset(s)
    ensures |r| == |s|
    decreases |s|
  {
    if |s| == 0 then []
    else
      assert s == s[..|s| - 1] + [s[|s| - 1]];
      Insert(s[|s| - 1], SortByUnits(s[..|s| - 1]))
  }

  const PopularLimit: nat := 10

  /** `popularFunds`: the grouped rows, sorted by units descending, the first ten. */
  function PopularFunds(db: Db): (r: seq<Popularity>)
    ensures |r| == if |Groups(db.holdings)| <= PopularLimit then |Groups(db.holdings)| else PopularLimit
    ensures Descending(r)
    ensures forall k :: 0 <= k < |r| ==> r[k] in Groups(db.holdings)
  {
    var groups := Groups(db.holdings);
    var sorted := SortByUnits(groups);
    SortedRowsAreGroups(groups, sorted);
    TakeKeepsOrder(sorted, PopularLimit);
    Take(sorted, PopularLimit)
  }

  /** A prefix of a descending sequence is descending and holds the sequence's first rows. */
  lemma TakeKeepsOrder(s: seq<Popularity>, n: nat)
    requires Descending(s)
    ensures Descending(Take(s, n))
    ensures forall k :: 0 <= k < |Take(s, n)| ==> Take(s, n)[k] == s[k]
  {
  }

  /** Sorting only reorders: each sorted row is one of the groups. */
  lemma SortedRowsAreGroups(groups: seq<Popularity>, sorted: seq<Popularity>)
    requires multiset(sorted) == multiset(groups)
    ensures forall k :: 0 <= k < |sorted| ==> sorted[k] in groups
  {
    forall k | 0 <= k < |sorted|
      ensures sorted[k] in groups
    {
      assert sorted[k] in multiset(sorted);
    }
  }

  /** Every row describes one scheme that is held, with its units summed and its holdings counted. */
  lemma PopularRowsAreGroups(db: Db, k: nat)
    requires k < |PopularFunds(db)|
    ensures var row := PopularFunds(db)[k];
            && (exists i :: 0 <= i < |db.holdings| && db.holdings[i].schemeCode == row.schemeCode)
            && row.totalUnits == UnitsOf(db.holdings, row.schemeCode)
            && row.count == CountOf(db.holdings, row.schemeCode)
            && row.count > 0
  {
    var row := PopularFunds(db)[k];
    var g := Groups(db.holdings);
    var i :| 0 <= i < |g| && g[i] == row;
    assert row.schemeCode in DistinctSchemeCodes(db.holdings);
  }

  /** No scheme appears in two rows. */
  lemma PopularCodesDistinct(db: Db)
    ensures forall i, j :: 0 <= i < j < |PopularFunds(db)| ==>
              PopularFunds(db)[i].schemeCode != PopularFunds(db)[j].schemeCode
  {
    var g := Groups(db.holdings);
    var sorted := SortByUnits(g);
    assert NoDups(DistinctSchemeCodes(db.holdings));
    forall i, j | 0 <= i < j < |sorted|
      ensures sorted[i].schemeCode != sorted[j].schemeCode
    {
      SortedCodesDistinct(g, sorted, i, j);
    }
  }

  /** A permutation of rows with distinct codes still has distinct codes. */
  lemma SortedCodesDistinct(g: seq<Popularity>, sorted: seq<Popularity>, i: nat, j: nat)
    requires forall a, b :: 0 <= a < b < |g| ==> g[a].schemeCode != g[b].schemeCode
    requires multiset(sorted) == multiset(g)
    requires i < j < |sorted|
    ensures sorted[i].schemeCode != sorted[j].schemeCode
  {
    if sorted[i].schemeCode == sorted[j].schemeCode {
      assert sorted[i] in multiset(g) && sorted[j] in multiset(g);
      var a :| 0 <= a < |g| && g[a] == sorted[i];
      var b :| 0 <= b < |g| && g[b] == sorted[j];
      if a == b {
        assert sorted[i] == sorted[j];
        assert sorted == sorted[..i] + [sorted[i]] + sorted[i + 1..j] + [sorted[j]] + sorted[j + 1..];
        assert multiset(sorted)[sorted[i]] >= 2;
        CountAtMostOne(g, a);
        assert false;
      }
    }
  }

  /** In rows with distinct codes, each row occurs once. */
  lemma CountAtMostOne(g: seq<Popularity>, a: nat)
    requires forall x, y :: 0 <= x < y < |g| ==> g[x].schemeCode != g[y].schemeCode
    requires a < |g|
    ensures multiset(g)[g[a]] == 1
  {
    assert g == g[..a] + [g[a]] + g[a + 1..];
    assert g[a] !in g[..a] by {
      forall x | 0 <= x < a ensures g[..a][x] != g[a] { assert g[x].schemeCode != g[a].schemeCode; }
    }
    assert g[a] !in g[a + 1..] by {
      forall x | a + 1 <= x < |g| ensures g[x] != g[a] { assert g[x].schemeCode != g[a].schemeCode; }
    }
    assert multiset(g) == multiset(g[..a]) + multiset{g[a]} + multiset(g[a + 1..]);
  }

  /**
   * The ten rows are the top ten: a held scheme left out has no more units than any
   * row shown.
   */
  lemma {:induction false} LeftOutRanksLower(db: Db, g: Popularity)
    requires g in Groups(db.holdings) && g !in PopularFunds(db)
    ensures forall k :: 0 <= k < |PopularFunds(db)| ==> PopularFunds(db)[k].totalUnits >= g.totalUnits
  {
    var sorted := SortByUnits(Groups(db.holdings));
    var shown := PopularFunds(db);
    assert g in multiset(sorted);
    var j :| 0 <= j < |sorted| && sorted[j] == g;
    assert shown == sorted[..|shown|];
    ShownPrefix(sorted, |shown|, j);
  }

  /** An element at an index inside a prefix belongs to the prefix. */
  lemma ShownPrefix(s: seq<Popularity>, n: nat, j: nat)
    requires n <= |s| && j < |s|
    ensures j < n ==> s[j] in s[..n]
  {
    if j < n {
      assert s[..n][j] == s[j];
    }
  }

  /** The sum of the holding counts of the given codes. */
  function CountSum(hs: seq<Holding>, codes: seq<int>): nat
    decreases |codes|
  {
    if |codes| == 0 then 0 else CountSum(hs, codes[..|codes| - 1]) + CountOf(hs, codes[|codes| - 1])
  }

  /** One more holding adds one to the sum over distinct codes exactly when its code is among them. */
  lemma {:induction false} CountSumOfAbsent(hs: seq<Holding>, h: Holding, codes: seq<int>)
    requires NoDups(codes)
    ensures CountSum(hs + [h], codes) == CountSum(hs, codes) + (if h.schemeCode in codes then 1 else 0)
    decreases |codes|
  {
    if |codes| > 0 {
      var front := codes[..|codes| - 1];
      var last := codes[|codes| - 1];
      assert NoDups(front);
      assert (hs + [h])[..|hs + [h]| - 1] == hs;
      CountSumOfAbsent(hs, h, front);
      assert h.schemeCode in codes <==> h.schemeCode in front || h.schemeCode == last;
      assert last !in front;
    }
  }

  /** The groups' counts add up to the number of holdings: each holding is counted exactly once. */
  lemma {:induction false} GroupCountsCoverHoldings(hs: seq<Holding>)
    ensures CountSum(hs, DistinctSchemeCodes(hs)) == |hs|
    decreases |hs|
  {
    if |hs| > 0 {
      var front := hs[..|hs| - 1];
      var h := hs[|hs| - 1];
      assert hs == front + [h];
      GroupCountsCoverHoldings(front);
      var before := DistinctSchemeCodes(front);
      var after := DistinctSchemeCodes(hs);
      assert CodesOf(hs) == CodesOf(front) + [h.schemeCode];
      assert after == (if h.schemeCode in before then before else before + [h.schemeCode]);
      CountSumOfAbsent(front, h, before);
      if h.schemeCode !in before {
        assert h.schemeCode !in CodesOf(front);
        assert CountOf(front, h.schemeCode) == 0;
        assert CountSum(hs, after) == CountSum(hs, before) + CountOf(hs, h.schemeCode);
      }
    }
  }

  /** The counts of all groups, before the top-ten cut, add up to the number of holdings. */
  lemma GroupsCountEveryHolding(db: Db)
    ensures CountSum(db.holdings, DistinctSchemeCodes(db.holdings)) == |db.holdings|
  {
    GroupCountsCoverHoldings(db.holdings);
  }

  // ---------------------------------------------------------------- stats

  /** `systemStats`: the number of users, holdings and funds. */
  datatype Stats = Stats(users: nat, portfolios: nat, funds: nat)

  function SystemStats(db: Db): (r: Stats)
    ensures r.users == |db.users| && r.portfolios == |db.holdings| && r.funds == |db.funds|
  {
    Stats(|db.users|, |db.holdings|, |db.funds|)
  }

  /** An accepted add is one more holding in the counts; anything else leaves them as they were. */
  lemma StatsAfterAdd(db: Db, user: UserId, req: AddRequest, resp: HttpOutcome,
                      toDate: Json -> Option<string>, now: string)
    ensures var s := AddToPortfolio(db, user, req, resp, toDate, now);
            && SystemStats(s.db).users == SystemStats(db).users
            && SystemStats(s.db).portfolios == SystemStats(db).portfolios + (if s.reply.Added? then 1 else 0)
  {
  }
}

=== FILE: auth.dfy ===
/**
 * Signup and login: the email and password rules, the ordered checks of each request,
 * and the token each success issues. Password hashing and token signing are opaque
 * functions passed in; a token's payload is the user's id, email and role.
 */
module Auth {
  import opened Wrappers
  import opened Text
  import opened Store

  // ---------------------------------------------------------------- email

  /** Text the email pattern's `[^\s@]` class accepts throughout: no whitespace, no '@'. */
  predicate Plain(s: string)
  {
    forall k :: 0 <= k < |s| ==> !IsSpace(s[k]) && s[k] != '@'
  }

  /**
   * The email pattern `^[^\s@]+@[^\s@]+\.[^\s@]+$`: the text splits as
   * local '@' domain '.' suffix, all three non-empty and plain.
   */
  predicate EmailPattern(e: string)
  {
    exists i, j | 0 < i && i + 1 < j && j + 1 < |e| ::
      e[i] == '@' && e[j] == '.' && Plain(e[..i]) && Plain(e[i + 1..j]) && Plain(e[j + 1..])
  }

  /** The positions of '@' in `e`, in increasing order. */
  function AtPositions(e: string): (r: seq<nat>)
    ensures forall k: nat :: k in r <==> k < |e| && e[k] == '@'
    ensures forall a, b :: 0 <= a < b < |r| ==> r[a] < r[b]
    ensures forall a :: 0 <= a < |r| ==> r[a] < |e|
    decreases |e|
  {
    if |e| == 0 then []
    else
      var front := AtPositions(e[..|e| - 1]);
      if e[|e| - 1] == '@' then front + [|e| - 1] else front
  }

  /** Some '.' of `d` has text before and after it. */
  predicate HasInnerDot(d: string)
  {
    exists k | 0 < k < |d| - 1 :: d[k] == '.'
  }

  /**
   * The email rule: exactly one '@', no whitespace, a non-empty local part, and a '.'
   * after the '@' with text on both sides.
   */
  function ValidEmail(e: string): bool
  {
    var ats := AtPositions(e);
    && |ats| == 1
    && (forall k :: 0 <= k < |e| ==> !IsSpace(e[k]))
    && ats[0] > 0
    && HasInnerDot(e[ats[0] + 1..])
  }

  /** The rule accepts exactly the texts the pattern matches. */
  lemma EmailRuleIsPattern(e: string)
    ensures ValidEmail(e) <==> EmailPattern(e)
  {
    if ValidEmail(e) {
      RuleGivesPattern(e);
    }
    if EmailPattern(e) {
      PatternGivesRule(e);
    }
  }

  lemma RuleGivesPattern(e: string)
    requires ValidEmail(e)
    ensures EmailPattern(e)
  {
    var ats := AtPositions(e);
    var i := ats[0];
    assert i in ats;
    var d := e[i + 1..];
    var k :| 0 < k < |d| - 1 && d[k] == '.';
    var j := i + 1 + k;
    assert e[j] == d[k];
    forall m: nat | m < |e|
      ensures e[m] == '@' ==> m == i
    {
      if e[m] == '@' {
        assert m in ats;
      }
    }
    PlainSlice(e, i, 0, i);
    PlainSlice(e, i, i + 1, j);
    PlainSlice(e, i, j + 1, |e|);
  }

  /** A slice that avoids the one '@' of a whitespace-free text is plain. */
  lemma PlainSlice(e: string, i: nat, lo: nat, hi: nat)
    requires lo <= hi <= |e| && !(lo <= i < hi)
    requires forall m :: 0 <= m < |e| ==> !IsSpace(e[m])
    requires forall m: nat :: m < |e| && m != i ==> e[m] != '@'
    ensures Plain(e[lo..hi])
  {
    forall m | 0 <= m < hi - lo
      ensures !IsSpace(e[lo..hi][m]) && e[lo..hi][m] != '@'
    {
      assert e[lo..hi][m] == e[lo + m];
    }
  }

  lemma PatternGivesRule(e: string)
    requires EmailPattern(e)
    ensures ValidEmail(e)
  {
    var i, j :| 0 < i && i + 1 < j && j + 1 < |e| &&
      e[i] == '@' && e[j] == '.' && Plain(e[..i]) && Plain(e[i + 1..j]) && Plain(e[j + 1..]);
    forall m: nat | m < |e|
      ensures !IsSpace(e[m]) && (e[m] == '@' <==> m == i)
    {
      if m < i {
        assert e[..i][m] == e[m];
      } else if i < m < j {
        assert e[i + 1..j][m - i - 1] == e[m];
      } else if j < m {
        assert e[j + 1..][m - j - 1] == e[m];
      }
    }
    OneAt(e, i);
    assert e[i + 1..][j - i - 1] == '.';
  }

  /** A text with a single '@' has exactly that position in its list. */
  lemma OneAt(e: string, i: nat)
    requires i < |e|
    requires forall m: nat :: m < |e| ==> (e[m] == '@' <==> m == i)
    ensures AtPositions(e) == [i]
  {
    var ats := AtPositions(e);
    assert i in ats;
    forall a | 0 <= a < |ats|
      ensures ats[a] == i
    {
      assert ats[a] in ats;
    }
    IncreasingSpread(ats);
  }

  /** A strictly increasing sequence spreads at least one step per element. */
  lemma {:induction false} IncreasingSpread(r: seq<nat>)
    requires forall a, b :: 0 <= a < b < |r| ==> r[a] < r[b]
    ensures |r| > 0 ==> r[|r| - 1] >= r[0] + |r| - 1
    decreases |r|
  {
    if |r| > 1 {
      IncreasingSpread(r[..|r| - 1]);
      assert r[|r| - 2] < r[|r| - 1];
    }
  }

  // ---------------------------------------------------------------- password

  /**
   * `PASSWORD_REGEX`: at least eight characters and no line terminator (`.{8,}$`), and
   * somewhere a lower-case letter, an upper-case letter, a digit, and a character that
   * is neither a word character nor whitespace (`[^\w\s]`, so '_' does not count).
   */
  predicate StrongPassword(p: string)
  {
    && |p| >= 8
    && (forall k :: 0 <= k < |p| ==> !IsLineTerminator(p[k]))
    && (exists k :: 0 <= k < |p| && IsLower(p[k]))
    && (exists k :: 0 <= k < |p| && IsUpper(p[k]))
    && (exists k :: 0 <= k < |p| && IsDigit(p[k]))
    && (exists k :: 0 <= k < |p| && IsSpecial(p[k]))
  }

  predicate IsSpecial(c: char)
  {
    !IsWordChar(c) && !IsSpace(c)
  }

  /** One pass over the password, collecting what the lookaheads ask for. */
  method CheckPassword(p: string) returns (ok: bool)
    ensures ok <==> StrongPassword(p)
  {
    var lower, upper, digit, special, clean := false, false, false, false, true;
    var k := 0;
    while k < |p|
      invariant 0 <= k <= |p|
      invariant lower <==> exists m :: 0 <= m < k && IsLower(p[m])
      invariant upper <==> exists m :: 0 <= m < k && IsUpper(p[m])
      invariant digit <==> exists m :: 0 <= m < k && IsDigit(p[m])
      invariant special <==> exists m :: 0 <= m < k && IsSpecial(p[m])
      invariant clean <==> forall m :: 0 <= m < k ==> !IsLineTerminator(p[m])
    {
      var c := p[k];
      lower := lower || IsLower(c);
      upper := upper || IsUpper(c);
      digit := digit || IsDigit(c);
      special := special || IsSpecial(c);
      clean := clean && !IsLineTerminator(c);
      k := k + 1;
    }
    ok := |p| >= 8 && clean && lower && upper && digit && special;
  }

  lemma UnderscoreIsNotSpecial()
    ensures !StrongPassword("Abcdefg1_")
    ensures StrongPassword("Abcdefg1!")
  {
    var p := "Abcdefg1!";
    assert IsLower(p[1]) && IsUpper(p[0]) && IsDigit(p[7]) && IsSpecial(p[8]);
    var q := "Abcdefg1_";
    assert forall k :: 0 <= k < |q| ==> !IsSpecial(q[k]);
  }

  // ---------------------------------------------------------------- tokens

  /** The token payload: exactly the user's id, email and role. */
  datatype Claims = Claims(id: UserId, email: string, role: string)

  function ClaimsOf(u: User): (c: Claims)
    ensures c.id == u.id && c.email == u.email && c.role == u.role
  {
    Claims(u.id, u.email, u.role)
  }

  /** The secret tokens are signed with: the configured one, else this controller's default. */
  const SignDefaultSecret := "changeme-secret"

  function SigningSecret(configured: Option<string>): string
  {
    if configured.Some? && configured.value != "" then configured.value else SignDefaultSecret
  }

  /** The user as a successful signup or login reports it. */
  datatype Profile = Profile(id: UserId, name: string, email: string, role: string)

  function ProfileOf(u: User): (p: Profile)
    ensures p.id == u.id && p.name == u.name && p.email == u.email && p.role == u.role
  {
    Profile(u.id, u.name, u.email, u.role)
  }

  // ---------------------------------------------------------------- signup

  /** The signup body; `None` is a missing field, and the empty text counts as missing too. */
  datatype SignupRequest = SignupRequest(name: Option<string>, email: Option<string>, password: Option<string>)

  datatype SignupReply =
    | SignupMissingFields
    | InvalidEmail
    | WeakPassword
    | EmailTaken
    | Registered(token: string, user: Profile)
  {
    function Status(): int
    {
      match this
      case SignupMissingFields => 400
      case InvalidEmail => 400
      case WeakPassword => 400
      case EmailTaken => 409
      case Registered(_, _) => 201
    }
  }

  /** `User.findOne({ email })`: the first user with exactly this email. */
  function FindByEmail(users: seq<User>, email: string): (r: Option<User>)
    ensures r.Some? ==> r.value in users && r.value.email == email
    ensures r.None? <==> forall k :: 0 <= k < |users| ==> users[k].email != email
  {
    if |users| == 0 then None
    else if users[0].email == email then Some(users[0])
    else FindByEmail(users[1..], email)
  }

  /** An id no stored user has. */
  function FreshId(users: seq<User>): (id: UserId)
    ensures forall k :: 0 <= k < |users| ==> users[k].id < id
  {
    if |users| == 0 then 1
    else
      var rest := FreshId(users[1..]);
      if users[0].id < rest then rest else users[0].id + 1
  }

  /** A present, non-empty field. */
  predicate Given(v: Option<string>)
  {
    v.Some? && v.value != ""
  }

  /**
   * `signup`: missing fields, then the email rule, then the password rule, then an
   * existing email; otherwise a new user with role "user" and the hashed password, and a
   * token for its id, email and role.
   */
  function Signup(db: Db, req: SignupRequest, hash: string -> string,
                  sign: (Claims, string) -> string, secret: string): (s: Step<SignupReply>)
    ensures s.reply == SignupMissingFields <==> !(Given(req.name) && Given(req.email) && Given(req.password))
    ensures s.reply == InvalidEmail <==>
              Given(req.name) && Given(req.email) && Given(req.password) && !EmailPattern(req.email.value)
    ensures s.reply == WeakPassword <==>
              && Given(req.name) && Given(req.email) && Given(req.password)
              && EmailPattern(req.email.value) && !StrongPassword(req.password.value)
    ensures s.reply == EmailTaken ==> FindByEmail(db.users, req.email.value).Some?
    ensures !s.reply.Registered? ==> s.db == db
    ensures s.reply.Registered? ==>
              && Given(req.name) && Given(req.email) && Given(req.password)
              && EmailPattern(req.email.value) && StrongPassword(req.password.value)
              && FindByEmail(db.users, req.email.value).None?
              && |s.db.users| == |db.users| + 1
              && var u := s.db.users[|db.users|];
                 && s.db == db.(users := db.users + [u])
                 && u.role == "user" && u.email == req.email.value && u.name == req.name.value
                 && u.passwordHash == hash(req.password.value)
                 && s.reply.user == ProfileOf(u)
                 && s.reply.token == sign(ClaimsOf(u), secret)
    ensures DistinctUsers(db.users) ==> DistinctUsers(s.db.users)
  {
    if !(Given(req.name) && Given(req.email) && Given(req.password)) then Step(db, SignupMissingFields)
    else
      var email := req.email.value;
      EmailRuleIsPattern(email);
      if !ValidEmail(email) then Step(db, InvalidEmail)
      else if !StrongPassword(req.password.value) then Step(db, WeakPassword)
      else if FindByEmail(db.users, email).Some? then Step(db, EmailTaken)
      else
        var u := User(FreshId(db.users), req.name.value, email, hash(req.password.value), "user");
        Step(db.(users := db.users + [u]), Registered(sign(ClaimsOf(u), secret), ProfileOf(u)))
  }

  /** A registered email cannot be registered again, and the users stay as they were. */
  lemma SignupRejectsTakenEmail(db: Db, req: SignupRequest, hash: string -> string,
                                sign: (Claims, string) -> string, secret: string)
    requires Given(req.name) && Given(req.email) && Given(req.password)
    requires EmailPattern(req.email.value) && StrongPassword(req.password.value)
    requires exists k :: 0 <= k < |db.users| && db.users[k].email == req.email.value
    ensures Signup(db, req, hash, sign, secret) == Step(db, EmailTaken)
  {
  }

  // ---------------------------------------------------------------- login

  datatype LoginRequest = LoginRequest(email: Option<string>, password: Option<string>)

  datatype LoginReply =
    | LoginMissingFields
    | InvalidCredentials
    | LoggedIn(token: string, user: Profile)
  {
    function Status(): int
    {
      match this
      case LoginMissingFields => 400
      case InvalidCredentials => 401
      case LoggedIn(_, _) => 200
    }
  }

  /**
   * `login`: missing fields give 400; an unknown email and a wrong password give the
   * same 401; otherwise a token for the stored user.
   */
  function Login(db: Db, req: LoginRequest, matches: (string, string) -> bool,
                 sign: (Claims, string) -> string, secret: string): (r: LoginReply)
    ensures r == LoginMissingFields <==> !(Given(req.email) && Given(req.password))
    ensures r.LoggedIn? <==>
              && Given(req.email) && Given(req.password)
              && FindByEmail(db.users, req.email.value).Some?
              && matches(req.password.value, FindByEmail(db.users, req.email.value).value.passwordHash)
    ensures r.LoggedIn? ==>
              var u := FindByEmail(db.users, req.email.value).value;
              r.user == ProfileOf(u) && r.token == sign(ClaimsOf(u), secret)
  {
    if !(Given(req.email) && Given(req.password)) then LoginMissingFields
    else
      match FindByEmail(db.users, req.email.value)
      case None => InvalidCredentials
      case Some(u) =>
        if !matches(req.password.value, u.passwordHash) then InvalidCredentials
        else LoggedIn(sign(ClaimsOf(u), secret), ProfileOf(u))
  }

  /** The two failures a client could tell apart, an unknown email and a wrong password, answer alike. */
  lemma LoginDoesNotRevealAccounts(db: Db, unknown: string, known: string, password: string,
                                   matches: (string, string) -> bool,
                                   sign: (Claims, string) -> string, secret: string)
    requires unknown != "" && known != "" && password != ""
    requires FindByEmail(db.users, unknown).None?
    requires FindByEmail(db.users, known).Some?
    requires !matches(password, FindByEmail(db.users, known).value.passwordHash)
    ensures Login(db, LoginRequest(Some(unknown), Some(password)), matches, sign, secret)
         == Login(db, LoginRequest(Some(known), Some(password)), matches, sign, secret)
         == InvalidCredentials
  {
  }

  /** A user who has just signed up can log in with the same password. */
  lemma SignupThenLogin(db: Db, req: SignupRequest, hash: string -> string, matches: (string, string) -> bool,
                        sign: (Claims, string) -> string, secret: string)
    requires forall p :: matches(p, hash(p))
    requires Signup(db, req, hash, sign, secret).reply.Registered?
    ensures var s := Signup(db, req, hash, sign, secret);
            Login(s.db, LoginRequest(req.email, req.password), matches, sign, secret)
              == LoggedIn(s.reply.token, s.reply.user)
  {
    var s := Signup(db, req, hash, sign, secret);
    var u := s.db.users[|db.users|];
    assert FindByEmail(db.users + [u], u.email) == Some(u) by {
      FindAfterAppend(db.users, u);
    }
  }

  /** Appending a user whose email is new makes the lookup of that email find it. */
  lemma {:induction false} FindAfterAppend(users: seq<User>, u: User)
    requires FindByEmail(users, u.email).None?
    ensures FindByEmail(users + [u], u.email) == Some(u)
    decreases |users|
  {
    if |users| > 0 {
      assert (users + [u])[1..] == users[1..] + [u];
      FindAfterAppend(users[1..], u);
    }
  }
}

=== FILE: funds.dfy ===
/**
 * The public fund endpoints: the searchable, paginated fund list (read from the price
 * source's master list) and a fund's NAV history, read upstream with a fallback to the
 * store. Query parameters arrive as text, or are absent.
 */
module Funds {
  import opened Wrappers
  import opened Text
  import opened Js
  import opened Seqs
  import opened Store
  import opened NavFetch

  // ---------------------------------------------------------------- search

  /** `(v || "")`: a falsy field reads as the empty text. */
  function FieldOrEmpty(v: Json): Json
  {
    Or(v, Str(""))
  }

  /**
   * `(v || "").toLowerCase().includes(q)`; `None` when the value has no `toLowerCase`
   * (a truthy number, array or object), which throws.
   */
  function FieldMatches(v: Json, q: string): (r: Option<bool>)
    ensures r.Some? <==> FieldOrEmpty(v).Str?
  {
    var t := FieldOrEmpty(v);
    if t.Str? then Some(Contains(Lower(t.s), q)) else None
  }

  /**
   * The filter's callback: the name is tried first, and the fund house only when the name
   * does not match; reading a field of null or undefined throws.
   */
  function FundMatches(f: Json, q: string): Option<bool>
  {
    if f.Undefined? || f.Null? then None
    else
      match FieldMatches(Get(f, "schemeName"), q)
      case None => None
      case Some(true) => Some(true)
      case Some(false) => FieldMatches(Get(f, "fundHouse"), q)
  }

  /** What the search means: the query occurs, case-insensitively, in the name or the fund house. */
  predicate MatchesQuery(f: Json, q: string)
  {
    Contains(Lower(TextOf(Get(f, "schemeName"))), q) || Contains(Lower(TextOf(Get(f, "fundHouse"))), q)
  }

  /** Whenever the callback does not throw, it answers the search's meaning. */
  lemma FundMatchesMeansQuery(f: Json, q: string)
    requires FundMatches(f, q).Some?
    ensures FundMatches(f, q).value <==> MatchesQuery(f, q)
  {
  }

  /** `funds.filter(...)`: the predicate runs on every element, so one element that makes it throw fails the whole filter. */
  function FilterFunds(funds: seq<Json>, q: string): (r: Option<seq<Json>>)
    ensures r.Some? <==> forall i :: 0 <= i < |funds| ==> FundMatches(funds[i], q).Some?
    ensures r.Some? ==> |r.value| <= |funds|
    ensures r.Some? ==> forall f :: f in r.value <==> f in funds && MatchesQuery(f, q)
  {
    if |funds| == 0 then Some([])
    else
      var f := funds[0];
      var keep := FundMatches(f, q);
      var rest := FilterFunds(funds[1..], q);
      assert forall x :: x in funds <==> x == f || x in funds[1..];
      if keep.None? || rest.None? then None
      else
        FundMatchesMeansQuery(f, q);
        if keep.value then Some([f] + rest.value) else Some(rest.value)
  }

  /** Filtering keeps the list's order: two stretches filter to their results joined, and a throw in either fails both. */
  lemma {:induction false} FilterFundsSplit(a: seq<Json>, b: seq<Json>, q: string)
    ensures FilterFunds(a + b, q)
            == if FilterFunds(a, q).Some? && FilterFunds(b, q).Some?
               then Some(FilterFunds(a, q).value + FilterFunds(b, q).value)
               else None
    decreases |a|
  {
    if |a| == 0 {
      assert a + b == b;
      if FilterFunds(b, q).Some? {
        assert [] + FilterFunds(b, q).value == FilterFunds(b, q).value;
      }
    } else {
      assert (a + b)[0] == a[0];
      assert (a + b)[1..] == a[1..] + b;
      FilterFundsSplit(a[1..], b, q);
      var keep := FundMatches(a[0], q);
      var rest, tail := FilterFunds(a[1..], q), FilterFunds(b, q);
      if keep.Some? && keep.value && rest.Some? && tail.Some? {
        assert [a[0]] + (rest.value + tail.value) == ([a[0]] + rest.value) + tail.value;
      }
    }
  }

  // ---------------------------------------------------------------- pagination

  /** `Math.ceil(x)` for a finite number. */
  function Ceil(x: real): (n: int)
    ensures n as real - 1.0 < x <= n as real
  {
    -((-x).Floor)
  }

  /** A page count as JSON shows it: a whole number, or null for `Math.ceil(Infinity)`. */
  datatype PageCount = Pages(count: int) | Unbounded

  /**
   * `Math.ceil(totalFunds / limit || 1)`: a zero or NaN quotient gives 1 page; a zero limit
   * with funds to show gives an infinite quotient.
   */
  function TotalPages(total: nat, limit: Option<real>): (r: PageCount)
    ensures limit.Some? && limit.value > 0.0 ==> r.Pages? && r.count >= 1
    ensures limit.Some? && limit.value > 0.0 && total > 0 ==>
              (r.count - 1) as real * limit.value < total as real <= r.count as real * limit.value
    ensures total == 0 || limit.None? ==> r == Pages(1)
  {
    if limit.None? then Pages(1)
    else if limit.value == 0.0 then (if total == 0 then Pages(1) else Unbounded)
    else
      var x := total as real / limit.value;
      if x == 0.0 then Pages(1)
      else
        ScaledCeil(total as real, limit.value);
        Pages(Ceil(x))
  }

  /** `ceil(t / l)` pages of size `l` hold `t` items, and one page fewer does not. */
  lemma ScaledCeil(t: real, l: real)
    ensures l > 0.0 ==> var n := Ceil(t / l); (n - 1) as real * l < t <= n as real * l
  {
    if l > 0.0 {
      var x := t / l;
      var n := Ceil(x);
      DivTimes(t, l);
      ScaleLess((n - 1) as real, x, l);
      ScaleAtMost(x, n as real, l);
    }
  }

  lemma DivTimes(t: real, l: real)
    requires l > 0.0
    ensures (t / l) * l == t
  {
  }

  lemma ScaleLess(a: real, b: real, l: real)
    requires a < b && l > 0.0
    ensures a * l < b * l
  {
    assert (b - a) * l > 0.0;
  }

  lemma ScaleAtMost(a: real, b: real, l: real)
    requires a <= b && l > 0.0
    ensures a * l <= b * l
  {
    assert (b - a) * l >= 0.0;
  }

  /** Every fund lies on one of the pages counted, for a positive whole page size. */
  lemma PagesCoverFunds(total: nat, limit: nat, i: nat)
    requires limit > 0 && i < total
    ensures var p := i / limit + 1;
            && 1 <= p <= TotalPages(total, Some(limit as real)).count
            && (p - 1) * limit <= i < p * limit
  {
    var pages := TotalPages(total, Some(limit as real));
    assert pages.Pages? && pages.count >= 1;
    var n := pages.count;
    assert total as real <= n as real * limit as real;
    var q := i / limit;
    WholeProduct(n, limit, total);
    DivBounds(i, limit);
    LessProductLessFactor(q, n, limit);
  }

  /** A real product of whole numbers bounds the same integer product. */
  lemma WholeProduct(n: int, limit: nat, total: nat)
    requires total as real <= n as real * limit as real
    ensures total <= n * limit
  {
    RealProduct(n, limit);
  }

  /** Index `i` lies on page `i / limit + 1`. */
  lemma DivBounds(i: nat, limit: nat)
    requires limit > 0
    ensures (i / limit) * limit <= i < (i / limit + 1) * limit
  {
    assert (i / limit + 1) * limit == (i / limit) * limit + limit;
  }

  lemma LessProductLessFactor(a: int, b: int, c: nat)
    requires c > 0 && a * c < b * c
    ensures a < b
  {
  }

  /** `Number(v)` of a query parameter, or of its numeric default when it is absent. */
  function QueryNumber(v: Option<string>, default: real): Option<real>
  {
    if v.None? then Some(default) else ToNumber(Str(v.value))
  }

  /** NaN-propagating arithmetic on JavaScript numbers. */
  function Minus(a: Option<real>, b: real): Option<real>
  {
    if a.None? then None else Some(a.value - b)
  }

  function Times(a: Option<real>, b: Option<real>): Option<real>
  {
    if a.None? || b.None? then None else Some(a.value * b.value)
  }

  function Plus(a: Option<real>, b: Option<real>): Option<real>
  {
    if a.None? || b.None? then None else Some(a.value + b.value)
  }

  /** The query string of the list endpoint; `None` is an absent parameter. */
  datatype FundQuery = FundQuery(search: Option<string>, page: Option<string>, limit: Option<string>)

  /** One fund as the list shows it: five fields, the code converted to a number. */
  datatype FundItem = FundItem(
    schemeCode: Option<real>,
    schemeName: Json,
    fundHouse: Json,
    schemeType: Json,
    schemeCategory: Json)

  datatype FundPage = FundPage(
    funds: seq<FundItem>,
    currentPage: Option<real>,
    totalPages: PageCount,
    totalFunds: nat)

  const FetchFundsFailed := "Failed to fetch funds"

  /** The projection; reading a field of null or undefined throws. */
  function Project(f: Json): Option<FundItem>
  {
    if f.Undefined? || f.Null? then None
    else Some(FundItem(ToNumber(Get(f, "schemeCode")), Get(f, "schemeName"), Get(f, "fundHouse"),
                       Get(f, "schemeType"), Get(f, "schemeCategory")))
  }

  function ProjectAll(funds: seq<Json>): (r: Option<seq<FundItem>>)
    ensures r.Some? <==> forall i :: 0 <= i < |funds| ==> Project(funds[i]).Some?
    ensures r.Some? ==> |r.value| == |funds| && forall i :: 0 <= i < |funds| ==> r.value[i] == Project(funds[i]).value
    decreases |funds|
  {
    if |funds| == 0 then Some([])
    else
      var first := Project(funds[0]);
      var rest := ProjectAll(funds[1..]);
      if first.None? || rest.None? then None
      else Some([first.value] + rest.value)
  }

  /** The filtered list: all of it for an empty search, else the funds the search matches. */
  function Searched(funds: seq<Json>, search: Option<string>): Option<seq<Json>>
  {
    if search.None? || search.value == "" then Some(funds) else FilterFunds(funds, Lower(search.value))
  }

  /**
   * The page of an already filtered list: items `[(page - 1) × limit, page × limit)`,
   * projected, with the count of the whole filtered list.
   */
  function PageOf(kept: seq<Json>, page: Option<real>, limit: Option<real>): (r: Result<FundPage>)
    ensures r.Err? ==> r.error == FetchFundsFailed
    ensures r.Ok? ==> && r.value.totalFunds == |kept|
                      && r.value.totalPages == TotalPages(|kept|, limit)
                      && r.value.currentPage == page
                      && |r.value.funds| <= |kept|
  {
    var start := Times(Minus(page, 1.0), limit);
    var shown := ProjectAll(Slice(kept, start, Plus(start, limit)));
    if shown.None? then Err(FetchFundsFailed)
    else Ok(FundPage(shown.value, page, TotalPages(|kept|, limit), |kept|))
  }

  /**
   * `listFunds`: the master list is filtered by the lower-cased search, counted, and cut
   * to the page `[(page - 1) × limit, (page - 1) × limit + limit)`; any failure is the
   * generic 500 error.
   */
  function ListFunds(query: FundQuery, resp: HttpOutcome): (r: Result<FundPage>)
    ensures resp.Rejected? ==> r == Err(FetchFundsFailed)
    ensures r.Err? ==> r.error == FetchFundsFailed
    ensures r.Ok? ==> (&& resp.Answered?
                       && (Truthy(resp.body) ==> resp.body.Arr?)
                       && var all := if Truthy(resp.body) then resp.body.items else [];
                          var kept := Searched(all, query.search);
                          && kept.Some?
                          && r == PageOf(kept.value, QueryNumber(query.page, 1.0), QueryNumber(query.limit, 20.0)))
    ensures r.Ok? && (query.search.None? || query.search.value == "") ==>
              r.value.totalFunds == (if Truthy(resp.body) then |resp.body.items| else 0)
    ensures resp.Answered? && (Truthy(resp.body) ==> resp.body.Arr?) ==>
              var all := if Truthy(resp.body) then resp.body.items else [];
              Searched(all, query.search).Some? ==>
                r == PageOf(Searched(all, query.search).value, QueryNumber(query.page, 1.0), QueryNumber(query.limit, 20.0))
  {
    match resp
    case Rejected(_) => Err(FetchFundsFailed)
    case Answered(body) =>
      var data := Or(body, Arr([]));
      if !data.Arr? then Err(FetchFundsFailed)
      else
        var kept := Searched(data.items, query.search);
        if kept.None? then Err(FetchFundsFailed)
        else PageOf(kept.value, QueryNumber(query.page, 1.0), QueryNumber(query.limit, 20.0))
  }

  /** A slice between two whole, ordered bounds is the clipped window. */
  lemma SliceWindow<T>(s: seq<T>, from: nat, to: nat)
    requires from <= to
    ensures var lo := if from < |s| then from else |s|;
            var hi := if to < |s| then to else |s|;
            Slice(s, Some(from as real), Some(to as real)) == s[lo..hi]
  {
    assert Trunc(from as real) == from;
    assert Trunc(to as real) == to;
  }

  /** The page's first index, as computed from whole page numbers and sizes. */
  lemma PageStart(page: nat, limit: nat)
    requires page >= 1
    ensures var start := Times(Minus(Some(page as real), 1.0), Some(limit as real));
            && start == Some(((page - 1) * limit) as real)
            && Plus(start, Some(limit as real)) == Some((page * limit) as real)
  {
    var a := page - 1;
    assert Minus(Some(page as real), 1.0) == Some(a as real);
    RealProduct(a, limit);
    assert a * limit + limit == page * limit by {
      NextMultiple(a, limit);
    }
  }

  lemma RealProduct(a: int, b: int)
    ensures a as real * b as real == (a * b) as real
  {
  }

  lemma NextMultiple(a: int, b: int)
    ensures a * b + b == (a + 1) * b
  {
  }

  /** For whole page numbers and sizes, the page is the window of the filtered list, in order. */
  lemma PageIsWindow(funds: seq<Json>, page: nat, limit: nat)
    requires page >= 1 && limit >= 1
    ensures var start := Times(Minus(Some(page as real), 1.0), Some(limit as real));
            var lo := if (page - 1) * limit < |funds| then (page - 1) * limit else |funds|;
            var hi := if page * limit < |funds| then page * limit else |funds|;
            Slice(funds, start, Plus(start, Some(limit as real))) == funds[lo..hi]
  {
    PageStart(page, limit);
    assert (page - 1) * limit <= page * limit;
    SliceWindow(funds, (page - 1) * limit, page * limit);
  }

  /** For whole, positive page and limit, the page is the projected window of the filtered list. */
  lemma PageOfWindow(kept: seq<Json>, page: nat, limit: nat, lo: nat, hi: nat)
    requires page >= 1 && limit >= 1
    requires forall i :: 0 <= i < |kept| ==> kept[i].Obj?
    requires lo == if (page - 1) * limit < |kept| then (page - 1) * limit else |kept|
    requires hi == if page * limit < |kept| then page * limit else |kept|
    ensures lo <= hi
    ensures var r := PageOf(kept, Some(page as real), Some(limit as real));
            && r.Ok?
            && |r.value.funds| == hi - lo
            && forall k :: 0 <= k < hi - lo ==> r.value.funds[k] == Project(kept[lo + k]).value
  {
    PageIsWindow(kept, page, limit);
    var window := kept[lo..hi];
    assert forall k :: 0 <= k < |window| ==> window[k] == kept[lo + k];
  }

  /** An unsearched request over an array answer pages the whole array. */
  lemma UnsearchedListsAll(query: FundQuery, items: seq<Json>)
    requires query.search.None?
    ensures ListFunds(query, Answered(Arr(items)))
         == PageOf(items, QueryNumber(query.page, 1.0), QueryNumber(query.limit, 20.0))
  {
    assert Or(Arr(items), Arr([])) == Arr(items);
    assert Searched(items, query.search) == Some(items);
  }

  /** A query parameter holding decimal text reads as that number. */
  lemma QueryNumberOfNatText(n: nat, default: real)
    ensures QueryNumber(Some(NatText(n)), default) == Some(n as real)
  {
    NumberOfNatText(n);
  }

  /**
   * An unsearched list request with whole, positive page and limit answers the page's
   * window of the master list, with the whole list counted.
   */
  lemma ListedPageIsWindow(items: seq<Json>, page: nat, limit: nat)
    requires page >= 1 && limit >= 1
    ensures var r := ListFunds(FundQuery(None, Some(NatText(page)), Some(NatText(limit))), Answered(Arr(items)));
            r == PageOf(items, Some(page as real), Some(limit as real))
  {
    UnsearchedListsAll(FundQuery(None, Some(NatText(page)), Some(NatText(limit))), items);
    QueryNumberOfNatText(page, 1.0);
    QueryNumberOfNatText(limit, 20.0);
  }

  // ---------------------------------------------------------------- NAV history

  /** One history entry as returned: the date as received and the NAV as a number (None is NaN). */
  datatype NavPoint = NavPoint(date: Json, nav: Option<real>)

  datatype HistorySource = Upstream | LocalStore

  datatype FundHistory = FundHistory(
    source: HistorySource,
    schemeCode: Option<real>,
    schemeName: Json,
    currentNav: Option<real>,
    asOn: Json,
    history: seq<NavPoint>)

  datatype HistoryReply = HistoryCodeRequired | HistoryFailed | HistoryFound(data: FundHistory)

  const HistoryLength: nat := 30

  /** `.map((h) => ({ date: h.date, nav: Number(h.nav) }))`; a null or undefined entry throws. */
  function UpstreamPoints(entries: seq<Json>): (r: Option<seq<NavPoint>>)
    ensures r.Some? <==> forall i :: 0 <= i < |entries| ==> !entries[i].Undefined? && !entries[i].Null?
    ensures r.Some? ==> |r.value| == |entries|
    ensures r.Some? ==> forall i :: 0 <= i < |entries| ==>
              r.value[i] == NavPoint(Get(entries[i], "date"), ToNumber(Get(entries[i], "nav")))
    decreases |entries|
  {
    if |entries| == 0 then Some([])
    else
      var h := entries[0];
      var rest := UpstreamPoints(entries[1..]);
      if h.Undefined? || h.Null? || rest.None? then None
      else Some([NavPoint(Get(h, "date"), ToNumber(Get(h, "nav")))] + rest.value)
  }

  /**
   * The upstream attempt: `None` when anything in it throws (a rejected request, a body
   * that is null or undefined, `data` without an array `slice`, a null entry).
   */
  function FromUpstream(code: Option<real>, resp: HttpOutcome): (r: Option<FundHistory>)
    ensures r.Some? ==> r.value.source == Upstream && |r.value.history| <= HistoryLength
    ensures r.Some? ==> r.value.schemeCode == code
    ensures r.Some? && |r.value.history| > 0 ==>
              r.value.currentNav == r.value.history[0].nav && r.value.asOn == r.value.history[0].date
    ensures r.Some? && |r.value.history| == 0 ==> r.value.currentNav.None? && r.value.asOn == Null
    ensures resp.Rejected? ==> r.None?
  {
    match resp
    case Rejected(_) => None
    case Answered(body) =>
      if body.Undefined? || body.Null? then None
      else
        var data := Get(body, "data");
        var points :=
          if Truthy(body) && Truthy(data) then
            (if data.Arr? then UpstreamPoints(Take(data.items, HistoryLength)) else None)
          else Some([]);
        if points.None? then None
        else
          var history := points.value;
          Some(FundHistory(Upstream, code, Or(Get(Get(body, "meta"), "scheme_name"), Null),
                           if |history| > 0 then history[0].nav else None,
                           if |history| > 0 then history[0].date else Null,
                           history))
  }

  /** The stored rows of one fund, in creation order. */
  function RowsOfFund(history: seq<HistRow>, code: real): (r: seq<HistRow>)
    ensures |r| <= |history|
    decreases |history|
  {
    if |history| == 0 then []
    else
      var rest := RowsOfFund(history[..|history| - 1], code);
      var row := history[|history| - 1];
      if row.schemeCode as real == code then rest + [row] else rest
  }

  /** The fallback's query selects exactly the stored rows of the fund, in stored order. */
  lemma {:induction false} RowsOfFundMembers(history: seq<HistRow>, code: real)
    ensures forall x :: x in RowsOfFund(history, code) <==> x in history && x.schemeCode as real == code
    decreases |history|
  {
    if |history| > 0 {
      var init := history[..|history| - 1];
      RowsOfFundMembers(init, code);
      assert forall x :: x in history <==> x in init || x == history[|history| - 1];
    }
  }

  /** `sort({ createdAt: -1 }).limit(30)`: the newest rows first. */
  function NewestFirst(rows: seq<HistRow>, n: nat): (r: seq<HistRow>)
    ensures |r| == if |rows| <= n then |rows| else n
    ensures forall i :: 0 <= i < |r| ==> r[i] == rows[|rows| - 1 - i]
    decreases n
  {
    if n == 0 || |rows| == 0 then []
    else [rows[|rows| - 1]] + NewestFirst(rows[..|rows| - 1], n - 1)
  }

  /** `findOne({ schemeCode: code })` for a code that may be any number. */
  function LatestFor(latest: seq<LatestNav>, code: real): (r: Option<LatestNav>)
    ensures r.Some? ==> r.value in latest && r.value.schemeCode as real == code
    ensures r.None? <==> forall i :: 0 <= i < |latest| ==> latest[i].schemeCode as real != code
  {
    if code == code.Floor as real then FindLatest(latest, code.Floor) else None
  }

  /** A stored row as a history entry: its date text and its NAV. */
  function PointOf(row: HistRow): NavPoint
  {
    NavPoint(Str(row.date), Some(row.nav))
  }

  function PointsOf(rows: seq<HistRow>): (r: seq<NavPoint>)
    ensures |r| == |rows|
    ensures forall i :: 0 <= i < |rows| ==> r[i] == PointOf(rows[i])
  {
    if |rows| == 0 then [] else [PointOf(rows[0])] + PointsOf(rows[1..])
  }

  lemma NewestPoints(rows: seq<HistRow>, n: nat)
    ensures var r := PointsOf(NewestFirst(rows, n));
            && |r| == (if |rows| <= n then |rows| else n)
            && forall i :: 0 <= i < |r| ==> r[i] == PointOf(rows[|rows| - 1 - i])
  {
    var newest := NewestFirst(rows, n);
    var r := PointsOf(newest);
    forall i | 0 <= i < |r|
      ensures r[i] == PointOf(rows[|rows| - 1 - i])
    {
      assert r[i] == PointOf(newest[i]);
      assert newest[i] == rows[|rows| - 1 - i];
    }
  }

  /**
   * The local fallback: up to 30 stored rows of the fund, newest first, with the latest
   * record's NAV and date. The latest record has no scheme name, so a found record leaves
   * the name out (undefined) and a missing one makes it null.
   */
  function FromStore(db: Db, code: real): (r: FundHistory)
    ensures r.source == LocalStore && r.schemeCode == Some(code)
    ensures |r.history| <= HistoryLength
    ensures LatestFor(db.latest, code).None? ==> r.currentNav.None? && r.asOn == Null && r.schemeName == Null
    ensures LatestFor(db.latest, code).Some? ==>
              && r.currentNav == Some(LatestFor(db.latest, code).value.nav)
              && r.asOn == Str(LatestFor(db.latest, code).value.date)
              && r.schemeName == Undefined
  {
    var latest := LatestFor(db.latest, code);
    FundHistory(LocalStore, Some(code),
                if latest.Some? then Undefined else Null,
                if latest.Some? then Some(latest.value.nav) else None,
                if latest.Some? then Str(latest.value.date) else Null,
                PointsOf(NewestFirst(RowsOfFund(db.history, code), HistoryLength)))
  }

  /** The fallback lists the fund's stored rows newest first, at most 30 of them. */
  lemma FallbackNewestFirst(db: Db, code: real)
    ensures var r := FromStore(db, code).history;
            var rows := RowsOfFund(db.history, code);
            && |r| == (if |rows| <= HistoryLength then |rows| else HistoryLength)
            && forall i :: 0 <= i < |r| ==> r[i] == PointOf(rows[|rows| - 1 - i])
  {
    var rows := RowsOfFund(db.history, code);
    FallbackEntries(db, code);
    NewestPointsOf(FromStore(db, code).history, rows);
  }

  lemma NewestPointsOf(r: seq<NavPoint>, rows: seq<HistRow>)
    requires r == PointsOf(NewestFirst(rows, HistoryLength))
    ensures |r| == (if |rows| <= HistoryLength then |rows| else HistoryLength)
    ensures forall i :: 0 <= i < |r| ==> r[i] == PointOf(rows[|rows| - 1 - i])
  {
    NewestPoints(rows, HistoryLength);
  }

  lemma FallbackEntries(db: Db, code: real)
    ensures FromStore(db, code).history == PointsOf(NewestFirst(RowsOfFund(db.history, code), HistoryLength))
  {
  }

  /**
   * `getFundNavHistory(schemeCode)`: the first 30 upstream entries when the upstream read
   * works, else the store's newest 30 rows; the fallback's query fails on a code that is
   * not a number.
   */
  function GetFundNavHistory(db: Db, schemeCode: string, resp: HttpOutcome): (r: HistoryReply)
    ensures schemeCode == "" <==> r == HistoryCodeRequired
    ensures r.HistoryFound? ==> |r.data.history| <= HistoryLength
    ensures r.HistoryFound? && r.data.source == Upstream ==>
              && resp.Answered?
              && (|r.data.history| > 0 ==> r.data.currentNav == r.data.history[0].nav && r.data.asOn == r.data.history[0].date)
              && (|r.data.history| == 0 ==> r.data.currentNav.None? && r.data.asOn == Null)
    ensures schemeCode != "" && FromUpstream(ToNumber(Str(schemeCode)), resp).Some? ==>
              r == HistoryFound(FromUpstream(ToNumber(Str(schemeCode)), resp).value)
    ensures schemeCode != "" && FromUpstream(ToNumber(Str(schemeCode)), resp).None? ==>
              (if ToNumber(Str(schemeCode)).None? then r == HistoryFailed
               else r == HistoryFound(FromStore(db, ToNumber(Str(schemeCode)).value)))
    ensures r == HistoryFailed ==> ToNumber(Str(schemeCode)).None?
  {
    if schemeCode == "" then HistoryCodeRequired
    else
      var code := ToNumber(Str(schemeCode));
      var upstream := FromUpstream(code, resp);
      if upstream.Some? then HistoryFound(upstream.value)
      else if code.None? then HistoryFailed
      else HistoryFound(FromStore(db, code.value))
  }

  /** An upstream `data` array gives its first 30 entries, in order, each NAV read with `Number`. */
  lemma UpstreamKeepsFirstThirty(code: Option<real>, body: Json)
    requires body.Obj? && "data" in body.fields && body.fields["data"].Arr?
    requires var items := body.fields["data"].items;
             forall i :: 0 <= i < |items| ==> items[i].Obj?
    ensures var items := body.fields["data"].items;
            var r := FromUpstream(code, Answered(body));
            && r.Some?
            && |r.value.history| == (if |items| <= HistoryLength then |items| else HistoryLength)
            && forall i :: 0 <= i < |r.value.history| ==>
                 r.value.history[i] == NavPoint(Get(items[i], "date"), ToNumber(Get(items[i], "nav")))
  {
    var items := body.fields["data"].items;
    var first := Take(items, HistoryLength);
    assert forall i :: 0 <= i < |first| ==> first[i] == items[i];
    assert Get(body, "data") == Arr(items);
  }

  /**
   * After a reconciliation, the fund's current NAV and date in the store fallback are the
   * ones fetched; when the date was new and non-empty, that day leads the history.
   */
  lemma ReconciledDayLeadsFallback(db: Db, code: int, nav: real, date: string)
    ensures var r := FromStore(RecordQuote(db, code, nav, date).db, code as real);
            r.currentNav == Some(nav) && r.asOn == Str(date)
    ensures var r := FromStore(RecordQuote(db, code, nav, date).db, code as real);
            !HasRow(db.history, code, date) && date != "" ==>
              |r.history| > 0 && r.history[0] == NavPoint(Str(date), Some(nav))
  {
    var after := RecordQuote(db, code, nav, date).db;
    assert (code as real).Floor == code;
    if !HasRow(db.history, code, date) && date != "" {
      assert after.history == db.history + [HistRow(code, nav, date)];
      NewDayLeads(db, after, code, nav, date);
    }
  }

  lemma NewDayLeads(db: Db, after: Db, code: int, nav: real, date: string)
    requires after.history == db.history + [HistRow(code, nav, date)]
    ensures var r := FromStore(after, code as real);
            |r.history| > 0 && r.history[0] == NavPoint(Str(date), Some(nav))
  {
    var rows := RowsOfFund(after.history, code as real);
    assert after.history[..|after.history| - 1] == db.history;
    assert rows == RowsOfFund(db.history, code as real) + [HistRow(code, nav, date)];
    assert (code as real).Floor == code;
  }
}

=== FILE: js.dfy ===
/**
 * JSON values as the server receives them, and the few JavaScript operations the
 * core applies to them: truthiness, property access, `x[0]`, `||`, `parseFloat`,
 * `Number(...)`, `> 0`, and `Array.prototype.slice`. A JavaScript number that is NaN
 * is `None` wherever a number is expected.
 */
module Js {
  import opened Wrappers
  import opened Text

  /** A parsed JSON value; `Undefined` stands for a missing property. */
  datatype Json =
    | Undefined
    | Null
    | Bool(b: bool)
    | Num(n: real)
    | Str(s: string)
    | Arr(items: seq<Json>)
    | Obj(fields: map<string, Json>)

  /** JavaScript truthiness: `undefined`, `null`, `false`, `0` and `""` are falsy. */
  predicate Truthy(v: Json)
  {
    match v
    case Undefined => false
    case Null => false
    case Bool(b) => b
    case Num(n) => n != 0.0
    case Str(s) => s != ""
    case Arr(_) => true
    case Obj(_) => true
  }

  /** `a || b`. */
  function Or(a: Json, b: Json): (r: Json)
    ensures Truthy(r) <==> Truthy(a) || Truthy(b)
  {
    if Truthy(a) then a else b
  }

  /** `v.key` (and `v?.key`): own fields of objects, `length` of arrays and strings, otherwise undefined. */
  function Get(v: Json, key: string): Json
  {
    match v
    case Obj(fields) => if key in fields then fields[key] else Undefined
    case Arr(items) => if key == "length" then Num(|items| as real) else Undefined
    case Str(s) => if key == "length" then Num(|s| as real) else Undefined
    case _ => Undefined
  }

  /** `v[0]`: the first element of an array, the first character of a string, field "0" of an object. */
  function First(v: Json): Json
  {
    match v
    case Arr(items) => if |items| > 0 then items[0] else Undefined
    case Str(s) => if |s| > 0 then Str([s[0]]) else Undefined
    case Obj(_) => Get(v, "0")
    case _ => Undefined
  }

  /** `v?.[0]`: like `v[0]`, but `undefined` instead of an error on `null` / `undefined`. */
  function OptionalFirst(v: Json): Json
  {
    if v.Undefined? || v.Null? then Undefined else First(v)
  }

  /** Indexing a falsy value never yields anything. */
  lemma FirstOfFalsy(v: Json)
    requires !Truthy(v)
    ensures First(v) == Undefined && OptionalFirst(v) == Undefined
  {
  }

  /** The text of a string value; any other value reads as empty text. */
  function TextOf(v: Json): string
  {
    if v.Str? then v.s else ""
  }

  // ---------------------------------------------------------------- numbers

  /** The number of leading decimal digits of `s`. */
  function LeadingDigits(s: string): (n: nat)
    ensures n <= |s|
    ensures forall i :: 0 <= i < n ==> IsDigit(s[i])
    ensures n < |s| ==> !IsDigit(s[n])
  {
    if |s| > 0 && IsDigit(s[0]) then 1 + LeadingDigits(s[1..]) else 0
  }

  /** The value of a string of decimal digits. */
  function DigitsValue(d: string): nat
    requires forall i :: 0 <= i < |d| ==> IsDigit(d[i])
  {
    if |d| == 0 then 0
    else
      assert IsDigit(d[|d| - 1]);
      DigitsValue(d[..|d| - 1]) * 10 + (d[|d| - 1] as int - '0' as int)
  }

  /** The value of the first `n` characters of `s`, all of them digits. */
  function LeadValue(s: string, n: nat): nat
    requires n <= |s| && forall i :: 0 <= i < n ==> IsDigit(s[i])
  {
    DigitsValue(s[..n])
  }

  function Pow10(k: nat): (r: nat)
    ensures r >= 1
  {
    if k == 0 then 1 else 10 * Pow10(k - 1)
  }

  datatype Scanned = Scanned(value: real, length: nat)

  /**
   * The longest prefix of `t` that is a decimal literal: an optional sign, digits, and
   * an optional `.` followed by digits, with at least one digit in all.
   */
  function ScanDecimal(t: string): (r: Option<Scanned>)
    ensures r.Some? ==> 1 <= r.value.length <= |t|
  {
    var signLen := if |t| > 0 && (t[0] == '+' || t[0] == '-') then 1 else 0;
    var u := t[signLen..];
    var a := LeadingDigits(u);
    var hasDot := a < |u| && u[a] == '.';
    var b := if hasDot then LeadingDigits(u[a + 1..]) else 0;
    if a + b == 0 then None
    else
      var whole := LeadValue(u, a) as real;
      var frac := if hasDot then LeadValue(u[a + 1..], b) as real / Pow10(b) as real else 0.0;
      var magnitude := whole + frac;
      Some(Scanned(if signLen == 1 && t[0] == '-' then -magnitude else magnitude,
                   signLen + a + (if hasDot then 1 + b else 0)))
  }

  function TrimStart(s: string): (r: string)
    ensures |r| <= |s| && r == s[|s| - |r|..]
    ensures |r| == 0 || !IsSpace(r[0])
  {
    if |s| > 0 && IsSpace(s[0]) then TrimStart(s[1..]) else s
  }

  function TrimEnd(s: string): (r: string)
    ensures |r| <= |s| && r == s[..|r|]
    ensures |r| == 0 || !IsSpace(r[|r| - 1])
  {
    if |s| > 0 && IsSpace(s[|s| - 1]) then TrimEnd(s[..|s| - 1]) else s
  }

  /** `parseFloat(v)`: the longest decimal prefix after leading white space; `None` is NaN. */
  function ParseFloat(v: Json): Option<real>
  {
    match v
    case Num(n) => Some(n)
    case Str(s) =>
      var sc := ScanDecimal(TrimStart(s));
      if sc.Some? then Some(sc.value.value) else None
    case Arr(items) =>
      // an array converts to its elements joined with ",", and "," ends a literal
      if |items| == 0 then None else ParseFloat(items[0])
    case _ => None
  }

  /** `Number(v)`: the whole trimmed text must be a decimal literal, empty text is 0; `None` is NaN. */
  function ToNumber(v: Json): Option<real>
  {
    match v
    case Undefined => None
    case Null => Some(0.0)
    case Bool(b) => Some(if b then 1.0 else 0.0)
    case Num(n) => Some(n)
    case Str(s) =>
      var t := TrimEnd(TrimStart(s));
      if t == "" then Some(0.0)
      else
        var sc := ScanDecimal(t);
        if sc.Some? && sc.value.length == |t| then Some(sc.value.value) else None
    case Arr(items) =>
      // an array converts to its elements joined with ","; null and undefined join as ""
      if |items| == 0 then Some(0.0)
      else if |items| >= 2 then None
      else if items[0].Undefined? || items[0].Null? then Some(0.0)
      else if items[0].Bool? then None
      else ToNumber(items[0])
    case Obj(_) => None
  }

  /** `v > 0` for a JSON value compared with a number. */
  predicate GreaterThanZero(v: Json)
  {
    var n := ToNumber(v);
    n.Some? && n.value > 0.0
  }

  lemma {:induction false} DigitsValueOfNatText(n: nat)
    ensures DigitsValue(NatText(n)) == n
    decreases n
  {
    if n >= 10 {
      DigitsValueOfNatText(n / 10);
      var t := NatText(n);
      assert t[..|t| - 1] == NatText(n / 10);
    }
  }

  lemma LeadingDigitsOfDigits(s: string)
    requires forall i :: 0 <= i < |s| ==> IsDigit(s[i])
    ensures LeadingDigits(s) == |s|
  {
    if |s| > 0 {
      LeadingDigitsOfDigits(s[1..]);
    }
  }

  /** A non-empty run of digits scans, as a whole, to its value. */
  lemma ScanDigits(t: string)
    requires |t| >= 1 && forall i :: 0 <= i < |t| ==> IsDigit(t[i])
    ensures ScanDecimal(t) == Some(Scanned(DigitsValue(t) as real, |t|))
  {
    assert t[0] != '+' && t[0] != '-';
    assert t[0..] == t;
    LeadingDigitsOfDigits(t);
    assert t[..|t|] == t;
  }

  /** A run of digits has no white space to trim. */
  lemma TrimDigits(t: string)
    requires |t| >= 1 && forall i :: 0 <= i < |t| ==> IsDigit(t[i])
    ensures TrimStart(t) == t && TrimEnd(t) == t
  {
    assert !IsSpace(t[0]) && !IsSpace(t[|t| - 1]);
  }

  /** Decimal text read back with `Number` and with `parseFloat` gives the number that was written. */
  lemma NumberOfNatText(n: nat)
    ensures ToNumber(Str(NatText(n))) == Some(n as real)
    ensures ParseFloat(Str(NatText(n))) == Some(n as real)
  {
    var t := NatText(n);
    TrimDigits(t);
    ScanDigits(t);
    DigitsValueOfNatText(n);
  }

  // ---------------------------------------------------------------- slicing

  /** Truncation toward zero, as JavaScript's `ToIntegerOrInfinity` does for finite numbers. */
  function Trunc(x: real): int
  {
    if x >= 0.0 then x.Floor else -((-x).Floor)
  }

  /** A `slice` bound resolved against the length: NaN is 0, negative counts from the end, clipped. */
  function SliceBound(x: Option<real>, len: nat): (k: nat)
    ensures k <= len
  {
    var i := if x.None? then 0 else Trunc(x.value);
    if i < 0 then (if len + i < 0 then 0 else len + i)
    else if i > len then len
    else i
  }

  /** `s.slice(start, end)`. */
  function Slice<T>(s: seq<T>, start: Option<real>, end: Option<real>): (r: seq<T>)
    ensures |r| <= |s|
  {
    var from := SliceBound(start, |s|);
    var to := SliceBound(end, |s|);
    if to <= from then [] else s[from..to]
  }
}

=== FILE: middleware.dfy ===
/**
 * The request guards: `authenticate` reads a `Bearer` token from the Authorization
 * header and verifies it, `authorizeRole` admits only a required role. Token
 * verification is an opaque function of the token text and the secret.
 */
module AuthMiddleware {
  import opened Wrappers
  import opened Text
  import opened Store
  import opened Auth

  /** The secret tokens are verified with: the configured one, else this module's default. */
  const VerifyDefaultSecret := "secret"

  function VerifyingSecret(configured: Option<string>): string
  {
    if configured.Some? && configured.value != "" then configured.value else VerifyDefaultSecret
  }

  const BearerScheme := "Bearer"

  datatype AuthOutcome =
    | HeaderMissing
    | BadFormat
    | BadToken
    | Authenticated(user: Claims)
  {
    function Status(): int
    {
      if this.Authenticated? then 200 else 401
    }
  }

  /** The header a client sends for a token: the scheme, one space, the token. */
  function BearerHeader(token: string): string
  {
    BearerScheme + " " + token
  }

  /**
   * `authenticate`: a missing (or empty) header, a header that does not split on ' ' into
   * exactly "Bearer" and one more part, and a token that does not verify each give 401;
   * otherwise the verified payload becomes the request's user.
   */
  function Authenticate(header: Option<string>, secret: string,
                        verify: (string, string) -> Option<Claims>): (r: AuthOutcome)
    ensures r == HeaderMissing <==> header.None? || header.value == ""
    ensures r.Authenticated? || r == BadToken <==>
              header.Some? && exists token | ' ' !in token :: header.value == BearerHeader(token)
    ensures r.Authenticated? <==>
              header.Some? && exists token | ' ' !in token ::
                header.value == BearerHeader(token) && verify(token, secret).Some?
    ensures r.Authenticated? ==> exists token | ' ' !in token ::
              header.value == BearerHeader(token) && verify(token, secret) == Some(r.user)
    ensures forall token | ' ' !in token && header == Some(BearerHeader(token)) ::
              r == match verify(token, secret) case None => BadToken case Some(c) => Authenticated(c)
  {
    if header.None? || header.value == "" then HeaderMissing
    else
      var h := header.value;
      var parts := Split(h, ' ');
      if |parts| != 2 || parts[0] != BearerScheme then
        forall token | ' ' !in token && h == BearerHeader(token)
          ensures false
        {
          SplitTwo(h, ' ', BearerScheme, token);
        }
        BadFormat
      else
        SplitTwo(h, ' ', parts[0], parts[1]);
        assert h == BearerHeader(parts[1]);
        forall token | ' ' !in token && h == BearerHeader(token)
          ensures token == parts[1]
        {
          assert h[|BearerScheme| + 1..] == token;
        }
        match verify(parts[1], secret)
        case None => BadToken
        case Some(claims) => Authenticated(claims)
  }

  /** The header must use the exact scheme name and a single space. */
  lemma HeaderFormatIsExact(token: string, secret: string, verify: (string, string) -> Option<Claims>)
    ensures Authenticate(Some("bearer " + token), secret, verify) == BadFormat
    ensures Authenticate(Some("Bearer  " + token), secret, verify) == BadFormat
  {
    var lower := "bearer " + token;
    SplitAfterHead("bearer", ' ', token);
    assert lower == "bearer" + [' '] + token;
    var double := "Bearer  " + token;
    assert double == "Bearer" + [' '] + ([' '] + token);
    SplitAfterHead("Bearer", ' ', [' '] + token);
    assert [' '] + token == "" + [' '] + token;
    SplitAfterHead("", ' ', token);
  }

  datatype Gate = NotAuthenticated | Forbidden | Proceed
  {
    function Status(): int
    {
      match this
      case NotAuthenticated => 401
      case Forbidden => 403
      case Proceed => 200
    }
  }

  /** `authorizeRole(required)`: no user gives 401, another role 403, the required role proceeds. */
  function AuthorizeRole(user: Option<Claims>, required: string): (g: Gate)
    ensures g == NotAuthenticated <==> user.None?
    ensures g == Forbidden <==> user.Some? && user.value.role != required
    ensures g == Proceed <==> user.Some? && user.value.role == required
  {
    if user.None? then NotAuthenticated
    else if user.value.role != required then Forbidden
    else Proceed
  }

  /** The behaviour the token library promises: a token verifies, to its payload, only under its own secret. */
  ghost predicate FaithfulTokens(sign: (Claims, string) -> string, verify: (string, string) -> Option<Claims>)
  {
    && (forall c, k, k' :: verify(sign(c, k), k') == (if k == k' then Some(c) else None))
    && (forall c, k :: ' ' !in sign(c, k))
  }

  /**
   * As written, with no secret configured the two modules fall back to different
   * defaults, so every token signup or login issues is refused by `authenticate`.
   */
  lemma DefaultSecretsRejectIssuedTokens(c: Claims, sign: (Claims, string) -> string,
                                         verify: (string, string) -> Option<Claims>)
    requires FaithfulTokens(sign, verify)
    ensures Authenticate(Some(BearerHeader(sign(c, SigningSecret(None)))), VerifyingSecret(None), verify) == BadToken
  {
    var token := sign(c, SigningSecret(None));
    assert SigningSecret(None) != VerifyingSecret(None);
    assert ' ' !in token;
    assert verify(token, VerifyingSecret(None)) == None;
  }

  /** One secret for signing and verifying: the configured one, else a single default. */
  function SharedSecret(configured: Option<string>): (k: string)
    ensures configured.Some? && configured.value != "" ==> k == configured.value == SigningSecret(configured)
  {
    if configured.Some? && configured.value != "" then configured.value else SignDefaultSecret
  }

  /**
   * With one shared secret, the token a signup issues authenticates as the new user,
   * and the new user, whose role is "user", passes a "user" guard and is refused an
   * "admin" one.
   */
  lemma SignupTokenAuthenticates(db: Db, req: SignupRequest, hash: string -> string,
                                 sign: (Claims, string) -> string, verify: (string, string) -> Option<Claims>,
                                 configured: Option<string>)
    requires FaithfulTokens(sign, verify)
    requires Signup(db, req, hash, sign, SharedSecret(configured)).reply.Registered?
    ensures var s := Signup(db, req, hash, sign, SharedSecret(configured));
            var u := s.db.users[|db.users|];
            var a := Authenticate(Some(BearerHeader(s.reply.token)), SharedSecret(configured), verify);
            && a == Authenticated(ClaimsOf(u))
            && AuthorizeRole(Some(a.user), "user") == Proceed
            && AuthorizeRole(Some(a.user), "admin") == Forbidden
  {
    var k := SharedSecret(configured);
    var s := Signup(db, req, hash, sign, k);
    var u := s.db.users[|db.users|];
    var token := s.reply.token;
    assert token == sign(ClaimsOf(u), k);
    assert ' ' !in token;
    assert verify(token, k) == Some(ClaimsOf(u));
    assert u.role == "user";
  }
}

=== FILE: navfetch.dfy ===
/**
 * `fetchLatestNavFromApi` of the NAV service: reading a price-API answer of several
 * shapes into a (nav, date) quote, and retrying a failed attempt with a fixed
 * exponential backoff. The answers of successive attempts are an input, and the
 * waits are returned as a list of delays instead of being slept.
 */
module NavFetch {
  import opened Wrappers
  import opened Js

  /** What one HTTP call produced: a thrown error (network, timeout, HTTP status) or a body. */
  datatype HttpOutcome = Rejected(message: string) | Answered(body: Json)

  /** A normalised NAV reading; the nav is always a number (never NaN). */
  datatype Quote = Quote(nav: real, date: string)

  /** Which of the payload shapes the reader recognised, tried in this order. */
  datatype Shape =
    | NestedData     // payload.data.data: its first element, or the object itself
    | DataArray      // payload.data is an array: its first element
    | DirectRecord   // payload.data carries a nav
    | PagedWrapper   // payload.data.totalRecords > 0
    | Fallback       // payload.data, or the payload itself

  const MaxAttempts: nat := 5
  const BaseDelayMs: nat := 500

  const InvalidResponse := "Invalid API response"
  const EntryNotFound := "NAV entry not found in API response"
  const NotNumeric := "NAV not numeric"

  function ShapeOf(payload: Json): Shape
  {
    var data := Get(payload, "data");
    if Truthy(data) && Truthy(Get(data, "data")) then NestedData
    else if Truthy(data) && data.Arr? then DataArray
    else if Truthy(data) && Truthy(Get(data, "nav")) then DirectRecord
    else if Truthy(data) && Truthy(Get(data, "totalRecords")) && GreaterThanZero(Get(data, "totalRecords")) then PagedWrapper
    else Fallback
  }

  /** The record the reader takes the nav and date from; falsy when there is none. */
  function NavEntry(payload: Json): Json
  {
    var data := Get(payload, "data");
    match ShapeOf(payload)
    case NestedData => Or(First(Get(data, "data")), Get(data, "data"))
    case DataArray => First(data)
    case DirectRecord => data
    case PagedWrapper => OptionalFirst(Get(data, "data"))
    case Fallback => Or(data, payload)
  }

  /** One attempt: the quote read from the answer, or the error the attempt throws. */
  function ReadAttempt(o: HttpOutcome): (r: Result<Quote>)
    ensures o.Rejected? ==> r == Err(o.message)
    ensures o.Answered? && !Truthy(o.body) ==> r == Err(InvalidResponse)
    ensures r.Ok? ==> (&& o.Answered?
                       && Truthy(NavEntry(o.body))
                       && ParseFloat(Get(NavEntry(o.body), "nav")) == Some(r.value.nav)
                       && r.value.date == TextOf(Get(NavEntry(o.body), "date")))
  {
    match o
    case Rejected(m) => Err(m)
    case Answered(payload) =>
      if !Truthy(payload) then Err(InvalidResponse)
      else
        var entry := NavEntry(payload);
        if !Truthy(entry) then Err(EntryNotFound)
        else
          // `navEntry.nav || navEntry["nav"]` reads the same property twice
          var nav := ParseFloat(Get(entry, "nav"));
          if nav.None? then Err(NotNumeric)
          else Ok(Quote(nav.value, TextOf(Get(entry, "date"))))
  }

  /** Once the entry is found, the attempt's outcome depends only on its `nav` and `date`. */
  lemma ReadEntry(payload: Json)
    requires Truthy(payload) && Truthy(NavEntry(payload))
    ensures var nav := ParseFloat(Get(NavEntry(payload), "nav"));
            ReadAttempt(Answered(payload))
              == if nav.None? then Err(NotNumeric) else Ok(Quote(nav.value, TextOf(Get(NavEntry(payload), "date"))))
  {
  }

  /**
   * The paged-wrapper shape is chosen only when `payload.data.data` is falsy, and indexing
   * a falsy value yields nothing: that branch always ends in "NAV entry not found".
   */
  lemma PagedWrapperNeverYields(payload: Json)
    requires Truthy(payload) && ShapeOf(payload) == PagedWrapper
    ensures !Truthy(NavEntry(payload))
    ensures ReadAttempt(Answered(payload)) == Err(EntryNotFound)
  {
    FirstOfFalsy(Get(Get(payload, "data"), "data"));
  }

  /** A nested `data.data` record is read before anything else in the payload. */
  lemma NestedDataWins(payload: Json, nav: real, date: string)
    requires Get(Get(payload, "data"), "data") == Obj(map["nav" := Num(nav), "date" := Str(date)])
    requires nav != 0.0
    ensures ReadAttempt(Answered(payload)) == Ok(Quote(nav, date))
  {
    var rec := Get(Get(payload, "data"), "data");
    assert Truthy(Get(payload, "data"));
    assert First(rec) == Undefined;
    assert Get(rec, "nav") == Num(nav) && Get(rec, "date") == Str(date);
  }

  /** A text nav is parsed, and text that is not a number is the "NAV not numeric" error. */
  lemma DirectRecordText(payload: Json, navText: string, date: string)
    requires payload == Obj(map["data" := Obj(map["nav" := Str(navText), "date" := Str(date)])])
    requires navText != ""
    ensures ShapeOf(payload) == DirectRecord
    ensures ParseFloat(Str(navText)).None? ==> ReadAttempt(Answered(payload)) == Err(NotNumeric)
    ensures ParseFloat(Str(navText)).Some? ==>
              ReadAttempt(Answered(payload)) == Ok(Quote(ParseFloat(Str(navText)).value, date))
  {
    var data := Get(payload, "data");
    assert Get(data, "data") == Undefined;
    assert Get(data, "nav") == Str(navText);
    assert ShapeOf(payload) == DirectRecord;
    assert NavEntry(payload) == data;
    ReadEntry(payload);
  }

  // ---------------------------------------------------------------- retry

  function Pow2(k: nat): (r: nat)
    ensures r >= 1
  {
    if k == 0 then 1 else 2 * Pow2(k - 1)
  }

  /** The wait after failed attempt `attempt`, before the next one: 500 · 2^(attempt − 1) ms. */
  function Backoff(attempt: nat): nat
    requires attempt >= 1
  {
    BaseDelayMs * Pow2(attempt - 1)
  }

  /** A fetch with retries: the final outcome, the waits between attempts, and the last attempt made. */
  datatype FetchRun = FetchRun(result: Result<Quote>, delays: seq<nat>, attempts: nat)

  /**
   * `fetchLatestNavFromApi(code, attempt)`: `upstream(k)` is the answer to attempt `k`.
   * Any error of an attempt before the fifth is retried after its backoff; the fifth
   * attempt's error is rethrown.
   */
  function FetchFrom(upstream: nat -> HttpOutcome, attempt: nat): (run: FetchRun)
    requires 1 <= attempt <= MaxAttempts
    ensures attempt <= run.attempts <= MaxAttempts
    ensures |run.delays| == run.attempts - attempt
    ensures forall i :: 0 <= i < |run.delays| ==> run.delays[i] == Backoff(attempt + i)
    ensures forall k :: attempt <= k < run.attempts ==> ReadAttempt(upstream(k)).Err?
    ensures run.result == ReadAttempt(upstream(run.attempts))
    ensures run.result.Err? ==> run.attempts == MaxAttempts
    decreases MaxAttempts - attempt
  {
    var r := ReadAttempt(upstream(attempt));
    if r.Ok? || attempt == MaxAttempts then FetchRun(r, [], attempt)
    else
      var rest := FetchFrom(upstream, attempt + 1);
      var delays := [Backoff(attempt)] + rest.delays;
      assert forall i :: 0 < i < |delays| ==> delays[i] == rest.delays[i - 1];
      assert forall k :: attempt < k < rest.attempts ==> ReadAttempt(upstream(k)).Err?;
      FetchRun(rest.result, delays, rest.attempts)
  }

  /** The entry point: the first attempt is attempt 1. */
  function FetchLatestNav(upstream: nat -> HttpOutcome): (run: FetchRun)
    ensures 1 <= run.attempts <= MaxAttempts
    ensures run.result.Ok? <==> exists k :: 1 <= k <= MaxAttempts && ReadAttempt(upstream(k)).Ok?
    ensures run.result.Ok? ==> forall k :: 1 <= k < run.attempts ==> ReadAttempt(upstream(k)).Err?
    ensures run.result == ReadAttempt(upstream(run.attempts))
    ensures run.result.Err? ==> run.attempts == MaxAttempts
    ensures |run.delays| == run.attempts - 1
    ensures forall i :: 0 <= i < |run.delays| ==> run.delays[i] == Backoff(i + 1)
  {
    FetchFrom(upstream, 1)
  }

  /** Four failed attempts mean five attempts in all, with waits of 500, 1000, 2000 and 4000 ms. */
  lemma FourFailuresWaitFourTimes(upstream: nat -> HttpOutcome)
    requires forall k :: 1 <= k < MaxAttempts ==> ReadAttempt(upstream(k)).Err?
    ensures FetchLatestNav(upstream).attempts == 5
    ensures FetchLatestNav(upstream).delays == [500, 1000, 2000, 4000]
  {
    var run := FetchLatestNav(upstream);
    assert run.attempts == 5;
    assert Pow2(1) == 2 && Pow2(2) == 4 && Pow2(3) == 8;
    assert run.delays[0] == Backoff(1) && run.delays[1] == Backoff(2);
    assert run.delays[2] == Backoff(3) && run.delays[3] == Backoff(4);
  }

  /** An always-failing fetch waits 500, 1000, 2000 and 4000 ms and rethrows the fifth error. */
  lemma AlwaysFailingRethrowsFifth(upstream: nat -> HttpOutcome)
    requires forall k :: 1 <= k <= MaxAttempts ==> ReadAttempt(upstream(k)).Err?
    ensures FetchLatestNav(upstream).delays == [500, 1000, 2000, 4000]
    ensures FetchLatestNav(upstream).result == ReadAttempt(upstream(5))
    ensures FetchLatestNav(upstream).result.Err?
  {
    FourFailuresWaitFourTimes(upstream);
  }

  /** Four failures and a fifth success: the fifth attempt's quote, after the same four waits. */
  lemma SucceedsOnFifthAttempt(upstream: nat -> HttpOutcome)
    requires forall k :: 1 <= k < MaxAttempts ==> ReadAttempt(upstream(k)).Err?
    requires ReadAttempt(upstream(5)).Ok?
    ensures FetchLatestNav(upstream).result == ReadAttempt(upstream(5))
    ensures FetchLatestNav(upstream).delays == [500, 1000, 2000, 4000]
  {
    FourFailuresWaitFourTimes(upstream);
  }
}

=== FILE: navservice.dfy ===
/**
 * The NAV service's reconciliation (`updateLatestNAV`) and the body of its daily job
 * (`scheduleDailyNavUpdate`): fetch with retries, upsert the latest record, add a
 * first-seen history row, and backfill missing fund metadata best-effort. The cron
 * trigger itself is not modelled; the job body is a function of the store and of the
 * upstream answers.
 */
module NavService {
  import opened Wrappers
  import opened Js
  import opened Seqs
  import opened Store
  import opened NavFetch

  /** The `{ schemeCode, success, nav, date, error }` record a reconciliation returns. */
  datatype UpdateResult =
    | Updated(schemeCode: int, nav: real, date: string)
    | UpdateFailed(schemeCode: int, error: string)

  /**
   * `updateLatestNAV(code)`: when the retried fetch fails after five attempts nothing is
   * written and the last error is reported. A fetched quote always becomes the latest
   * record; the call succeeds when the history write then goes through, and reports the
   * validation error when that write refuses an empty date.
   */
  function UpdateLatestNav(db: Db, code: int, upstream: nat -> HttpOutcome): (s: Step<UpdateResult>)
    ensures s.reply.schemeCode == code
    ensures var run := FetchLatestNav(upstream).result;
            s.reply.Updated? <==> run.Ok? && HistoryAccepts(db.history, code, run.value.date)
    ensures s.reply.Updated? ==> (&& FetchLatestNav(upstream).result == Ok(Quote(s.reply.nav, s.reply.date))
                                  && HasRow(s.db.history, code, s.reply.date))
    ensures var run := FetchLatestNav(upstream).result;
            run.Err? ==> s == Step(db, UpdateFailed(code, run.error))
    ensures var run := FetchLatestNav(upstream).result;
            run.Ok? ==> FindLatest(s.db.latest, code) == Some(LatestNav(code, run.value.nav, run.value.date))
    ensures var run := FetchLatestNav(upstream).result;
            run.Ok? && !HistoryAccepts(db.history, code, run.value.date) ==>
              s.reply == UpdateFailed(code, DateRequired) && s.db.history == db.history
    ensures forall c :: c != code ==> FindLatest(s.db.latest, c) == FindLatest(db.latest, c)
    ensures |db.history| <= |s.db.history| && s.db.history[..|db.history|] == db.history
    ensures s.db.funds == db.funds && s.db.holdings == db.holdings && s.db.users == db.users
    ensures Wf(db) ==> Wf(s.db)
    ensures DatedHistory(db.history) ==> DatedHistory(s.db.history)
  {
    var run := FetchLatestNav(upstream);
    match run.result
    case Err(m) => Step(db, UpdateFailed(code, m))
    case Ok(q) =>
      var w := RecordQuote(db, code, q.nav, q.date);
      if w.reply.Some? then Step(w.db, UpdateFailed(code, w.reply.value))
      else Step(w.db, Updated(code, q.nav, q.date))
  }

  /**
   * Reconciling twice against an upstream that reports the same date adds no second
   * history row and leaves the existing row's nav as first recorded; with the same
   * nav as well, the second run has the same store and the same report as the first.
   */
  lemma ReconcileIdempotent(db: Db, code: int, first: nat -> HttpOutcome, second: nat -> HttpOutcome)
    requires FetchLatestNav(first).result.Ok? && FetchLatestNav(second).result.Ok?
    requires FetchLatestNav(first).result.value.date == FetchLatestNav(second).result.value.date
    ensures UpdateLatestNav(UpdateLatestNav(db, code, first).db, code, second).db.history
         == UpdateLatestNav(db, code, first).db.history
    ensures FetchLatestNav(first).result == FetchLatestNav(second).result ==>
              (UpdateLatestNav(UpdateLatestNav(db, code, first).db, code, second)
               == UpdateLatestNav(db, code, first))
  {
    var q := FetchLatestNav(first).result.value;
    var once := RecordQuote(db, code, q.nav, q.date);
    RecordQuoteIdempotent(db, code, q.nav, q.date);
    var q2 := FetchLatestNav(second).result.value;
    var twice := RecordQuote(once.db, code, q2.nav, q2.date);
    assert twice.db.history == once.db.history;
  }

  // ---------------------------------------------------------------- metadata backfill

  /**
   * The scheme name a fund-details answer carries, looked up in the job's order.
   * A null or undefined payload makes the lookup throw; the job ignores that, so it
   * reads as no name.
   */
  function MetaSchemeName(payload: Json): Json
  {
    if payload.Undefined? || payload.Null? then Undefined
    else
      var data := Get(payload, "data");
      Or(Get(Get(data, "meta"), "scheme_name"),
      Or(Get(Get(payload, "meta"), "scheme_name"),
      Or(Get(data, "schemeName"),
      Or(Get(payload, "schemeName"),
      Or(if Truthy(data) && Truthy(First(data)) then Get(First(data), "schemeName") else Null,
         Null)))))
  }

  /**
   * Best-effort metadata: a fund record is created only when none exists for the code
   * and the details answer names the scheme; every failure is swallowed.
   */
  function BackfillFund(db: Db, code: int, details: HttpOutcome): (r: Db)
    ensures r.latest == db.latest && r.history == db.history
    ensures r.holdings == db.holdings && r.users == db.users
    ensures code in db.funds ==> r.funds == db.funds
    ensures forall c :: c in db.funds ==> c in r.funds && r.funds[c] == db.funds[c]
    ensures forall c :: c in r.funds ==> c in db.funds || c == code
    ensures code in r.funds && code !in db.funds <==>
              && code !in db.funds && details.Answered?
              && Truthy(MetaSchemeName(details.body)) && MetaSchemeName(details.body).Str?
    ensures code in r.funds && code !in db.funds ==>
              r.funds[code] == Fund(code, Some(MetaSchemeName(details.body).s), None, None, None)
    ensures Wf(db) ==> Wf(r)
  {
    if code in db.funds then db
    else match details
      case Rejected(_) => db
      case Answered(payload) =>
        var name := MetaSchemeName(payload);
        // a name that is not text is not stored
        if Truthy(name) && name.Str? then db.(funds := db.funds[code := Fund(code, Some(name.s), None, None, None)])
        else db
  }

  // ---------------------------------------------------------------- daily job

  /** The answers to the attempts made for one code. */
  function AttemptsFor(upstream: (int, nat) -> HttpOutcome, code: int): nat -> HttpOutcome
  {
    (k: nat) => upstream(code, k)
  }

  /**
   * One iteration of the job: reconcile the code, then backfill its metadata if that
   * succeeded. The report is the code's own outcome whenever that outcome is a success,
   * and always when the store holds no undated row for the code.
   */
  function ReconcileOne(db: Db, code: int, upstream: (int, nat) -> HttpOutcome,
                        details: int -> HttpOutcome): (s: Step<UpdateResult>)
    ensures JobOutcome(upstream, code).Updated? || !HasRow(db.history, code, "") ==> s.reply == JobOutcome(upstream, code)
    ensures s.reply.schemeCode == code
    ensures s.reply.Updated? ==> FindLatest(s.db.latest, code) == Some(LatestNav(code, s.reply.nav, s.reply.date))
    ensures forall c :: c != code ==> FindLatest(s.db.latest, c) == FindLatest(db.latest, c)
    ensures |db.history| <= |s.db.history| && s.db.history[..|db.history|] == db.history
    ensures s.db.holdings == db.holdings && s.db.users == db.users
    ensures forall c :: c in db.funds ==> c in s.db.funds && s.db.funds[c] == db.funds[c]
    ensures forall c :: c in s.db.funds ==> c in db.funds || c == code
    ensures Wf(db) ==> Wf(s.db)
    ensures DatedHistory(db.history) ==> DatedHistory(s.db.history)
  {
    var first := UpdateLatestNav(db, code, AttemptsFor(upstream, code));
    if first.reply.Updated? then Step(BackfillFund(first.db, code, details(code)), first.reply)
    else first
  }

  /**
   * What the job reports for `code` in a store whose history rows all carry a date: a
   * function of that code's own upstream answers only, so no other code's success or
   * failure can change it.
   */
  function JobOutcome(upstream: (int, nat) -> HttpOutcome, code: int): (r: UpdateResult)
    ensures r.schemeCode == code
    ensures var run := FetchLatestNav(AttemptsFor(upstream, code)).result;
            r.Updated? <==> run.Ok? && run.value.date != ""
    ensures var run := FetchLatestNav(AttemptsFor(upstream, code)).result;
            r.Updated? ==> run == Ok(Quote(r.nav, r.date))
    ensures var run := FetchLatestNav(AttemptsFor(upstream, code)).result;
            r.UpdateFailed? ==> r.error == (if run.Err? then run.error else DateRequired)
  {
    match FetchLatestNav(AttemptsFor(upstream, code)).result
    case Ok(q) => if q.date == "" then UpdateFailed(code, DateRequired) else Updated(code, q.nav, q.date)
    case Err(m) => UpdateFailed(code, m)
  }

  function CodesOfResults(results: seq<UpdateResult>): (r: seq<int>)
    ensures |r| == |results|
    ensures forall i :: 0 <= i < |results| ==> r[i] == results[i].schemeCode
  {
    seq(|results|, i requires 0 <= i < |results| => results[i].schemeCode)
  }

  /** A code's report put in front of the reports of the codes after it. */
  lemma ConsReports(codes: seq<int>, upstream: (int, nat) -> HttpOutcome, head: UpdateResult,
                    tail: seq<UpdateResult>, dated: bool)
    requires |codes| > 0 && |tail| == |codes| - 1
    requires head.schemeCode == codes[0]
    requires JobOutcome(upstream, codes[0]).Updated? || dated ==> head == JobOutcome(upstream, codes[0])
    requires forall i :: 0 <= i < |tail| ==> tail[i].schemeCode == codes[1..][i]
    requires forall i :: 0 <= i < |tail| && JobOutcome(upstream, codes[1..][i]).Updated? ==>
               tail[i] == JobOutcome(upstream, codes[1..][i])
    requires dated ==> forall i :: 0 <= i < |tail| ==> tail[i] == JobOutcome(upstream, codes[1..][i])
    ensures var reports := [head] + tail;
            && |reports| == |codes|
            && (forall i :: 0 <= i < |codes| ==> reports[i].schemeCode == codes[i])
            && (forall i :: 0 <= i < |codes| && JobOutcome(upstream, codes[i]).Updated? ==>
                  reports[i] == JobOutcome(upstream, codes[i]))
            && (dated ==> forall i :: 0 <= i < |codes| ==> reports[i] == JobOutcome(upstream, codes[i]))
  {
    var reports := [head] + tail;
    forall i | 0 < i < |codes|
      ensures reports[i] == tail[i - 1] && codes[i] == codes[1..][i - 1]
    {
    }
  }

  /**
   * The job's loop over `codes`: every code is reconciled, in order, whatever happened
   * to the codes before it; each outcome depends only on that code's own answers.
   */
  function RunCodes(db: Db, codes: seq<int>, upstream: (int, nat) -> HttpOutcome,
                    details: int -> HttpOutcome): (s: Step<seq<UpdateResult>>)
    ensures |s.reply| == |codes|
    ensures forall i :: 0 <= i < |codes| ==> s.reply[i].schemeCode == codes[i]
    ensures forall i :: 0 <= i < |codes| && JobOutcome(upstream, codes[i]).Updated? ==>
              s.reply[i] == JobOutcome(upstream, codes[i])
    ensures DatedHistory(db.history) ==> forall i :: 0 <= i < |codes| ==> s.reply[i] == JobOutcome(upstream, codes[i])
    decreases |codes|
  {
    if |codes| == 0 then Step(db, [])
    else
      UndatedRowsAbsent(db.history, codes[0]);
      var first := ReconcileOne(db, codes[0], upstream, details);
      var rest := RunCodes(first.db, codes[1..], upstream, details);
      ConsReports(codes, upstream, first.reply, rest.reply, DatedHistory(db.history));
      Step(rest.db, [first.reply] + rest.reply)
  }

  /** The job rewrites the latest records of its own codes only. */
  lemma {:induction false} RunCodesLatestFrame(db: Db, codes: seq<int>, upstream: (int, nat) -> HttpOutcome,
                                               details: int -> HttpOutcome, c: int)
    requires c !in codes
    ensures FindLatest(RunCodes(db, codes, upstream, details).db.latest, c) == FindLatest(db.latest, c)
    decreases |codes|
  {
    if |codes| > 0 {
      var first := ReconcileOne(db, codes[0], upstream, details);
      assert c !in codes[1..];
      RunCodesLatestFrame(first.db, codes[1..], upstream, details, c);
      assert RunCodes(db, codes, upstream, details).db == RunCodes(first.db, codes[1..], upstream, details).db;
    }
  }

  /** The job only appends history rows and never touches portfolios or users. */
  lemma {:induction false} RunCodesAppendsOnly(db: Db, codes: seq<int>, upstream: (int, nat) -> HttpOutcome,
                                               details: int -> HttpOutcome)
    ensures var r := RunCodes(db, codes, upstream, details).db;
            && |db.history| <= |r.history| && r.history[..|db.history|] == db.history
            && r.holdings == db.holdings && r.users == db.users
    decreases |codes|
  {
    if |codes| > 0 {
      var first := ReconcileOne(db, codes[0], upstream, details);
      RunCodesAppendsOnly(first.db, codes[1..], upstream, details);
      var r := RunCodes(first.db, codes[1..], upstream, details).db;
      assert RunCodes(db, codes, upstream, details).db == r;
      PrefixTrans(db.history, first.db.history, r.history);
    }
  }

  /** Existing fund records survive the job, and the only new ones are for the job's codes. */
  lemma {:induction false} RunCodesFundsFrame(db: Db, codes: seq<int>, upstream: (int, nat) -> HttpOutcome,
                                              details: int -> HttpOutcome)
    ensures var r := RunCodes(db, codes, upstream, details).db;
            && (forall c :: c in db.funds ==> c in r.funds && r.funds[c] == db.funds[c])
            && (forall c :: c in r.funds ==> c in db.funds || c in codes)
    decreases |codes|
  {
    if |codes| > 0 {
      var first := ReconcileOne(db, codes[0], upstream, details);
      RunCodesFundsFrame(first.db, codes[1..], upstream, details);
      assert RunCodes(db, codes, upstream, details).db == RunCodes(first.db, codes[1..], upstream, details).db;
      assert forall c :: c in codes[1..] ==> c in codes;
    }
  }

  /** The job keeps the store well formed; in particular, history stays free of duplicate dates. */
  lemma {:induction false} RunCodesKeepsWf(db: Db, codes: seq<int>, upstream: (int, nat) -> HttpOutcome,
                                           details: int -> HttpOutcome)
    requires Wf(db)
    ensures Wf(RunCodes(db, codes, upstream, details).db)
    decreases |codes|
  {
    if |codes| > 0 {
      var first := ReconcileOne(db, codes[0], upstream, details);
      RunCodesKeepsWf(first.db, codes[1..], upstream, details);
      assert RunCodes(db, codes, upstream, details).db == RunCodes(first.db, codes[1..], upstream, details).db;
    }
  }

  /**
   * A successful code's latest record is its own fetched quote after the whole job:
   * no other code's reconciliation overwrites it (the codes are distinct).
   */
  lemma {:induction false} RunCodesLastWriteWins(db: Db, codes: seq<int>, upstream: (int, nat) -> HttpOutcome,
                                                 details: int -> HttpOutcome, i: nat)
    requires NoDups(codes) && i < |codes|
    requires JobOutcome(upstream, codes[i]).Updated?
    ensures var u := JobOutcome(upstream, codes[i]);
            FindLatest(RunCodes(db, codes, upstream, details).db.latest, codes[i])
              == Some(LatestNav(codes[i], u.nav, u.date))
    decreases |codes|
  {
    NoDupsTail(codes);
    if i == 0 {
      RunCodesFirstKept(db, codes, upstream, details);
    } else {
      var first := ReconcileOne(db, codes[0], upstream, details);
      RunCodesUnfold(db, codes, upstream, details);
      assert codes[1..][i - 1] == codes[i];
      RunCodesLastWriteWins(first.db, codes[1..], upstream, details, i - 1);
    }
  }

  /** The first code's update survives the rest of the run when no later code repeats it. */
  lemma RunCodesFirstKept(db: Db, codes: seq<int>, upstream: (int, nat) -> HttpOutcome,
                          details: int -> HttpOutcome)
    requires |codes| > 0 && codes[0] !in codes[1..]
    requires JobOutcome(upstream, codes[0]).Updated?
    ensures var u := JobOutcome(upstream, codes[0]);
            FindLatest(RunCodes(db, codes, upstream, details).db.latest, codes[0])
              == Some(LatestNav(codes[0], u.nav, u.date))
  {
    var first := ReconcileOne(db, codes[0], upstream, details);
    RunCodesUnfold(db, codes, upstream, details);
    RunCodesLatestFrame(first.db, codes[1..], upstream, details, codes[0]);
  }

  lemma RunCodesUnfold(db: Db, codes: seq<int>, upstream: (int, nat) -> HttpOutcome,
                       details: int -> HttpOutcome)
    requires |codes| > 0
    ensures RunCodes(db, codes, upstream, details).db
              == RunCodes(ReconcileOne(db, codes[0], upstream, details).db, codes[1..], upstream, details).db
  {
  }

  /**
   * The daily job: every distinct scheme code held in any portfolio is reconciled
   * exactly once, and a failure on one code never stops the later ones.
   */
  function DailyNavUpdate(db: Db, upstream: (int, nat) -> HttpOutcome, details: int -> HttpOutcome)
    : (s: Step<seq<UpdateResult>>)
    ensures forall c :: c in CodesOfResults(s.reply) <==> c in CodesOf(db.holdings)
    ensures NoDups(CodesOfResults(s.reply))
    ensures forall i :: 0 <= i < |s.reply| && JobOutcome(upstream, s.reply[i].schemeCode).Updated? ==>
              s.reply[i] == JobOutcome(upstream, s.reply[i].schemeCode)
    ensures DatedHistory(db.history) ==>
              forall i :: 0 <= i < |s.reply| ==> s.reply[i] == JobOutcome(upstream, s.reply[i].schemeCode)
    ensures s.db.holdings == db.holdings && s.db.users == db.users
    ensures |db.history| <= |s.db.history| && s.db.history[..|db.history|] == db.history
    ensures Wf(db) ==> Wf(s.db)
  {
    var codes := DistinctSchemeCodes(db.holdings);
    RunCodesAppendsOnly(db, codes, upstream, details);
    assert CodesOfResults(RunCodes(db, codes, upstream, details).reply) == codes;
    if Wf(db) then RunCodesKeepsWf(db, codes, upstream, details); RunCodes(db, codes, upstream, details)
    else RunCodes(db, codes, upstream, details)
  }
}

=== FILE: portfolio.dfy ===
/**
 * The portfolio handlers: adding a holding (with its purchase-time NAV snapshot),
 * listing, removing, valuing, and the per-date value series. Every handler works on
 * the calling user's holdings, found in collection order.
 */
module Portfolio {
  import opened Wrappers
  import opened Js
  import opened Seqs
  import opened Store
  import opened NavFetch

  // ---------------------------------------------------------------- lookups

  /** `Portfolio.find({ userId })`: the user's holdings in collection order. */
  function Mine(holdings: seq<Holding>, user: UserId): (r: seq<Holding>)
    ensures |r| <= |holdings|
    ensures forall h :: h in r <==> h in holdings && h.userId == user
    decreases |holdings|
  {
    if |holdings| == 0 then []
    else
      var rest := Mine(holdings[..|holdings| - 1], user);
      var h := holdings[|holdings| - 1];
      assert forall x :: x in holdings <==> x in holdings[..|holdings| - 1] || x == h;
      if h.userId == user then rest + [h] else rest
  }

  /** The lookup keeps collection order: the holdings of two stretches of the collection, one after the other. */
  lemma {:induction false} MineSplit(a: seq<Holding>, b: seq<Holding>, user: UserId)
    ensures Mine(a + b, user) == Mine(a, user) + Mine(b, user)
    decreases |b|
  {
    if |b| == 0 {
      assert a + b == a;
    } else {
      var b' := b[..|b| - 1];
      assert (a + b)[..|a + b| - 1] == a + b';
      assert (a + b)[|a + b| - 1] == b[|b| - 1];
      MineSplit(a, b', user);
    }
  }

  /** `FundLatestNav.find({ schemeCode: { $in: codes } })`: matching records in collection order. */
  function QuotedFor(latest: seq<LatestNav>, codes: seq<int>): (r: seq<LatestNav>)
    ensures forall n :: n in r <==> n in latest && n.schemeCode in codes
    ensures |r| > 0 ==> exists k :: (&& 0 <= k < |latest| && r[0] == latest[k]
                                      && latest[k].schemeCode in codes
                                      && forall j :: 0 <= j < k ==> latest[j].schemeCode !in codes)
    ensures |r| == 0 ==> forall k :: 0 <= k < |latest| ==> latest[k].schemeCode !in codes
    decreases |latest|
  {
    if |latest| == 0 then []
    else
      var rest := QuotedFor(latest[1..], codes);
      assert forall x :: x in latest <==> x == latest[0] || x in latest[1..];
      if latest[0].schemeCode in codes then [latest[0]] + rest
      else
        assert |rest| > 0 ==> exists k :: (&& 0 <= k < |latest| && rest[0] == latest[k]
                                           && latest[k].schemeCode in codes
                                           && forall j :: 0 <= j < k ==> latest[j].schemeCode !in codes) by {
          if |rest| > 0 {
            var k :| && 0 <= k < |latest[1..]| && rest[0] == latest[1..][k]
                     && latest[1..][k].schemeCode in codes
                     && forall j :: 0 <= j < k ==> latest[1..][j].schemeCode !in codes;
            assert forall j :: 1 <= j < k + 1 ==> latest[j] == latest[1..][j - 1];
          }
        }
        rest
  }

  /**
   * `navMap[code]` after `navs.forEach((n) => navMap[n.schemeCode] = n)`: the last record
   * for the code, since a later one replaces an earlier one.
   */
  function NavRecord(navs: seq<LatestNav>, code: int): (r: Option<LatestNav>)
    ensures r.Some? ==> r.value in navs && r.value.schemeCode == code
    ensures r.None? <==> forall n :: n in navs ==> n.schemeCode != code
    decreases |navs|
  {
    if |navs| == 0 then None
    else
      var rest := NavRecord(navs[1..], code);
      assert forall x :: x in navs <==> x == navs[0] || x in navs[1..];
      if rest.Some? then rest
      else if navs[0].schemeCode == code then Some(navs[0])
      else None
  }

  /** Looking a held code up among the queried records finds what the whole collection holds. */
  lemma {:induction false} NavRecordOfQuoted(latest: seq<LatestNav>, codes: seq<int>, code: int)
    requires code in codes
    ensures NavRecord(QuotedFor(latest, codes), code) == NavRecord(latest, code)
    decreases |latest|
  {
    if |latest| > 0 {
      NavRecordOfQuoted(latest[1..], codes, code);
      if latest[0].schemeCode in codes {
        assert (QuotedFor(latest, codes))[1..] == QuotedFor(latest[1..], codes);
      }
    }
  }

  /** A held code is priced the same from the queried records as from the whole collection. */
  lemma QuotedPricesAgree(latest: seq<LatestNav>, codes: seq<int>, h: Holding)
    requires h.schemeCode in codes
    ensures CurrentNav(QuotedFor(latest, codes), h.schemeCode) == CurrentNav(latest, h.schemeCode)
  {
    NavRecordOfQuoted(latest, codes, h.schemeCode);
  }

  /** Every held holding is priced the same from the queried records as from the whole collection. */
  lemma HeldPricesAgree(latest: seq<LatestNav>, hs: seq<Holding>)
    ensures forall k :: 0 <= k < |hs| ==>
              CurrentNav(QuotedFor(latest, CodesOf(hs)), hs[k].schemeCode) == CurrentNav(latest, hs[k].schemeCode)
  {
    var codes := CodesOf(hs);
    forall k | 0 <= k < |hs|
      ensures CurrentNav(QuotedFor(latest, codes), hs[k].schemeCode) == CurrentNav(latest, hs[k].schemeCode)
    {
      assert codes[k] == hs[k].schemeCode;
      QuotedPricesAgree(latest, codes, hs[k]);
    }
  }

  /** Under the collection's unique index, the map lookup is the record `findOne` returns. */
  lemma {:induction false} NavRecordIsFindLatest(latest: seq<LatestNav>, code: int)
    requires UniqueLatest(latest)
    ensures NavRecord(latest, code) == FindLatest(latest, code)
    decreases |latest|
  {
    if |latest| > 0 {
      assert UniqueLatest(latest[1..]);
      NavRecordIsFindLatest(latest[1..], code);
      if latest[0].schemeCode == code {
        assert forall n :: n in latest[1..] ==> n.schemeCode != code;
      }
    }
  }

  /** `latest ? latest.nav : null`. */
  function CurrentNav(latest: seq<LatestNav>, code: int): (r: Option<real>)
    ensures r.None? <==> forall n :: n in latest ==> n.schemeCode != code
  {
    var rec := NavRecord(latest, code);
    if rec.Some? then Some(rec.value.nav) else None
  }

  /** `currentNav ? units * currentNav : 0`: no price, or a zero price, values the holding at 0. */
  function HoldingValue(latest: seq<LatestNav>, h: Holding): real
  {
    var nav := CurrentNav(latest, h.schemeCode);
    if nav.Some? && nav.value != 0.0 then h.units * nav.value else 0.0
  }

  // ---------------------------------------------------------------- valuation

  /** The sum of the amounts invested in `hs`. */
  function TotalInvested(hs: seq<Holding>): real
    decreases |hs|
  {
    if |hs| == 0 then 0.0 else TotalInvested(hs[..|hs| - 1]) + hs[|hs| - 1].investedAmount
  }

  /** The sum of the holdings' current values. */
  function TotalValue(latest: seq<LatestNav>, hs: seq<Holding>): real
    decreases |hs|
  {
    if |hs| == 0 then 0.0 else TotalValue(latest, hs[..|hs| - 1]) + HoldingValue(latest, hs[|hs| - 1])
  }

  /** Extending a prefix by one holding adds that holding's amount and value. */
  lemma TotalsStep(latest: seq<LatestNav>, hs: seq<Holding>, i: nat)
    requires i < |hs|
    ensures TotalInvested(hs[..i + 1]) == TotalInvested(hs[..i]) + hs[i].investedAmount
    ensures TotalValue(latest, hs[..i + 1]) == TotalValue(latest, hs[..i]) + HoldingValue(latest, hs[i])
  {
    assert hs[..i + 1][..i] == hs[..i];
  }

  /** One entry of the valuation's `holdings` list. */
  datatype ValuedHolding = ValuedHolding(
    schemeCode: int,
    units: real,
    purchaseNav: real,
    investedAmount: real,
    currentNav: Option<real>,
    currentValue: real,
    profitLoss: real)

  /** The `portfolioValue` answer; `toFixed(2)` rounding is not modelled. */
  datatype Valuation = Valuation(
    totalInvestment: real,
    currentValue: real,
    profitLoss: real,
    profitLossPercent: real,
    asOn: Option<string>,
    holdings: seq<ValuedHolding>)

  /** `profitLoss / totalInvestment × 100`, or 0 when nothing was invested. */
  function Percent(profitLoss: real, invested: real): real
  {
    if invested != 0.0 then profitLoss / invested * 100.0 else 0.0
  }

  /** A valuation entry reports its holding's own figures and its current value. */
  predicate Describes(v: ValuedHolding, latest: seq<LatestNav>, h: Holding)
  {
    && v.schemeCode == h.schemeCode && v.units == h.units
    && v.purchaseNav == h.purchaseNav && v.investedAmount == h.investedAmount
    && v.currentNav == CurrentNav(latest, h.schemeCode)
    && v.currentValue == HoldingValue(latest, h)
    && v.profitLoss == v.currentValue - h.investedAmount
  }

  /** The valuation entry of one holding at current NAV `nav`. */
  function ValuedWith(h: Holding, nav: Option<real>): ValuedHolding
  {
    var value := if nav.Some? && nav.value != 0.0 then h.units * nav.value else 0.0;
    ValuedHolding(h.schemeCode, h.units, h.purchaseNav, h.investedAmount, nav, value, value - h.investedAmount)
  }

  /** `navs[0] ? navs[0].date : null` over the records of the held codes. */
  function AsOn(latest: seq<LatestNav>, codes: seq<int>): (r: Option<string>)
    ensures r.Some? ==> exists k :: (&& 0 <= k < |latest| && r.value == latest[k].date
                                     && latest[k].schemeCode in codes
                                     && forall j :: 0 <= j < k ==> latest[j].schemeCode !in codes)
    ensures r.None? <==> forall k :: 0 <= k < |latest| ==> latest[k].schemeCode !in codes
  {
    var navs := QuotedFor(latest, codes);
    if |navs| > 0 then Some(navs[0].date) else None
  }

  /** Pricing a holding from records that agree with `latest` on its code describes it. */
  lemma ValuedDescribes(latest: seq<LatestNav>, navs: seq<LatestNav>, h: Holding)
    requires CurrentNav(navs, h.schemeCode) == CurrentNav(latest, h.schemeCode)
    ensures Describes(ValuedWith(h, CurrentNav(navs, h.schemeCode)), latest, h)
  {
  }

  /**
   * The loop of `portfolioValue`: running totals and one entry per holding, each holding
   * priced from `navs`, which price every holding as `latest` does.
   */
  method ValueHoldings(latest: seq<LatestNav>, navs: seq<LatestNav>, hs: seq<Holding>)
    returns (totalInvestment: real, currentValue: real, rows: seq<ValuedHolding>)
    requires forall k :: 0 <= k < |hs| ==> CurrentNav(navs, hs[k].schemeCode) == CurrentNav(latest, hs[k].schemeCode)
    ensures totalInvestment == TotalInvested(hs)
    ensures currentValue == TotalValue(latest, hs)
    ensures |rows| == |hs|
    ensures forall k :: 0 <= k < |hs| ==> Describes(rows[k], latest, hs[k])
  {
    totalInvestment := 0.0;
    currentValue := 0.0;
    rows := [];
    for i := 0 to |hs|
      invariant totalInvestment == TotalInvested(hs[..i])
      invariant currentValue == TotalValue(latest, hs[..i])
      invariant |rows| == i
      invariant forall k :: 0 <= k < i ==> Describes(rows[k], latest, hs[k])
    {
      var p := hs[i];
      var row := ValuedWith(p, CurrentNav(navs, p.schemeCode));
      ValuedDescribes(latest, navs, p);
      TotalsStep(latest, hs, i);
      totalInvestment := totalInvestment + p.investedAmount;
      currentValue := currentValue + row.currentValue;
      rows := rows + [row];
      assert rows[i] == row;
    }
    assert hs[..|hs|] == hs;
  }

  /**
   * `portfolioValue`: totals over the user's holdings, valued at the latest NAVs; a
   * missing price contributes 0 instead of failing. `asOn` is the date of the first
   * matching latest record in collection order (see `AsOn`), not the newest date.
   */
  method PortfolioValue(db: Db, user: UserId) returns (v: Valuation)
    ensures v.totalInvestment == TotalInvested(Mine(db.holdings, user))
    ensures v.currentValue == TotalValue(db.latest, Mine(db.holdings, user))
    ensures v.profitLoss == v.currentValue - v.totalInvestment
    ensures v.profitLossPercent == Percent(v.profitLoss, v.totalInvestment)
    ensures |v.holdings| == |Mine(db.holdings, user)|
    ensures forall k :: 0 <= k < |v.holdings| ==> Describes(v.holdings[k], db.latest, Mine(db.holdings, user)[k])
    ensures v.asOn == AsOn(db.latest, CodesOf(Mine(db.holdings, user)))
    ensures |Mine(db.holdings, user)| == 0 ==> v == Valuation(0.0, 0.0, 0.0, 0.0, None, [])
  {
    var mine := Mine(db.holdings, user);
    if |mine| == 0 {
      assert AsOn(db.latest, CodesOf(mine)) == None;
      return Valuation(0.0, 0.0, 0.0, 0.0, None, []);
    }
    var codes := CodesOf(mine);
    var navs := QuotedFor(db.latest, codes);
    HeldPricesAgree(db.latest, mine);
    var totalInvestment, currentValue, rows := ValueHoldings(db.latest, navs, mine);
    var profitLoss := currentValue - totalInvestment;
    var asOn := if |navs| > 0 then Some(navs[0].date) else None;
    v := Valuation(totalInvestment, currentValue, profitLoss, Percent(profitLoss, totalInvestment), asOn, rows);
  }

  /**
   * Holdings of 10 units (1000 invested) and 5 units (500 invested), priced at 120 and
   * 90, are worth 1650: a profit of 150, or 10 percent.
   */
  lemma ValuationExample(user: UserId)
    ensures var h1 := Holding(user, 100, 10.0, "", 100.0, 1000.0);
            var h2 := Holding(user, 200, 5.0, "", 100.0, 500.0);
            var latest := [LatestNav(100, 120.0, "01-01-2025"), LatestNav(200, 90.0, "01-01-2025")];
            && TotalInvested([h1, h2]) == 1500.0
            && TotalValue(latest, [h1, h2]) == 1650.0
            && TotalValue(latest, [h1, h2]) - TotalInvested([h1, h2]) == 150.0
            && Percent(150.0, 1500.0) == 10.0
  {
    var h1 := Holding(user, 100, 10.0, "", 100.0, 1000.0);
    var h2 := Holding(user, 200, 5.0, "", 100.0, 500.0);
    var latest := [LatestNav(100, 120.0, "01-01-2025"), LatestNav(200, 90.0, "01-01-2025")];
    assert [h1, h2][..1] == [h1];
    assert [h1][..0] == [];
    assert TotalInvested([h1]) == 1000.0;
    assert latest[1..][1..] == [];
    assert NavRecord(latest[1..], 100) == None;
    assert NavRecord(latest, 100) == Some(latest[0]);
    assert NavRecord(latest[1..], 200) == Some(latest[1]);
    assert NavRecord(latest, 200) == Some(latest[1]);
    assert HoldingValue(latest, h1) == 1200.0;
    assert HoldingValue(latest, h2) == 450.0;
    assert TotalValue(latest, [h1]) == 1200.0;
  }

  /** Holdings whose funds have no price are worth 0, so the loss is the whole investment. */
  lemma {:induction false} UnpricedHoldingsAreWorthZero(latest: seq<LatestNav>, hs: seq<Holding>)
    requires forall k :: 0 <= k < |hs| ==> forall n :: n in latest ==> n.schemeCode != hs[k].schemeCode
    ensures TotalValue(latest, hs) == 0.0
    ensures TotalValue(latest, hs) - TotalInvested(hs) == -TotalInvested(hs)
    decreases |hs|
  {
    if |hs| > 0 {
      UnpricedHoldingsAreWorthZero(latest, hs[..|hs| - 1]);
      assert CurrentNav(latest, hs[|hs| - 1].schemeCode).None?;
    }
  }

  // ---------------------------------------------------------------- listing

  /** One entry of `listPortfolio`; `currentValue` is null when there is no non-zero price. */
  datatype ListedHolding = ListedHolding(
    schemeCode: int,
    units: real,
    purchaseDate: string,
    currentNav: Option<real>,
    currentValue: Option<real>)

  /** One holding as the listing shows it, at current NAV `nav`. */
  function ListedWith(h: Holding, nav: Option<real>): (r: ListedHolding)
    ensures r.schemeCode == h.schemeCode && r.units == h.units && r.purchaseDate == h.purchaseDate
    ensures r.currentNav == nav
    ensures r.currentValue.Some? <==> nav.Some? && nav.value != 0.0
    ensures r.currentValue.Some? ==> r.currentValue.value == h.units * nav.value
  {
    ListedHolding(h.schemeCode, h.units, h.purchaseDate, nav,
                  if nav.Some? && nav.value != 0.0 then Some(h.units * nav.value) else None)
  }

  /** `listPortfolio`: each of the user's holdings, in order, with its current NAV and value. */
  function ListPortfolio(db: Db, user: UserId): (r: seq<ListedHolding>)
    ensures |r| == |Mine(db.holdings, user)|
    ensures forall k :: 0 <= k < |r| ==>
              r[k] == ListedWith(Mine(db.holdings, user)[k], CurrentNav(db.latest, Mine(db.holdings, user)[k].schemeCode))
  {
    var mine := Mine(db.holdings, user);
    var navs := QuotedFor(db.latest, CodesOf(mine));
    HeldPricesAgree(db.latest, mine);
    seq(|mine|, k requires 0 <= k < |mine| => ListedWith(mine[k], CurrentNav(navs, mine[k].schemeCode)))
  }

  /** A listed holding's value, with null read as 0, is what the valuation counts for it. */
  lemma ListedValueIsHoldingValue(latest: seq<LatestNav>, h: Holding)
    ensures var l := ListedWith(h, CurrentNav(latest, h.schemeCode));
            (if l.currentValue.Some? then l.currentValue.value else 0.0) == HoldingValue(latest, h)
  {
  }

  /** The listing and the valuation agree on every holding's worth (a null value counts as 0). */
  lemma ListingAgreesWithValuation(db: Db, user: UserId)
    ensures var r := ListPortfolio(db, user);
            var mine := Mine(db.holdings, user);
            forall k :: 0 <= k < |r| ==>
              (if r[k].currentValue.Some? then r[k].currentValue.value else 0.0) == HoldingValue(db.latest, mine[k])
  {
    var r := ListPortfolio(db, user);
    var mine := Mine(db.holdings, user);
    forall k | 0 <= k < |r|
      ensures (if r[k].currentValue.Some? then r[k].currentValue.value else 0.0) == HoldingValue(db.latest, mine[k])
    {
      ListedValueIsHoldingValue(db.latest, mine[k]);
    }
  }

  // ---------------------------------------------------------------- value history

  /** One point of the series: a date and the user's value on it; `toFixed(2)` is not modelled. */
  datatype DatePoint = DatePoint(date: string, totalValue: real)

  const HistoryRowLimit: nat := 1000
  const SeriesLength: nat := 30

  /** History rows of the given funds, in creation order. */
  function HeldRows(history: seq<HistRow>, codes: seq<int>): (r: seq<HistRow>)
    ensures |r| <= |history|
    ensures forall x :: x in r <==> x in history && x.schemeCode in codes
    ensures |codes| == 0 ==> r == []
    decreases |history|
  {
    if |history| == 0 then []
    else
      var rest := HeldRows(history[..|history| - 1], codes);
      var row := history[|history| - 1];
      assert forall x :: x in history <==> x in history[..|history| - 1] || x == row;
      if row.schemeCode in codes then rest + [row] else rest
  }

  /** The rows of two stretches of the history, one after the other: creation order is kept. */
  lemma {:induction false} HeldRowsSplit(a: seq<HistRow>, b: seq<HistRow>, codes: seq<int>)
    ensures HeldRows(a + b, codes) == HeldRows(a, codes) + HeldRows(b, codes)
    decreases |b|
  {
    if |b| == 0 {
      assert a + b == a;
    } else {
      var b' := b[..|b| - 1];
      assert (a + b)[..|a + b| - 1] == a + b';
      assert (a + b)[|a + b| - 1] == b[|b| - 1];
      HeldRowsSplit(a, b', codes);
    }
  }

  /** `portfolios.filter(p => p.schemeCode === code).reduce((s, x) => s + x.units, 0)`. */
  function UnitsHeld(mine: seq<Holding>, code: int): real
    decreases |mine|
  {
    if |mine| == 0 then 0.0
    else
      var h := mine[|mine| - 1];
      UnitsHeld(mine[..|mine| - 1], code) + (if h.schemeCode == code then h.units else 0.0)
  }

  /** What one history row adds to its date: the units held in its fund times its NAV. */
  function RowWorth(mine: seq<Holding>, row: HistRow): real
  {
    UnitsHeld(mine, row.schemeCode) * row.nav
  }

  /** The value of date `d`: the worth of every row dated `d`, summed. */
  function DateTotal(rows: seq<HistRow>, mine: seq<Holding>, d: string): real
    decreases |rows|
  {
    if |rows| == 0 then 0.0
    else
      var row := rows[|rows| - 1];
      DateTotal(rows[..|rows| - 1], mine, d) + (if row.date == d then RowWorth(mine, row) else 0.0)
  }

  function DatesOf(rows: seq<HistRow>): (r: seq<string>)
    ensures |r| == |rows|
    ensures forall i :: 0 <= i < |rows| ==> r[i] == rows[i].date
  {
    seq(|rows|, i requires 0 <= i < |rows| => rows[i].date)
  }

  /** The series the rows describe: each date once, in order of first appearance, with its total. */
  function Series(rows: seq<HistRow>, mine: seq<Holding>): (r: seq<DatePoint>)
    ensures |r| == |Dedup(DatesOf(rows))|
    ensures forall i :: 0 <= i < |r| ==> r[i] == DatePoint(Dedup(DatesOf(rows))[i], DateTotal(rows, mine, Dedup(DatesOf(rows))[i]))
  {
    var dates := Dedup(DatesOf(rows));
    seq(|dates|, i requires 0 <= i < |dates| => DatePoint(dates[i], DateTotal(rows, mine, dates[i])))
  }

  /** Each date of the series appears once, and carries the summed worth of that date's rows. */
  lemma SeriesDatesDistinct(rows: seq<HistRow>, mine: seq<Holding>)
    ensures var r := Series(rows, mine);
            && (forall i, j :: 0 <= i < j < |r| ==> r[i].date != r[j].date)
            && (forall i :: 0 <= i < |r| ==> r[i].totalValue == DateTotal(rows, mine, r[i].date))
  {
    var r := Series(rows, mine);
    var dates := Dedup(DatesOf(rows));
    assert forall i :: 0 <= i < |r| ==> r[i].date == dates[i];
  }

  /** The series has a point for every date some row carries, and for no other date. */
  lemma SeriesCoversDates(rows: seq<HistRow>, mine: seq<Holding>)
    ensures var r := Series(rows, mine);
            && (forall k :: 0 <= k < |rows| ==> exists i :: 0 <= i < |r| && r[i].date == rows[k].date)
            && (forall i :: 0 <= i < |r| ==> exists k :: 0 <= k < |rows| && rows[k].date == r[i].date)
  {
    var r := Series(rows, mine);
    var all := DatesOf(rows);
    var dates := Dedup(all);
    forall k | 0 <= k < |rows|
      ensures exists i :: 0 <= i < |r| && r[i].date == rows[k].date
    {
      assert all[k] in dates;
      var i :| 0 <= i < |dates| && dates[i] == all[k];
      assert r[i].date == dates[i];
    }
    forall i | 0 <= i < |r|
      ensures exists k :: 0 <= k < |rows| && rows[k].date == r[i].date
    {
      assert dates[i] in all;
      var k :| 0 <= k < |all| && all[k] == dates[i];
      assert rows[k].date == all[k];
    }
  }

  /** The series lists its dates in the order the rows first show them: `Object.keys` insertion order. */
  lemma SeriesFirstSeenOrder(rows: seq<HistRow>, mine: seq<Holding>)
    ensures var r := Series(rows, mine);
            forall i, j :: 0 <= i < j < |r| ==>
              && r[i].date in DatesOf(rows) && r[j].date in DatesOf(rows)
              && FirstIndex(DatesOf(rows), r[i].date) < FirstIndex(DatesOf(rows), r[j].date)
  {
    var r := Series(rows, mine);
    var all := DatesOf(rows);
    var dates := Dedup(all);
    DedupFirstSeenOrder(all);
    forall i, j | 0 <= i < j < |r|
      ensures r[i].date in all && r[j].date in all
      ensures FirstIndex(all, r[i].date) < FirstIndex(all, r[j].date)
    {
      assert r[i].date == dates[i] && r[j].date == dates[j];
      assert dates[i] in all && dates[j] in all;
    }
  }

  /** A date no row carries has total 0. */
  lemma {:induction false} DateTotalOfAbsentDate(rows: seq<HistRow>, mine: seq<Holding>, d: string)
    requires d !in Dedup(DatesOf(rows))
    ensures DateTotal(rows, mine, d) == 0.0
    decreases |rows|
  {
    if |rows| > 0 {
      var front := rows[..|rows| - 1];
      assert DatesOf(rows)[|rows| - 1] == rows[|rows| - 1].date;
      assert DatesOf(front) == DatesOf(rows)[..|rows| - 1];
      assert d !in DatesOf(rows);
      assert d !in Dedup(DatesOf(front));
      DateTotalOfAbsentDate(front, mine, d);
    }
  }

  /**
   * The `dateMap` loop: a date's entry is created at its first row and every row adds
   * its worth; `Object.keys` then lists the dates in the order they were created.
   */
  method AccumulateDates(rows: seq<HistRow>, mine: seq<Holding>) returns (keys: seq<string>, totals: map<string, real>)
    ensures keys == Dedup(DatesOf(rows))
    ensures forall d :: d in totals <==> d in keys
    ensures forall d :: d in keys ==> totals[d] == DateTotal(rows, mine, d)
  {
    keys := [];
    totals := map[];
    for i := 0 to |rows|
      invariant keys == Dedup(DatesOf(rows[..i]))
      invariant forall d :: d in totals <==> d in keys
      invariant forall d :: d in keys ==> totals[d] == DateTotal(rows[..i], mine, d)
    {
      var row := rows[i];
      assert rows[..i + 1][..i] == rows[..i];
      assert DatesOf(rows[..i + 1])[..i] == DatesOf(rows[..i]);
      if row.date !in totals {
        DateTotalOfAbsentDate(rows[..i], mine, row.date);
        keys := keys + [row.date];
        totals := totals[row.date := 0.0];
      }
      totals := totals[row.date := totals[row.date] + RowWorth(mine, row)];
      forall d | d in keys
        ensures totals[d] == DateTotal(rows[..i + 1], mine, d)
      {
        assert DateTotal(rows[..i + 1], mine, d)
            == DateTotal(rows[..i], mine, d) + (if row.date == d then RowWorth(mine, row) else 0.0);
      }
    }
    assert rows[..|rows|] == rows;
  }

  /** The rows `portfolioHistory` reads: sorted by creation, `limit(1000)`, so the oldest rows. */
  function OldestRows(db: Db, mine: seq<Holding>): (r: seq<HistRow>)
    ensures r == Take(HeldRows(db.history, CodesOf(mine)), HistoryRowLimit)
  {
    Take(HeldRows(db.history, CodesOf(mine)), HistoryRowLimit)
  }

  /**
   * `portfolioHistory`, as written: the per-date totals of the user's oldest 1000 history
   * rows, of which the last 30 dates are kept; no holdings gives no points.
   */
  method PortfolioHistory(db: Db, user: UserId) returns (points: seq<DatePoint>)
    ensures points == TakeLast(Series(OldestRows(db, Mine(db.holdings, user)), Mine(db.holdings, user)), SeriesLength)
    ensures |Mine(db.holdings, user)| == 0 ==> points == []
    ensures |points| <= SeriesLength
  {
    var mine := Mine(db.holdings, user);
    if |mine| == 0 {
      assert DatesOf([]) == [];
      return [];
    }
    var rows := OldestRows(db, mine);
    var keys, totals := AccumulateDates(rows, mine);
    var all := seq(|keys|, i requires 0 <= i < |keys| => DatePoint(keys[i], totals[keys[i]]));
    assert all == Series(rows, mine);
    points := TakeLast(all, SeriesLength);
  }

  /** Rows of two funds on one date add up: units held in each fund times that fund's NAV. */
  lemma TwoFundsOnOneDate(mine: seq<Holding>, c1: int, n1: real, c2: int, n2: real, d: string)
    ensures DateTotal([HistRow(c1, n1, d), HistRow(c2, n2, d)], mine, d)
         == UnitsHeld(mine, c1) * n1 + UnitsHeld(mine, c2) * n2
  {
    var rows := [HistRow(c1, n1, d), HistRow(c2, n2, d)];
    var w1 := RowWorth(mine, rows[0]);
    var w2 := RowWorth(mine, rows[1]);
    assert rows[..1] == [HistRow(c1, n1, d)];
    assert rows[..1][..0] == [];
    assert DateTotal(rows[..1], mine, d) == w1;
    assert DateTotal(rows, mine, d) == w1 + w2;
    assert w1 == UnitsHeld(mine, c1) * n1 && w2 == UnitsHeld(mine, c2) * n2;
  }

  /**
   * Why history must keep one row per fund and date: a duplicated row is counted twice.
   * The reconcilers keep `UniqueHistory`, so the series never sees such a pair from them.
   */
  lemma DuplicateRowCountsTwice(mine: seq<Holding>, row: HistRow)
    ensures !UniqueHistory([row, row])
    ensures DateTotal([row, row], mine, row.date) == 2.0 * RowWorth(mine, row)
  {
    assert SameDay([row, row][0], [row, row][1]);
    assert [row, row][..1] == [row];
    assert [row][..0] == [];
    assert DateTotal([row], mine, row.date) == RowWorth(mine, row);
    assert DateTotal([row, row], mine, row.date) == DateTotal([row], mine, row.date) + RowWorth(mine, row);
  }

  /**
   * As written, the series is built from the OLDEST 1000 rows: once the user's funds have
   * more history than that, a date first seen in the newest row is never shown.
   */
  lemma OldestRowsHideNewestDate(db: Db, mine: seq<Holding>)
    requires |HeldRows(db.history, CodesOf(mine))| > HistoryRowLimit
    requires var held := HeldRows(db.history, CodesOf(mine));
             forall j :: 0 <= j < HistoryRowLimit ==> held[j].date != held[|held| - 1].date
    ensures var held := HeldRows(db.history, CodesOf(mine));
            forall p :: p in TakeLast(Series(OldestRows(db, mine), mine), SeriesLength) ==> p.date != held[|held| - 1].date
  {
    var held := HeldRows(db.history, CodesOf(mine));
    var series := Series(OldestRows(db, mine), mine);
    PrefixSeriesMissesDate(held, HistoryRowLimit, mine);
    forall p | p in TakeLast(series, SeriesLength)
      ensures p.date != held[|held| - 1].date
    {
      InTakeLast(series, SeriesLength, p);
    }
  }

  /** A series built from a prefix that never carries the last row's date never shows it. */
  lemma PrefixSeriesMissesDate(held: seq<HistRow>, n: nat, mine: seq<Holding>)
    requires |held| > n
    requires forall j :: 0 <= j < n ==> held[j].date != held[|held| - 1].date
    ensures forall p :: p in Series(Take(held, n), mine) ==> p.date != held[|held| - 1].date
  {
    var rows := Take(held, n);
    forall p | p in Series(rows, mine)
      ensures p.date != held[|held| - 1].date
    {
      var j := SeriesDateRow(rows, mine, p);
      assert rows[j] == held[j];
    }
  }

  lemma InTakeLast<T>(s: seq<T>, n: nat, x: T)
    ensures x in TakeLast(s, n) ==> x in s
  {
  }

  /** Every point of a series is dated by some row it was built from. */
  lemma SeriesDateRow(rows: seq<HistRow>, mine: seq<Holding>, p: DatePoint) returns (j: nat)
    requires p in Series(rows, mine)
    ensures j < |rows| && rows[j].date == p.date
  {
    var series := Series(rows, mine);
    var i :| 0 <= i < |series| && series[i] == p;
    assert p.date in Dedup(DatesOf(rows));
    j :| 0 <= j < |rows| && DatesOf(rows)[j] == p.date;
  }

  /** The rows the series should be built from: the NEWEST 1000 of the user's funds. */
  function RecentRows(db: Db, mine: seq<Holding>): (r: seq<HistRow>)
    ensures r == TakeLast(HeldRows(db.history, CodesOf(mine)), HistoryRowLimit)
  {
    TakeLast(HeldRows(db.history, CodesOf(mine)), HistoryRowLimit)
  }

  /** Dates first seen in the last row end the series built from those rows. */
  lemma {:induction false} NewDateEndsSeries(rows: seq<HistRow>, mine: seq<Holding>)
    requires |rows| > 0
    requires forall j :: 0 <= j < |rows| - 1 ==> rows[j].date != rows[|rows| - 1].date
    ensures var s := Series(rows, mine);
            |s| > 0 && s[|s| - 1].date == rows[|rows| - 1].date
  {
    var dates := DatesOf(rows);
    var front := DatesOf(rows[..|rows| - 1]);
    assert dates[..|rows| - 1] == front;
    assert rows[|rows| - 1].date !in front;
    assert rows[|rows| - 1].date !in Dedup(front);
    assert Dedup(dates) == Dedup(front) + [rows[|rows| - 1].date];
  }

  /** With the newest rows read, a date first recorded by the newest row ends the shown series. */
  lemma NewestDateShown(db: Db, mine: seq<Holding>)
    requires var held := HeldRows(db.history, CodesOf(mine));
             && |held| > 0
             && forall j :: 0 <= j < |held| - 1 ==> held[j].date != held[|held| - 1].date
    ensures var held := HeldRows(db.history, CodesOf(mine));
            var points := TakeLast(Series(RecentRows(db, mine), mine), SeriesLength);
            |points| > 0 && points[|points| - 1].date == held[|held| - 1].date
  {
    var held := HeldRows(db.history, CodesOf(mine));
    var rows := RecentRows(db, mine);
    assert rows[|rows| - 1] == held[|held| - 1];
    forall j | 0 <= j < |rows| - 1
      ensures rows[j].date != rows[|rows| - 1].date
    {
      assert rows[j] == held[|held| - |rows| + j];
    }
    NewDateEndsSeries(rows, mine);
  }

  /**
   * `portfolioHistory` corrected to read the newest 1000 rows; `NewestDateShown` is the
   * property the as-written version lacks.
   */
  method RecentPortfolioHistory(db: Db, user: UserId) returns (points: seq<DatePoint>)
    ensures points == TakeLast(Series(RecentRows(db, Mine(db.holdings, user)), Mine(db.holdings, user)), SeriesLength)
    ensures |Mine(db.holdings, user)| == 0 ==> points == []
    ensures |points| <= SeriesLength
  {
    var mine := Mine(db.holdings, user);
    if |mine| == 0 {
      assert DatesOf([]) == [];
      return [];
    }
    var rows := RecentRows(db, mine);
    var keys, totals := AccumulateDates(rows, mine);
    var all := seq(|keys|, i requires 0 <= i < |keys| => DatePoint(keys[i], totals[keys[i]]));
    assert all == Series(rows, mine);
    points := TakeLast(all, SeriesLength);
  }

  // ---------------------------------------------------------------- removing

  datatype RemoveReply = SchemeCodeRequired | RemoveFailed | Removed
  {
    function Status(): int
    {
      match this
      case SchemeCodeRequired => 400
      case RemoveFailed => 500
      case Removed => 200
    }
  }

  /** The holdings `deleteMany({ userId: user, schemeCode: code })` keeps, in order. */
  function Without(holdings: seq<Holding>, user: UserId, code: real): (r: seq<Holding>)
    ensures |r| <= |holdings|
    ensures forall h :: h in r <==> h in holdings && !(h.userId == user && h.schemeCode as real == code)
    decreases |holdings|
  {
    if |holdings| == 0 then []
    else
      var rest := Without(holdings[..|holdings| - 1], user, code);
      var h := holdings[|holdings| - 1];
      assert forall x :: x in holdings <==> x in holdings[..|holdings| - 1] || x == h;
      if h.userId == user && h.schemeCode as real == code then rest else rest + [h]
  }

  /**
   * `removeFromPortfolio(schemeCode)`: an empty path parameter is refused; text that is
   * not a number makes the store's cast fail; otherwise every holding of this user with
   * that code is deleted, whether or not there were any.
   */
  function RemoveFromPortfolio(db: Db, user: UserId, schemeCode: string): (s: Step<RemoveReply>)
    ensures s.reply == SchemeCodeRequired <==> schemeCode == ""
    ensures s.reply == RemoveFailed <==> schemeCode != "" && ToNumber(Str(schemeCode)).None?
    ensures s.reply != Removed ==> s.db == db
    ensures s.reply == Removed ==>
              forall h :: h in s.db.holdings <==>
                h in db.holdings && !(h.userId == user && h.schemeCode as real == ToNumber(Str(schemeCode)).value)
    ensures s.db.latest == db.latest && s.db.history == db.history && s.db.funds == db.funds && s.db.users == db.users
    ensures Wf(db) ==> Wf(s.db)
  {
    if schemeCode == "" then Step(db, SchemeCodeRequired)
    else
      var code := ToNumber(Str(schemeCode));
      if code.None? then Step(db, RemoveFailed)
      else
        var kept := Without(db.holdings, user, code.value);
        assert forall k :: 0 <= k < |kept| ==> kept[k] in db.holdings;
        Step(db.(holdings := kept), Removed)
  }

  /** Another user's portfolio is exactly what it was, order included. */
  lemma {:induction false} WithoutKeepsOtherUsers(holdings: seq<Holding>, user: UserId, code: real, other: UserId)
    requires other != user
    ensures Mine(Without(holdings, user, code), other) == Mine(holdings, other)
    decreases |holdings|
  {
    if |holdings| > 0 {
      var front := holdings[..|holdings| - 1];
      var h := holdings[|holdings| - 1];
      WithoutKeepsOtherUsers(front, user, code, other);
      var kept := Without(front, user, code);
      if !(h.userId == user && h.schemeCode as real == code) {
        assert (kept + [h])[..|kept + [h]| - 1] == kept;
      }
    }
  }

  /** The user's holdings of other schemes are exactly what they were, order included. */
  lemma {:induction false} WithoutKeepsOtherSchemes(holdings: seq<Holding>, user: UserId, code: real)
    ensures Mine(Without(holdings, user, code), user)
         == Without(Mine(holdings, user), user, code)
    decreases |holdings|
  {
    if |holdings| > 0 {
      var front := holdings[..|holdings| - 1];
      var h := holdings[|holdings| - 1];
      WithoutKeepsOtherSchemes(front, user, code);
      var kept := Without(front, user, code);
      var mine := Mine(front, user);
      if !(h.userId == user && h.schemeCode as real == code) {
        assert (kept + [h])[..|kept + [h]| - 1] == kept;
      }
      if h.userId == user {
        assert (mine + [h])[..|mine + [h]| - 1] == mine;
      }
    }
  }

  /** Removing twice removes nothing more. */
  lemma {:induction false} WithoutIdempotent(holdings: seq<Holding>, user: UserId, code: real)
    ensures Without(Without(holdings, user, code), user, code) == Without(holdings, user, code)
    decreases |holdings|
  {
    if |holdings| > 0 {
      var front := holdings[..|holdings| - 1];
      var h := holdings[|holdings| - 1];
      WithoutIdempotent(front, user, code);
      var kept := Without(front, user, code);
      if !(h.userId == user && h.schemeCode as real == code) {
        assert (kept + [h])[..|kept + [h]| - 1] == kept;
      }
    }
  }

  // ---------------------------------------------------------------- adding

  /** The body of an add request, as received. */
  datatype AddRequest = AddRequest(schemeCode: Json, units: Json, purchaseDate: Json)

  datatype AddReply = InvalidInput | NavUnavailable | Added(holding: Holding) | AddFailed
  {
    function Status(): int
    {
      match this
      case InvalidInput => 400
      case NavUnavailable => 400
      case Added(_) => 201
      case AddFailed => 500
    }
  }

  /** `!schemeCode || !units || Number(units) <= 0` rejects; a NaN count is not `<= 0`. */
  predicate ValidAddInput(req: AddRequest)
  {
    && Truthy(req.schemeCode) && Truthy(req.units)
    && !(ToNumber(req.units).Some? && ToNumber(req.units).value <= 0.0)
  }

  /** `Number(schemeCode)` as the store accepts it for a scheme code; anything else fails its cast. */
  function SchemeCodeNumber(v: Json): (r: Option<int>)
    ensures r.Some? ==> ToNumber(v) == Some(r.value as real)
    ensures ToNumber(v).Some? && ToNumber(v).value == ToNumber(v).value.Floor as real ==>
              r == Some(ToNumber(v).value.Floor)
  {
    var n := ToNumber(v);
    if n.Some? && n.value == n.value.Floor as real then Some(n.value.Floor) else None
  }

  /** How the driver writes one metadata value: undefined values are left out of the update. */
  datatype FieldWrite = LeaveOut | SetNull | SetText(text: string) | Unwritable

  function FieldWriteOf(v: Json): FieldWrite
  {
    match v
    case Undefined => LeaveOut
    case Null => SetNull
    case Str(t) => SetText(t)
    case _ => Unwritable
  }

  function Written(previous: Option<string>, w: FieldWrite): Option<string>
  {
    match w
    case LeaveOut => previous
    case SetNull => None
    case SetText(t) => Some(t)
    case Unwritable => previous
  }

  /** The four metadata values of an add request's upstream answer, in the handler's order. */
  function MetaWrites(body: Json): (w: seq<FieldWrite>)
    ensures |w| == 4
  {
    var meta := Get(body, "meta");
    [ FieldWriteOf(Or(Get(meta, "scheme_name"), Get(body, "schemeName"))),
      FieldWriteOf(Get(meta, "fund_house")),
      FieldWriteOf(Get(meta, "scheme_type")),
      FieldWriteOf(Get(meta, "scheme_category")) ]
  }

  /**
   * The fund-metadata upsert after a purchase: fields the answer carries replace the stored
   * ones, absent fields keep them; a value the store cannot cast fails the write, which is
   * swallowed.
   */
  function UpsertFundMeta(db: Db, code: int, body: Json): (r: Db)
    ensures r.latest == db.latest && r.history == db.history && r.holdings == db.holdings && r.users == db.users
    ensures forall c :: c != code ==> (c in r.funds <==> c in db.funds)
    ensures forall c :: c != code && c in db.funds ==> r.funds[c] == db.funds[c]
    ensures code in db.funds ==> code in r.funds
    ensures Unwritable in MetaWrites(body) ==> r == db
    ensures Unwritable !in MetaWrites(body) ==>
              var before := if code in db.funds then db.funds[code] else Fund(code, None, None, None, None);
              var w := MetaWrites(body);
              && code in r.funds
              && r.funds[code].schemeName == Written(before.schemeName, w[0])
              && r.funds[code].fundHouse == Written(before.fundHouse, w[1])
              && r.funds[code].schemeType == Written(before.schemeType, w[2])
              && r.funds[code].schemeCategory == Written(before.schemeCategory, w[3])
    ensures FundsKeyed(db.funds) ==> FundsKeyed(r.funds)
  {
    var w := MetaWrites(body);
    if Unwritable in w then db
    else
      var before := if code in db.funds then db.funds[code] else Fund(code, None, None, None, None);
      var after := Fund(code, Written(before.schemeName, w[0]), Written(before.fundHouse, w[1]),
                        Written(before.schemeType, w[2]), Written(before.schemeCategory, w[3]));
      db.(funds := db.funds[code := after])
  }

  /** The holding `Portfolio.create` stores: the amount invested is frozen at the purchase NAV. */
  function NewHolding(user: UserId, code: int, units: real, date: string, nav: real): (h: Holding)
    requires units > 0.0
    ensures ValidHolding(h)
    ensures h.userId == user && h.schemeCode == code && h.units == units
    ensures h.purchaseDate == date && h.purchaseNav == nav
  {
    Holding(user, code, units, date, nav, nav * units)
  }

  /** Appending a valid holding keeps the store well formed. */
  lemma AddHoldingKeepsWf(db: Db, h: Holding)
    ensures Wf(db) && ValidHolding(h) ==> Wf(db.(holdings := db.holdings + [h]))
  {
    var hs := db.holdings + [h];
    assert forall k :: 0 <= k < |db.holdings| ==> hs[k] == db.holdings[k];
  }

  /** `navResp.data && navResp.data.data && navResp.data.data[0]`: the answer has a first record. */
  predicate HasFirstRecord(body: Json)
  {
    Truthy(body) && Truthy(Get(body, "data")) && Truthy(First(Get(body, "data")))
  }

  /** `purchaseDate ? new Date(purchaseDate) : new Date()`; `None` is an invalid date. */
  function PurchaseDateOf(req: AddRequest, toDate: Json -> Option<string>, now: string): Option<string>
  {
    if Truthy(req.purchaseDate) then toDate(req.purchaseDate) else Some(now)
  }

  /**
   * The part of `addToPortfolio` after a first record was found in the upstream answer
   * `body`: the scheme code and NAV must convert, the snapshot is upserted, then the
   * holding is created and the scheme's metadata written.
   */
  function BuyAtQuote(db: Db, user: UserId, req: AddRequest, body: Json,
                      toDate: Json -> Option<string>, now: string): (s: Step<AddReply>)
    requires ValidAddInput(req)
    ensures s.reply.Added? || s.reply == AddFailed
    ensures s.reply.Added? <==>
              && SchemeCodeNumber(req.schemeCode).Some?
              && ToNumber(Get(First(Get(body, "data")), "nav")).Some?
              && ToNumber(req.units).Some?
              && PurchaseDateOf(req, toDate, now).Some?
    ensures s.reply.Added? ==>
              var h := s.reply.holding;
              var entry := First(Get(body, "data"));
              && h.userId == user && ValidHolding(h)
              && SchemeCodeNumber(req.schemeCode) == Some(h.schemeCode)
              && ToNumber(req.units) == Some(h.units)
              && ToNumber(Get(entry, "nav")) == Some(h.purchaseNav)
              && PurchaseDateOf(req, toDate, now) == Some(h.purchaseDate)
              && s.db.holdings == db.holdings + [h]
              && FindLatest(s.db.latest, h.schemeCode) == Some(LatestNav(h.schemeCode, h.purchaseNav, TextOf(Get(entry, "date"))))
              && s.db.funds == UpsertFundMeta(db, h.schemeCode, body).funds
    ensures !s.reply.Added? ==> s.db.holdings == db.holdings && s.db.funds == db.funds
    ensures s.db.history == db.history && s.db.users == db.users
    ensures Wf(db) ==> Wf(s.db)
  {
    var entry := First(Get(body, "data"));
    var code := SchemeCodeNumber(req.schemeCode);
    var purchaseNav := ToNumber(Get(entry, "nav"));
    if code.None? || purchaseNav.None? then Step(db, AddFailed)
    else
      UpsertKeepsUnique(db.latest, code.value, purchaseNav.value, TextOf(Get(entry, "date")));
      var snapshot := db.(latest := UpsertLatest(db.latest, code.value, purchaseNav.value, TextOf(Get(entry, "date"))));
      var units := ToNumber(req.units);
      var date := PurchaseDateOf(req, toDate, now);
      if units.None? || date.None? then Step(snapshot, AddFailed)
      else
        var h := NewHolding(user, code.value, units.value, date.value, purchaseNav.value);
        var bought := snapshot.(holdings := snapshot.holdings + [h]);
        AddHoldingKeepsWf(snapshot, h);
        Step(UpsertFundMeta(bought, code.value, body), Added(h))
  }

  /**
   * `addToPortfolio`: input checks come before any request; an upstream answer without
   * a first `data` record is a 400; the NAV snapshot is upserted before the holding is
   * created, so a holding the store refuses (a units value or purchase date that does
   * not convert) still leaves the snapshot behind. `toDate` is `new Date(...)`, `None`
   * for an invalid date; `now` is the current time.
   */
  function AddToPortfolio(db: Db, user: UserId, req: AddRequest, resp: HttpOutcome,
                          toDate: Json -> Option<string>, now: string): (s: Step<AddReply>)
    ensures s.reply == InvalidInput <==> !ValidAddInput(req)
    ensures !ValidAddInput(req) ==> s.db == db
    ensures ValidAddInput(req) && resp.Rejected? ==> s == Step(db, AddFailed)
    ensures s.reply == NavUnavailable <==> ValidAddInput(req) && resp.Answered? && !HasFirstRecord(resp.body)
    ensures s.reply == NavUnavailable ==> s.db == db
    ensures s.reply.Added? <==>
              && ValidAddInput(req) && resp.Answered? && HasFirstRecord(resp.body)
              && SchemeCodeNumber(req.schemeCode).Some?
              && ToNumber(Get(First(Get(resp.body, "data")), "nav")).Some?
              && ToNumber(req.units).Some?
              && PurchaseDateOf(req, toDate, now).Some?
    ensures s.reply.Added? ==>
              var h := s.reply.holding;
              var entry := First(Get(resp.body, "data"));
              && resp.Answered?
              && h.userId == user && ValidHolding(h)
              && SchemeCodeNumber(req.schemeCode) == Some(h.schemeCode)
              && ToNumber(req.units) == Some(h.units)
              && ToNumber(Get(entry, "nav")) == Some(h.purchaseNav)
              && PurchaseDateOf(req, toDate, now) == Some(h.purchaseDate)
              && s.db.holdings == db.holdings + [h]
              && FindLatest(s.db.latest, h.schemeCode) == Some(LatestNav(h.schemeCode, h.purchaseNav, TextOf(Get(entry, "date"))))
              && s.db.funds == UpsertFundMeta(db, h.schemeCode, resp.body).funds
    ensures !s.reply.Added? ==> s.db.holdings == db.holdings && s.db.funds == db.funds
    ensures s.db.history == db.history && s.db.users == db.users
    ensures Wf(db) ==> Wf(s.db)
  {
    if !ValidAddInput(req) then Step(db, InvalidInput)
    else match resp
      case Rejected(_) => Step(db, AddFailed)
      case Answered(body) =>
        if !HasFirstRecord(body) then Step(db, NavUnavailable)
        else BuyAtQuote(db, user, req, body, toDate, now)
  }

  /**
   * A units value that passes the input check but is not a number (`"ten"`) fails the
   * holding's creation after the NAV snapshot was written: the request is a 500 and the
   * snapshot stays.
   */
  lemma UnreadableUnitsKeepSnapshot(db: Db, user: UserId, req: AddRequest, body: Json,
                                    toDate: Json -> Option<string>, now: string)
    requires ValidAddInput(req) && ToNumber(req.units).None?
    requires Truthy(body) && Truthy(Get(body, "data")) && Truthy(First(Get(body, "data")))
    requires SchemeCodeNumber(req.schemeCode).Some? && ToNumber(Get(First(Get(body, "data")), "nav")).Some?
    ensures var s := AddToPortfolio(db, user, req, Answered(body), toDate, now);
            var entry := First(Get(body, "data"));
            && s.reply == AddFailed
            && FindLatest(s.db.latest, SchemeCodeNumber(req.schemeCode).value)
               == Some(LatestNav(SchemeCodeNumber(req.schemeCode).value, ToNumber(Get(entry, "nav")).value,
                                 TextOf(Get(entry, "date"))))
  {
  }
}

=== FILE: seqs.dfy ===
/** Sequence helpers: duplicate removal in first-seen order, and the first or last `n` elements. */
module Seqs {

  predicate NoDups<T(==)>(s: seq<T>)
  {
    forall i, j :: 0 <= i < j < |s| ==> s[i] != s[j]
  }

  /** Dropping the head of a duplicate-free sequence leaves one without the head. */
  lemma NoDupsTail<T>(s: seq<T>)
    requires |s| > 0 && NoDups(s)
    ensures NoDups(s[1..]) && s[0] !in s[1..]
  {
  }

  /** The distinct elements of `s`, each at the position where it is first seen. */
  function Dedup<T(==,!new)>(s: seq<T>): (r: seq<T>)
    ensures forall x :: x in r <==> x in s
    ensures NoDups(r)
    ensures |r| <= |s|
  {
    if |s| == 0 then []
    else
      var r := Dedup(s[..|s| - 1]);
      assert forall x :: x in s <==> x in s[..|s| - 1] || x == s[|s| - 1];
      if s[|s| - 1] in r then r else r + [s[|s| - 1]]
  }

  /** Where `x` first occurs in `s`: `s.indexOf(x)`. */
  function FirstIndex<T(==)>(s: seq<T>, x: T): (k: nat)
    requires x in s
    ensures k < |s| && s[k] == x && x !in s[..k]
  {
    if s[0] == x then 0
    else
      assert s == [s[0]] + s[1..];
      1 + FirstIndex(s[1..], x)
  }

  /** An occurrence with no earlier one is the first occurrence. */
  lemma FirstIndexIsUnique<T>(s: seq<T>, x: T, k: nat)
    requires k < |s| && s[k] == x && x !in s[..k]
    ensures FirstIndex(s, x) == k
  {
  }

  /**
   * Dedup lists the elements in the order of their first occurrences: an element before
   * another in the result was first seen before it.
   */
  lemma {:induction false} DedupFirstSeenOrder<T(!new)>(s: seq<T>)
    ensures forall i, j :: 0 <= i < j < |Dedup(s)| ==> FirstIndex(s, Dedup(s)[i]) < FirstIndex(s, Dedup(s)[j])
    decreases |s|
  {
    if |s| > 0 {
      var front := s[..|s| - 1];
      var last := s[|s| - 1];
      var r := Dedup(front);
      DedupFirstSeenOrder(front);
      forall x | x in front
        ensures FirstIndex(s, x) == FirstIndex(front, x) < |front|
      {
        var k := FirstIndex(front, x);
        assert s[..k] == front[..k];
        FirstIndexIsUnique(s, x, k);
      }
      if last !in r {
        assert last !in s[..|s| - 1];
        FirstIndexIsUnique(s, last, |s| - 1);
        var d := r + [last];
        assert Dedup(s) == d;
        forall i, j | 0 <= i < j < |d|
          ensures FirstIndex(s, d[i]) < FirstIndex(s, d[j])
        {
          assert d[i] == r[i] && d[i] in front;
          if j < |r| {
            assert d[j] == r[j] && d[j] in front;
          }
        }
      }
    }
  }

  /** A prefix of a prefix is a prefix. */
  lemma PrefixTrans<T>(a: seq<T>, b: seq<T>, c: seq<T>)
    requires |a| <= |b| <= |c| && b[..|a|] == a && c[..|b|] == b
    ensures c[..|a|] == a
  {
    assert c[..|a|] == c[..|b|][..|a|];
  }

  /** `s.slice(0, n)` and a query's `.limit(n)`. */
  function Take<T>(s: seq<T>, n: nat): (r: seq<T>)
    ensures |r| == if |s| <= n then |s| else n
    ensures r == s[..|r|]
  {
    if |s| <= n then s else s[..n]
  }

  /** `s.slice(-n)` for positive `n`: the last `n` elements, all of them when there are fewer. */
  function TakeLast<T>(s: seq<T>, n: nat): (r: seq<T>)
    ensures |r| == if |s| <= n then |s| else n
    ensures r == s[|s| - |r|..]
  {
    if |s| <= n then s else s[|s| - n..]
  }
}

=== FILE: serverjob.dfy ===
/**
 * The second, independent NAV job in server.js (`fetchLatestNAV`, `updateNavInDb`,
 * `runNavUpdateJob`). Unlike the NAV service it makes a single request per code, accepts
 * only a payload whose `data` is a non-empty array, converts the nav with `Number(...)`,
 * and never touches fund metadata. The request is an input: `fetch(code)` is the answer.
 */
module ServerJob {
  import opened Wrappers
  import opened Text
  import opened Js
  import opened Seqs
  import opened Store
  import opened NavFetch

  /** What `fetchLatestNAV` returns; `nav` is `None` when `Number(d.nav)` is NaN. */
  datatype ServerQuote = ServerQuote(schemeCode: int, nav: Option<real>, date: string)

  /** One iteration of the job, as its log line reports it. */
  datatype JobLog =
    | Refreshed(schemeCode: int, nav: real, date: string)
    | Skipped(schemeCode: int, error: string)

  const NoData := "No data"

  /** The store refuses a NaN nav before writing anything (the text is the driver's, and only logged). */
  const NavCastFailure := "Cast to Number failed for value \"NaN\" (type number) at path \"nav\""

  const MessagePrefix := "Failed to fetch latest NAV for "

  /** The TypeError `d.nav` raises when `data[0]` is null or undefined. */
  function ReadNavError(d: Json): string
  {
    if d.Null? then "Cannot read properties of null (reading 'nav')"
    else "Cannot read properties of undefined (reading 'nav')"
  }

  /** The wrapped error every failure of `fetchLatestNAV` throws; it always names the code. */
  function FailureMessage(code: int, inner: string): (m: string)
    ensures Contains(m, IntText(code))
    ensures |m| > |MessagePrefix| && m[..|MessagePrefix|] == MessagePrefix
  {
    var m := MessagePrefix + IntText(code) + ": " + inner;
    assert OccursAt(m, IntText(code), |MessagePrefix|) by {
      assert m[|MessagePrefix|..|MessagePrefix| + |IntText(code)|] == IntText(code);
    }
    m
  }

  /** `resp.data && resp.data.data && resp.data.data.length`. */
  predicate HasDataArray(body: Json)
  {
    Truthy(body) && Truthy(Get(body, "data")) && Truthy(Get(Get(body, "data"), "length"))
  }

  /** `fetchLatestNAV(code)`: one request, the first element of `data`, no retry. */
  function FetchLatestNavOnce(code: int, o: HttpOutcome): (r: Result<ServerQuote>)
    ensures r.Err? ==> Contains(r.error, IntText(code))
    ensures o.Rejected? ==> r == Err(FailureMessage(code, o.message))
    ensures o.Answered? && !HasDataArray(o.body) ==> r == Err(FailureMessage(code, NoData))
    ensures r.Ok? <==> (&& o.Answered? && HasDataArray(o.body)
                        && !First(Get(o.body, "data")).Undefined? && !First(Get(o.body, "data")).Null?)
    ensures r.Ok? ==> (&& r.value.schemeCode == code
                       && r.value.nav == ToNumber(Get(First(Get(o.body, "data")), "nav"))
                       && r.value.date == TextOf(Get(First(Get(o.body, "data")), "date")))
  {
    match o
    case Rejected(m) => Err(FailureMessage(code, m))
    case Answered(body) =>
      if !HasDataArray(body) then Err(FailureMessage(code, NoData))
      else
        var d := First(Get(body, "data"));
        if d.Undefined? || d.Null? then Err(FailureMessage(code, ReadNavError(d)))
        else Ok(ServerQuote(code, ToNumber(Get(d, "nav")), TextOf(Get(d, "date"))))
  }

  /**
   * `updateNavInDb(quote)`: a NaN nav is refused before any write; otherwise the latest
   * record is overwritten unconditionally, then a history row is added for a new date,
   * and that `create` throws the validation error on an empty date. The reply is the
   * error thrown, if any.
   */
  function UpdateNavInDb(db: Db, q: ServerQuote): (s: Step<Option<string>>)
    ensures s.reply.None? <==> q.nav.Some? && HistoryAccepts(db.history, q.schemeCode, q.date)
    ensures q.nav.None? ==> s == Step(db, Some(NavCastFailure))
    ensures q.nav.Some? ==> (&& FindLatest(s.db.latest, q.schemeCode) == Some(LatestNav(q.schemeCode, q.nav.value, q.date))
                             && (forall c :: c != q.schemeCode ==> FindLatest(s.db.latest, c) == FindLatest(db.latest, c)))
    ensures q.nav.Some? && !HistoryAccepts(db.history, q.schemeCode, q.date) ==>
              s.reply == Some(DateRequired) && s.db.history == db.history
    ensures s.reply.None? ==> (&& HasRow(s.db.history, q.schemeCode, q.date)
                               && (|s.db.history| == |db.history| <==> HasRow(db.history, q.schemeCode, q.date)))
    ensures |db.history| <= |s.db.history| && s.db.history[..|db.history|] == db.history
    ensures s.db.funds == db.funds && s.db.holdings == db.holdings && s.db.users == db.users
    ensures Wf(db) ==> Wf(s.db)
    ensures DatedHistory(db.history) ==> DatedHistory(s.db.history)
  {
    match q.nav
    case None => Step(db, Some(NavCastFailure))
    case Some(nav) => RecordQuote(db, q.schemeCode, nav, q.date)
  }

  /**
   * What the job logs for `code` in a store whose history rows all carry a date: it
   * depends on that code's own answer only.
   */
  function ServerOutcome(fetch: int -> HttpOutcome, code: int): (r: JobLog)
    ensures r.schemeCode == code
    ensures r.Refreshed? ==> FetchLatestNavOnce(code, fetch(code)) == Ok(ServerQuote(code, Some(r.nav), r.date))
    ensures var once := FetchLatestNavOnce(code, fetch(code));
            r.Skipped? <==> once.Err? || once.value.nav.None? || once.value.date == ""
  {
    match FetchLatestNavOnce(code, fetch(code))
    case Err(m) => Skipped(code, m)
    case Ok(q) =>
      match q.nav
      case None => Skipped(code, NavCastFailure)
      case Some(nav) => if q.date == "" then Skipped(code, DateRequired) else Refreshed(code, nav, q.date)
  }

  /**
   * One iteration: fetch, write, and catch whatever either throws. A failed fetch or a
   * NaN nav writes nothing; an empty date is logged as an error after the latest record
   * was already overwritten.
   */
  function ServerReconcile(db: Db, code: int, fetch: int -> HttpOutcome): (s: Step<JobLog>)
    ensures ServerOutcome(fetch, code).Refreshed? || !HasRow(db.history, code, "") ==> s.reply == ServerOutcome(fetch, code)
    ensures s.reply.schemeCode == code
    ensures var once := FetchLatestNavOnce(code, fetch(code));
            once.Err? || once.value.nav.None? ==> s.db == db
    ensures var once := FetchLatestNavOnce(code, fetch(code));
            once.Ok? && once.value.nav.Some? ==>
              FindLatest(s.db.latest, code) == Some(LatestNav(code, once.value.nav.value, once.value.date))
    ensures s.reply.Refreshed? ==> (&& FindLatest(s.db.latest, code) == Some(LatestNav(code, s.reply.nav, s.reply.date))
                                    && HasRow(s.db.history, code, s.reply.date))
    ensures forall c :: c != code ==> FindLatest(s.db.latest, c) == FindLatest(db.latest, c)
    ensures |db.history| <= |s.db.history| && s.db.history[..|db.history|] == db.history
    ensures s.db.funds == db.funds && s.db.holdings == db.holdings && s.db.users == db.users
    ensures Wf(db) ==> Wf(s.db)
    ensures DatedHistory(db.history) ==> DatedHistory(s.db.history)
  {
    match FetchLatestNavOnce(code, fetch(code))
    case Err(m) => Step(db, Skipped(code, m))
    case Ok(q) =>
      var w := UpdateNavInDb(db, q);
      if w.reply.Some? then Step(w.db, Skipped(code, w.reply.value))
      else Step(w.db, Refreshed(code, q.nav.value, q.date))
  }

  /** A code's log entry put in front of the entries of the codes after it. */
  lemma ConsLogs(codes: seq<int>, fetch: int -> HttpOutcome, head: JobLog, tail: seq<JobLog>, dated: bool)
    requires |codes| > 0 && |tail| == |codes| - 1
    requires head.schemeCode == codes[0]
    requires ServerOutcome(fetch, codes[0]).Refreshed? || dated ==> head == ServerOutcome(fetch, codes[0])
    requires forall i :: 0 <= i < |tail| ==> tail[i].schemeCode == codes[1..][i]
    requires forall i :: 0 <= i < |tail| && ServerOutcome(fetch, codes[1..][i]).Refreshed? ==>
               tail[i] == ServerOutcome(fetch, codes[1..][i])
    requires dated ==> forall i :: 0 <= i < |tail| ==> tail[i] == ServerOutcome(fetch, codes[1..][i])
    ensures var logs := [head] + tail;
            && |logs| == |codes|
            && (forall i :: 0 <= i < |codes| ==> logs[i].schemeCode == codes[i])
            && (forall i :: 0 <= i < |codes| && ServerOutcome(fetch, codes[i]).Refreshed? ==>
                  logs[i] == ServerOutcome(fetch, codes[i]))
            && (dated ==> forall i :: 0 <= i < |codes| ==> logs[i] == ServerOutcome(fetch, codes[i]))
  {
    var logs := [head] + tail;
    forall i | 0 < i < |codes|
      ensures logs[i] == tail[i - 1] && codes[i] == codes[1..][i - 1]
    {
    }
  }

  /** The job's `for ... of` loop with its per-code `try`/`catch`. */
  function ServerRunCodes(db: Db, codes: seq<int>, fetch: int -> HttpOutcome): (s: Step<seq<JobLog>>)
    ensures |s.reply| == |codes|
    ensures forall i :: 0 <= i < |codes| ==> s.reply[i].schemeCode == codes[i]
    ensures forall i :: 0 <= i < |codes| && ServerOutcome(fetch, codes[i]).Refreshed? ==>
              s.reply[i] == ServerOutcome(fetch, codes[i])
    ensures DatedHistory(db.history) ==> forall i :: 0 <= i < |codes| ==> s.reply[i] == ServerOutcome(fetch, codes[i])
    ensures |db.history| <= |s.db.history| && s.db.history[..|db.history|] == db.history
    ensures s.db.funds == db.funds && s.db.holdings == db.holdings && s.db.users == db.users
    ensures Wf(db) ==> Wf(s.db)
    ensures DatedHistory(db.history) ==> DatedHistory(s.db.history)
    decreases |codes|
  {
    if |codes| == 0 then Step(db, [])
    else
      UndatedRowsAbsent(db.history, codes[0]);
      var first := ServerReconcile(db, codes[0], fetch);
      var rest := ServerRunCodes(first.db, codes[1..], fetch);
      assert rest.db.history[..|db.history|] == rest.db.history[..|first.db.history|][..|db.history|];
      ConsLogs(codes, fetch, first.reply, rest.reply, DatedHistory(db.history));
      Step(rest.db, [first.reply] + rest.reply)
  }

  /** The job rewrites the latest records of its own codes only. */
  lemma {:induction false} ServerRunCodesLatestFrame(db: Db, codes: seq<int>, fetch: int -> HttpOutcome, c: int)
    requires c !in codes
    ensures FindLatest(ServerRunCodes(db, codes, fetch).db.latest, c) == FindLatest(db.latest, c)
    decreases |codes|
  {
    if |codes| > 0 {
      var first := ServerReconcile(db, codes[0], fetch);
      assert c !in codes[1..];
      ServerRunCodesLatestFrame(first.db, codes[1..], fetch, c);
      assert ServerRunCodes(db, codes, fetch).db == ServerRunCodes(first.db, codes[1..], fetch).db;
    }
  }

  /** With distinct codes, a refreshed code's latest record after the job is its own quote. */
  lemma {:induction false} ServerLastWriteWins(db: Db, codes: seq<int>, fetch: int -> HttpOutcome, i: nat)
    requires NoDups(codes) && i < |codes|
    requires ServerOutcome(fetch, codes[i]).Refreshed?
    ensures var u := ServerOutcome(fetch, codes[i]);
            FindLatest(ServerRunCodes(db, codes, fetch).db.latest, codes[i]) == Some(LatestNav(codes[i], u.nav, u.date))
    decreases |codes|
  {
    var first := ServerReconcile(db, codes[0], fetch);
    assert ServerRunCodes(db, codes, fetch).db == ServerRunCodes(first.db, codes[1..], fetch).db;
    NoDupsTail(codes);
    if i == 0 {
      ServerRunCodesLatestFrame(first.db, codes[1..], fetch, codes[0]);
    } else {
      assert codes[1..][i - 1] == codes[i];
      ServerLastWriteWins(first.db, codes[1..], fetch, i - 1);
    }
  }

  function LoggedCodes(logs: seq<JobLog>): (r: seq<int>)
    ensures |r| == |logs|
    ensures forall i :: 0 <= i < |logs| ==> r[i] == logs[i].schemeCode
  {
    seq(|logs|, i requires 0 <= i < |logs| => logs[i].schemeCode)
  }

  /**
   * `runNavUpdateJob()`: with no referenced scheme the job returns before any write;
   * otherwise every distinct code is tried once and a failure never stops the next code.
   */
  function RunNavUpdateJob(db: Db, fetch: int -> HttpOutcome): (s: Step<seq<JobLog>>)
    ensures |db.holdings| == 0 ==> s == Step(db, [])
    ensures forall c :: c in LoggedCodes(s.reply) <==> c in CodesOf(db.holdings)
    ensures NoDups(LoggedCodes(s.reply))
    ensures forall i :: 0 <= i < |s.reply| && ServerOutcome(fetch, s.reply[i].schemeCode).Refreshed? ==>
              s.reply[i] == ServerOutcome(fetch, s.reply[i].schemeCode)
    ensures DatedHistory(db.history) ==>
              forall i :: 0 <= i < |s.reply| ==> s.reply[i] == ServerOutcome(fetch, s.reply[i].schemeCode)
    ensures |db.history| <= |s.db.history| && s.db.history[..|db.history|] == db.history
    ensures s.db.funds == db.funds && s.db.holdings == db.holdings && s.db.users == db.users
    ensures Wf(db) ==> Wf(s.db)
  {
    var codes := DistinctSchemeCodes(db.holdings);
    if |codes| == 0 then Step(db, [])
    else
      var s := ServerRunCodes(db, codes, fetch);
      assert LoggedCodes(s.reply) == codes;
      s
  }

  // ---------------------------------------------------------------- the two reconcilers compared

  /**
   * The record-per-day answer both jobs understand: `{ data: [ { nav, date, ... }, ... ] }`
   * with a decimal nav text is read the same way by both.
   */
  lemma DataArrayAgrees(code: int, n: nat, date: string, entry: Json, older: seq<Json>)
    requires entry.Obj? && Get(entry, "nav") == Str(NatText(n)) && Get(entry, "date") == Str(date)
    ensures var body := Obj(map["data" := Arr([entry] + older)]);
            && FetchLatestNavOnce(code, Answered(body)) == Ok(ServerQuote(code, Some(n as real), date))
            && ReadAttempt(Answered(body)) == Ok(Quote(n as real, date))
  {
    NumberOfNatText(n);
    OnceReadsFirstRecord(code, entry, older);
    ServiceReadsFirstRecord(entry, older);
  }

  /** This job reads the first element of a non-empty `data` array. */
  lemma OnceReadsFirstRecord(code: int, entry: Json, older: seq<Json>)
    requires entry.Obj?
    ensures FetchLatestNavOnce(code, Answered(Obj(map["data" := Arr([entry] + older)])))
         == Ok(ServerQuote(code, ToNumber(Get(entry, "nav")), TextOf(Get(entry, "date"))))
  {
    var body := Obj(map["data" := Arr([entry] + older)]);
    assert Get(body, "data") == Arr([entry] + older);
    assert HasDataArray(body);
  }

  /** The NAV service also reads the first element of a non-empty `data` array. */
  lemma ServiceReadsFirstRecord(entry: Json, older: seq<Json>)
    requires entry.Obj?
    ensures var nav := ParseFloat(Get(entry, "nav"));
            ReadAttempt(Answered(Obj(map["data" := Arr([entry] + older)])))
              == if nav.None? then Err(NotNumeric) else Ok(Quote(nav.value, TextOf(Get(entry, "date"))))
  {
    var body := Obj(map["data" := Arr([entry] + older)]);
    assert Get(body, "data") == Arr([entry] + older);
    assert ShapeOf(body) == DataArray;
    ReadEntry(body);
  }

  /** A single record under `data` is a quote to the NAV service but "No data" to this job. */
  lemma DirectRecordOnlyInService(code: int, n: nat, date: string, rec: Json)
    requires rec.Obj? && "data" !in rec.fields && "length" !in rec.fields
    requires Get(rec, "nav") == Str(NatText(n)) && Get(rec, "date") == Str(date)
    ensures var body := Obj(map["data" := rec]);
            && FetchLatestNavOnce(code, Answered(body)) == Err(FailureMessage(code, NoData))
            && ReadAttempt(Answered(body)) == Ok(Quote(n as real, date))
  {
    NumberOfNatText(n);
    OnceRejectsRecord(code, rec);
    ServiceReadsRecord(rec);
  }

  /** This job finds no `data` array in a single record. */
  lemma OnceRejectsRecord(code: int, rec: Json)
    requires rec.Obj? && "length" !in rec.fields
    ensures FetchLatestNavOnce(code, Answered(Obj(map["data" := rec]))) == Err(FailureMessage(code, NoData))
  {
    var body := Obj(map["data" := rec]);
    assert Get(body, "data") == rec;
    assert !HasDataArray(body);
  }

  /** The NAV service reads a single record with a truthy `nav` directly. */
  lemma ServiceReadsRecord(rec: Json)
    requires rec.Obj? && "data" !in rec.fields && Truthy(Get(rec, "nav"))
    ensures var nav := ParseFloat(Get(rec, "nav"));
            ReadAttempt(Answered(Obj(map["data" := rec])))
              == if nav.None? then Err(NotNumeric) else Ok(Quote(nav.value, TextOf(Get(rec, "date"))))
  {
    var body := Obj(map["data" := rec]);
    assert Get(body, "data") == rec;
    assert ShapeOf(body) == DirectRecord;
    ReadEntry(body);
  }

  /**
   * No retry: an upstream that fails once and then answers is recovered by the NAV
   * service's second attempt, while this job gives up on the code.
   */
  lemma TransientFailureOnlyRecoveredByService(code: int, upstream: nat -> HttpOutcome)
    requires upstream(1).Rejected? && ReadAttempt(upstream(2)).Ok?
    ensures FetchLatestNav(upstream).result == ReadAttempt(upstream(2))
    ensures FetchLatestNav(upstream).attempts == 2 && FetchLatestNav(upstream).delays == [Backoff(1)]
    ensures FetchLatestNavOnce(code, upstream(1)) == Err(FailureMessage(code, upstream(1).message))
  {
    var run := FetchLatestNav(upstream);
    assert ReadAttempt(upstream(1)).Err?;
  }
}

=== FILE: store.dfy ===
/**
 * The document store as immutable state: the latest-NAV collection, the NAV history,
 * the fund catalogue, the holdings and the users, plus the two writes every NAV
 * reconciliation performs (upsert the latest record, insert a first-seen history row).
 */
module Store {
  import opened Wrappers
  import opened Seqs

  type UserId = nat

  /** A user's position in one fund; `investedAmount` is frozen at purchase. */
  datatype Holding = Holding(
    userId: UserId,
    schemeCode: int,
    units: real,
    purchaseDate: string,
    purchaseNav: real,
    investedAmount: real)

  /** The most recently fetched NAV of a fund. */
  datatype LatestNav = LatestNav(schemeCode: int, nav: real, date: string)

  /** A NAV history row; `date` is the upstream `DD-MM-YYYY` text, compared only for equality. */
  datatype HistRow = HistRow(schemeCode: int, nav: real, date: string)

  /** Fund metadata; every field but the code may be absent. */
  datatype Fund = Fund(
    schemeCode: int,
    schemeName: Option<string>,
    fundHouse: Option<string>,
    schemeType: Option<string>,
    schemeCategory: Option<string>)

  datatype User = User(id: UserId, name: string, email: string, passwordHash: string, role: string)

  /**
   * The store. `latest` and `history` keep the collections' natural (insertion) order;
   * history insertion order is also its creation-time order.
   */
  datatype Db = Db(
    latest: seq<LatestNav>,
    history: seq<HistRow>,
    funds: map<int, Fund>,
    holdings: seq<Holding>,
    users: seq<User>)

  /** A request's effect: the store afterwards and what the caller is told. */
  datatype Step<+R> = Step(db: Db, reply: R)

  // ---------------------------------------------------------------- invariants

  /** At most one latest record per scheme code (the collection's unique index). */
  predicate UniqueLatest(latest: seq<LatestNav>)
  {
    forall i, j :: 0 <= i < j < |latest| ==> latest[i].schemeCode != latest[j].schemeCode
  }

  /** Two history rows record the same fund on the same date. */
  predicate SameDay(a: HistRow, b: HistRow)
  {
    a.schemeCode == b.schemeCode && a.date == b.date
  }

  /** At most one history row per (scheme code, date): the invariant the reconcilers keep. */
  predicate UniqueHistory(history: seq<HistRow>)
  {
    forall i, j :: 0 <= i < j < |history| ==> !SameDay(history[i], history[j])
  }

  predicate FundsKeyed(funds: map<int, Fund>)
  {
    forall c :: c in funds ==> funds[c].schemeCode == c
  }

  /** Holdings are created with positive units and `investedAmount = purchaseNav × units`. */
  predicate ValidHolding(h: Holding)
  {
    h.units > 0.0 && h.investedAmount == h.purchaseNav * h.units
  }

  /** Distinct users have distinct ids and distinct emails. */
  predicate DistinctUsers(users: seq<User>)
  {
    forall i, j :: 0 <= i < j < |users| ==> users[i].id != users[j].id && users[i].email != users[j].email
  }

  /**
   * Every stored history row has a date: the schema's `required` validator refuses an
   * empty or missing one, and `create` is the only way rows are written.
   */
  predicate DatedHistory(history: seq<HistRow>)
  {
    forall k :: 0 <= k < |history| ==> history[k].date != ""
  }

  predicate Wf(db: Db)
  {
    && UniqueLatest(db.latest)
    && UniqueHistory(db.history)
    && DatedHistory(db.history)
    && FundsKeyed(db.funds)
    && (forall k :: 0 <= k < |db.holdings| ==> ValidHolding(db.holdings[k]))
    && DistinctUsers(db.users)
  }

  // ---------------------------------------------------------------- latest NAV

  /** `findOne({ schemeCode })`: the first latest record for the code in collection order. */
  function FindLatest(latest: seq<LatestNav>, code: int): (r: Option<LatestNav>)
    ensures r.Some? ==> r.value in latest && r.value.schemeCode == code
    ensures r.None? <==> forall i :: 0 <= i < |latest| ==> latest[i].schemeCode != code
  {
    if |latest| == 0 then None
    else if latest[0].schemeCode == code then Some(latest[0])
    else FindLatest(latest[1..], code)
  }

  /** `findOneAndUpdate({ schemeCode }, { nav, date }, { upsert: true })`: replace in place, else append. */
  function UpsertLatest(latest: seq<LatestNav>, code: int, nav: real, date: string): (r: seq<LatestNav>)
    ensures FindLatest(r, code) == Some(LatestNav(code, nav, date))
    ensures |r| == |latest| + (if FindLatest(latest, code).None? then 1 else 0)
    ensures forall i :: 0 <= i < |latest| ==> r[i].schemeCode == latest[i].schemeCode
  {
    if |latest| == 0 then [LatestNav(code, nav, date)]
    else if latest[0].schemeCode == code then [LatestNav(code, nav, date)] + latest[1..]
    else [latest[0]] + UpsertLatest(latest[1..], code, nav, date)
  }

  /** An upsert for one code leaves every other code's latest record as it was. */
  lemma {:induction false} UpsertKeepsOthers(latest: seq<LatestNav>, code: int, nav: real, date: string, c: int)
    requires c != code
    ensures FindLatest(UpsertLatest(latest, code, nav, date), c) == FindLatest(latest, c)
  {
    if |latest| > 0 && latest[0].schemeCode != code {
      UpsertKeepsOthers(latest[1..], code, nav, date, c);
      var r := UpsertLatest(latest, code, nav, date);
      assert r[1..] == UpsertLatest(latest[1..], code, nav, date);
    } else if |latest| > 0 {
      var r := UpsertLatest(latest, code, nav, date);
      assert r[1..] == latest[1..];
    }
  }

  lemma UpsertKeepsAllOthers(latest: seq<LatestNav>, code: int, nav: real, date: string)
    ensures forall c :: c != code ==> FindLatest(UpsertLatest(latest, code, nav, date), c) == FindLatest(latest, c)
  {
    forall c | c != code
      ensures FindLatest(UpsertLatest(latest, code, nav, date), c) == FindLatest(latest, c)
    {
      UpsertKeepsOthers(latest, code, nav, date, c);
    }
  }

  /** Re-coding nothing: a sequence with the same codes position by position stays unique. */
  lemma SameCodesUnique(latest: seq<LatestNav>, r: seq<LatestNav>)
    requires UniqueLatest(latest) && |r| == |latest|
    requires forall k :: 0 <= k < |latest| ==> r[k].schemeCode == latest[k].schemeCode
    ensures UniqueLatest(r)
  {
  }

  /** Appending a record of a code not yet present keeps the codes unique. */
  lemma FreshCodeUnique(latest: seq<LatestNav>, r: seq<LatestNav>, code: int)
    requires UniqueLatest(latest) && |r| == |latest| + 1
    requires forall k :: 0 <= k < |latest| ==> r[k].schemeCode == latest[k].schemeCode != code
    requires r[|latest|].schemeCode == code
    ensures UniqueLatest(r)
  {
  }

  /** Upserting a code with no latest record appends that record at the end. */
  lemma {:induction false} UpsertAppendsFresh(latest: seq<LatestNav>, code: int, nav: real, date: string)
    requires FindLatest(latest, code).None?
    ensures UpsertLatest(latest, code, nav, date) == latest + [LatestNav(code, nav, date)]
  {
    if |latest| > 0 {
      assert latest[0].schemeCode != code;
      UpsertAppendsFresh(latest[1..], code, nav, date);
      ConsAppend(latest, UpsertLatest(latest[1..], code, nav, date), LatestNav(code, nav, date));
    }
  }

  lemma ConsAppend<T>(s: seq<T>, rest: seq<T>, x: T)
    requires |s| > 0 && rest == s[1..] + [x]
    ensures [s[0]] + rest == s + [x]
  {
    assert s == [s[0]] + s[1..];
  }

  /** Upserts keep the latest collection free of duplicate codes. */
  lemma UpsertKeepsUnique(latest: seq<LatestNav>, code: int, nav: real, date: string)
    ensures UniqueLatest(latest) ==> UniqueLatest(UpsertLatest(latest, code, nav, date))
  {
    var r := UpsertLatest(latest, code, nav, date);
    if UniqueLatest(latest) && FindLatest(latest, code).None? {
      UpsertAppendsFresh(latest, code, nav, date);
      FreshCodeUnique(latest, r, code);
    } else if UniqueLatest(latest) {
      SameCodesUnique(latest, r);
    }
  }

  /** Upserting the record that is already the code's latest changes nothing. */
  lemma {:induction false} UpsertCurrentIsNoOp(latest: seq<LatestNav>, code: int, nav: real, date: string)
    requires FindLatest(latest, code) == Some(LatestNav(code, nav, date))
    ensures UpsertLatest(latest, code, nav, date) == latest
  {
    if latest[0].schemeCode != code {
      UpsertCurrentIsNoOp(latest[1..], code, nav, date);
      assert [latest[0]] + latest[1..] == latest;
    } else {
      assert [latest[0]] + latest[1..] == latest;
    }
  }

  // ---------------------------------------------------------------- history

  /** `findOne({ schemeCode, date })` finds a row. */
  predicate HasRow(history: seq<HistRow>, code: int, date: string)
  {
    exists i | 0 <= i < |history| :: history[i].schemeCode == code && history[i].date == date
  }

  /** A history whose rows all carry a date has no undated row for any code. */
  lemma UndatedRowsAbsent(history: seq<HistRow>, code: int)
    ensures DatedHistory(history) ==> !HasRow(history, code, "")
  {
  }

  /** The message of the validation error `create` throws for a history row without a date. */
  const DateRequired := "FundNavHistory validation failed: date: Path `date` is required."

  /**
   * The history write goes through: a row for (code, date) already exists, so nothing is
   * created, or the new row's date passes the `required` validator.
   */
  predicate HistoryAccepts(history: seq<HistRow>, code: int, date: string)
  {
    HasRow(history, code, date) || date != ""
  }

  /**
   * `findOne({ schemeCode, date })`, then `create` when nothing was found: a row is
   * inserted only for a new (code, date), never updated, and `create` fails validation
   * on an empty date.
   */
  function RecordHistory(history: seq<HistRow>, code: int, nav: real, date: string): (r: Result<seq<HistRow>>)
    ensures r.Ok? <==> HistoryAccepts(history, code, date)
    ensures r.Err? ==> r.error == DateRequired
    ensures r.Ok? ==> && HasRow(r.value, code, date)
                      && |history| <= |r.value| <= |history| + 1 && r.value[..|history|] == history
                      && (|r.value| == |history| <==> HasRow(history, code, date))
                      && (|r.value| > |history| ==> r.value[|history|] == HistRow(code, nav, date))
                      && (UniqueHistory(history) ==> UniqueHistory(r.value))
                      && (DatedHistory(history) ==> DatedHistory(r.value))
  {
    if HasRow(history, code, date) then Ok(history)
    else if date == "" then Err(DateRequired)
    else
      var r := history + [HistRow(code, nav, date)];
      assert r[|history|].schemeCode == code && r[|history|].date == date;
      Ok(r)
  }

  /**
   * One reconciliation's writes, in the source's order: the latest record for `code`
   * becomes (nav, date), last write wins, since the upsert runs no validators; then a
   * history row is added for a new date. The reply is the error the history write
   * throws, if any; the upsert before it stays written.
   */
  function RecordQuote(db: Db, code: int, nav: real, date: string): (s: Step<Option<string>>)
    ensures FindLatest(s.db.latest, code) == Some(LatestNav(code, nav, date))
    ensures forall c :: c != code ==> FindLatest(s.db.latest, c) == FindLatest(db.latest, c)
    ensures s.reply.None? <==> HistoryAccepts(db.history, code, date)
    ensures s.reply.Some? ==> s.reply.value == DateRequired && s.db.history == db.history
    ensures s.reply.None? ==> HasRow(s.db.history, code, date)
    ensures |db.history| <= |s.db.history| <= |db.history| + 1 && s.db.history[..|db.history|] == db.history
    ensures |s.db.history| == |db.history| <==> HasRow(db.history, code, date) || date == ""
    ensures |s.db.history| > |db.history| ==> s.db.history[|db.history|] == HistRow(code, nav, date)
    ensures s.db.funds == db.funds && s.db.holdings == db.holdings && s.db.users == db.users
    ensures Wf(db) ==> Wf(s.db)
  {
    UpsertKeepsAllOthers(db.latest, code, nav, date);
    UpsertKeepsUnique(db.latest, code, nav, date);
    var upserted := db.(latest := UpsertLatest(db.latest, code, nav, date));
    match RecordHistory(db.history, code, nav, date)
    case Ok(history) => Step(upserted.(history := history), None)
    case Err(e) => Step(upserted, Some(e))
  }

  /** Recording the same quote twice has the effect, and the outcome, of recording it once. */
  lemma RecordQuoteIdempotent(db: Db, code: int, nav: real, date: string)
    ensures var once := RecordQuote(db, code, nav, date);
            RecordQuote(once.db, code, nav, date) == once
  {
    var once := RecordQuote(db, code, nav, date);
    UpsertCurrentIsNoOp(once.db.latest, code, nav, date);
  }

  /**
   * A second quote for a date already recorded overwrites the latest record but leaves
   * the history exactly as it was, so the first-seen NAV of that day is kept.
   */
  lemma SameDateKeepsHistory(db: Db, code: int, nav1: real, nav2: real, date: string)
    ensures RecordQuote(RecordQuote(db, code, nav1, date).db, code, nav2, date).db.history
         == RecordQuote(db, code, nav1, date).db.history
    ensures FindLatest(RecordQuote(RecordQuote(db, code, nav1, date).db, code, nav2, date).db.latest, code)
         == Some(LatestNav(code, nav2, date))
  {
  }

  // ---------------------------------------------------------------- holdings

  function CodesOf(holdings: seq<Holding>): (r: seq<int>)
    ensures |r| == |holdings|
    ensures forall i :: 0 <= i < |holdings| ==> r[i] == holdings[i].schemeCode
  {
    seq(|holdings|, i requires 0 <= i < |holdings| => holdings[i].schemeCode)
  }

  /** `Portfolio.distinct("schemeCode")`: each scheme code some holding references, once. */
  function DistinctSchemeCodes(holdings: seq<Holding>): (r: seq<int>)
    ensures NoDups(r)
    ensures forall c :: c in r <==> exists k :: 0 <= k < |holdings| && holdings[k].schemeCode == c
  {
    var codes := CodesOf(holdings);
    assert forall c :: c in codes <==> exists k :: 0 <= k < |holdings| && holdings[k].schemeCode == c;
    Dedup(codes)
  }
}

=== FILE: text.dfy ===
/**
 * Character classes and string helpers with the meaning JavaScript gives them:
 * the `\s`, `\d` and `\w` classes of regular expressions, `String.prototype.split`,
 * `includes`, `toLowerCase`, and the decimal text of an integer.
 */
module Text {

  /** JavaScript's white space and line terminators: the `\s` class, also what `trim` removes. */
  predicate IsSpace(c: char)
  {
    || c == ' ' || c == '\t' || c == '\n' || c == '\r' || c == '\U{000B}' || c == '\U{000C}'
    || c == '\U{00A0}' || c == '\U{1680}' || ('\U{2000}' <= c <= '\U{200A}')
    || c == '\U{2028}' || c == '\U{2029}' || c == '\U{202F}' || c == '\U{205F}'
    || c == '\U{3000}' || c == '\U{FEFF}'
  }

  /** The characters a regular-expression `.` does not match. */
  predicate IsLineTerminator(c: char)
  {
    c == '\n' || c == '\r' || c == '\U{2028}' || c == '\U{2029}'
  }

  predicate IsDigit(c: char) { '0' <= c <= '9' }
  predicate IsLower(c: char) { 'a' <= c <= 'z' }
  predicate IsUpper(c: char) { 'A' <= c <= 'Z' }

  /** The `\w` class: ASCII letters, digits and the underscore. */
  predicate IsWordChar(c: char) { IsLower(c) || IsUpper(c) || IsDigit(c) || c == '_' }

  function LowerChar(c: char): char
  {
    if IsUpper(c) then (c as int - 'A' as int + 'a' as int) as char else c
  }

  /** `toLowerCase`, restricted to the ASCII letters. */
  function Lower(s: string): (r: string)
    ensures |r| == |s|
    ensures forall i :: 0 <= i < |s| ==> r[i] == LowerChar(s[i])
  {
    seq(|s|, i requires 0 <= i < |s| => LowerChar(s[i]))
  }

  /** `s.includes(q)`: `q` occurs in `s` at some position. */
  predicate Contains(s: string, q: string)
  {
    exists i | 0 <= i <= |s| - |q| :: OccursAt(s, q, i)
  }

  /** `q` occurs in `s` starting at index `i`. */
  predicate OccursAt(s: string, q: string, i: int)
  {
    0 <= i && i + |q| <= |s| && s[i..i + |q|] == q
  }

  /** `s.split(sep)` for a one-character separator: the maximal separator-free pieces, in order. */
  function Split(s: string, sep: char): (parts: seq<string>)
    ensures |parts| >= 1
    ensures forall k :: 0 <= k < |parts| ==> sep !in parts[k]
    decreases |s|
  {
    if |s| == 0 then [""]
    else
      var rest := Split(s[1..], sep);
      if s[0] == sep then [""] + rest
      else [[s[0]] + rest[0]] + rest[1..]
  }

  /** `parts.join(sep)`. */
  function Join(parts: seq<string>, sep: char): string
    requires |parts| >= 1
    decreases |parts|
  {
    if |parts| == 1 then parts[0] else parts[0] + [sep] + Join(parts[1..], sep)
  }

  /** Splitting and joining again on the same separator gives back the original text. */
  lemma {:induction false} JoinSplit(s: string, sep: char)
    ensures Join(Split(s, sep), sep) == s
    decreases |s|
  {
    if |s| > 0 {
      JoinSplit(s[1..], sep);
      var rest := Split(s[1..], sep);
      if s[0] == sep {
        assert Split(s, sep) == [""] + rest;
        assert ([""] + rest)[1..] == rest;
      } else {
        var parts := Split(s, sep);
        assert parts == [[s[0]] + rest[0]] + rest[1..];
        if |rest| == 1 {
          assert Join(parts, sep) == [s[0]] + rest[0];
        } else {
          assert parts[1..] == rest[1..];
          assert Join(rest, sep) == rest[0] + [sep] + Join(rest[1..], sep);
        }
        assert s == [s[0]] + s[1..];
      }
    }
  }

  /** Text without the separator splits into itself alone. */
  lemma {:induction false} SplitWithoutSeparator(t: string, sep: char)
    requires sep !in t
    ensures Split(t, sep) == [t]
    decreases |t|
  {
    if |t| > 0 {
      assert sep !in t[1..];
      SplitWithoutSeparator(t[1..], sep);
      assert [t[0]] + t[1..] == t;
    }
  }

  /** A separator-free head followed by the separator splits off as the first piece. */
  lemma {:induction false} SplitAfterHead(a: string, sep: char, rest: string)
    requires sep !in a
    ensures Split(a + [sep] + rest, sep) == [a] + Split(rest, sep)
    decreases |a|
  {
    var s := a + [sep] + rest;
    if |a| == 0 {
      assert s == [sep] + rest;
      assert s[1..] == rest;
    } else {
      assert s[1..] == a[1..] + [sep] + rest;
      assert sep !in a[1..];
      SplitAfterHead(a[1..], sep, rest);
      assert [a[0]] + a[1..] == a;
    }
  }

  /** The two-piece split a `Bearer` header needs, in both directions. */
  lemma SplitTwo(s: string, sep: char, a: string, b: string)
    ensures Split(s, sep) == [a, b] <==> s == a + [sep] + b && sep !in a && sep !in b
  {
    if Split(s, sep) == [a, b] {
      JoinSplit(s, sep);
      assert Join([a, b], sep) == a + [sep] + Join([b], sep);
    }
    if s == a + [sep] + b && sep !in a && sep !in b {
      SplitAfterHead(a, sep, b);
      SplitWithoutSeparator(b, sep);
    }
  }

  function DigitChar(d: nat): char
    requires d < 10
  {
    ('0' as int + d) as char
  }

  /** The decimal text of a natural number, without leading zeros. */
  function NatText(n: nat): (r: string)
    ensures |r| >= 1
    ensures forall i :: 0 <= i < |r| ==> IsDigit(r[i])
    decreases n
  {
    if n < 10 then [DigitChar(n)] else NatText(n / 10) + [DigitChar(n % 10)]
  }

  /** The text JavaScript's template literals give an integer. */
  function IntText(n: int): (r: string)
    ensures |r| >= 1
  {
    if n < 0 then "-" + NatText(-n) else NatText(n)
  }
}

=== FILE: wrappers.dfy ===
/** Optional values and results with an error message, shared by every module. */
module Wrappers {

  /** A value that may be absent (JavaScript `null` / `undefined`, or NaN for numbers). */
  datatype Option<+T> = None | Some(value: T)

  /** The outcome of an operation that can throw: a value, or the thrown error's message. */
  datatype Result<+T> = Ok(value: T) | Err(error: string)
}
